=== FILE: README.md ===
# Batiendo con Amor — a verified model of the bakery's order and catalogue rules

Batiendo con Amor is a small bakery management system. A Spring backend
stores clients, products, option categories (fillings, sizes,
decorations), their options, orders and expenses. A Next.js frontend
takes orders, shows the statistics and the finances, and edits the
catalogue. This project models the business rules of both halves as pure
Dafny functions over immutable records and proves what they promise:

- **Order creation and lifecycle** (`PedidoService`).
  - An order is built from a request by looking up the client, every
    product and every option.
  - Missing or inactive rows are refused with the error the service
    throws, in the order it checks them.
  - Prices are frozen, each line's subtotal is base price times quantity
    plus every extra times quantity, and the total is the extra price plus
    the subtotals.
  - The lifecycle has three flags, set by cancel (no guard), deliver and
    pay (both refused on a cancelled order).
- **Catalogue services** (`ProductoService`, `ClienteService`,
  `OpcionService`).
  - The repository is a map from generated ids to rows (`Tables`).
  - Products and clients are soft-deleted: only `activo` changes.
  - Options are deleted for real, unless a stored order line still refers
    to them: the database's foreign key then refuses the delete.
- **Page logic** (`NuevoPedido`, `Dashboard`, `Finanzas`, `PedidosPage`,
  `ProductosPage`, `ClientesPage`).
  - The new-order page: the cart, the options shown for a product, the
    submit checks and the price estimate. The estimate is proved equal to
    the backend total.
  - The home page: its four statistics, including the best client (the
    first key of greatest spend).
  - The finance page: the balance and the expense form.
  - The order list: the sort state and comparator, with a stable sort
    proved to be a sorted permutation.
  - The product page: the form and the "N cm" unit encoding and decoding.
  - The client page: the active and blocked lists, the form and the
    block/unblock button.

Money is exact, in integer cents, both in the backend (`BigDecimal`) and on
the pages. Dates are `(year, month, day)` triples (`Calendar`). "Today" and
the current moment are parameters. A page-level JavaScript number that can
be NaN (what `parseFloat` gives for a cleared number input) is
`Numbers.JsNum`.

The order record carries `precioAdicional`, `entregado` and `pagado`.
`PedidoServiceImpl` sets all three, although the entity and request classes
in the repository do not declare them. The model follows the service code.
A line's `cantidad` is an `Integer` in the request and a `BigDecimal` in
the entity, and neither the service nor the new-order page checks it, so
the model takes it as an integer of either sign.

Modules: `Wrappers` (Option/Result), `Strings`, `Calendar`, `Seqs`,
`Numbers`, `Tables`, `Entities`, the four services, `Views` (the JSON
records the pages receive), and one module per page.

## Model

| member | source | states |
|---|---|---|
| PedidoService.AgregarOpciones | backend/src/main/java/com/batiendoconamor/backend/service/impl/PedidoServiceImpl.java:76-96 | the options loop succeeds exactly when every listed id names an option, and otherwise fails with "option not found"; on success it appends one snapshot per id, in order, with the option's current price, and adds price times quantity to the line's subtotal for each |
| PedidoService.ArmarDetalle | backend/src/main/java/com/batiendoconamor/backend/service/impl/PedidoServiceImpl.java:57-98 | a line is accepted exactly when its product exists and is active and all its options exist; the error is "product not found", then "product not available" with its name, then "option not found"; an accepted line copies product and quantity, freezes the base price, has one option snapshot per id (none when the list is null), and a subtotal of base times quantity plus the sum of the extras times quantity |
| PedidoService.AgregarDetalles | backend/src/main/java/com/batiendoconamor/backend/service/impl/PedidoServiceImpl.java:54-105 | the products loop succeeds exactly when every line is acceptable and otherwise reports the error of the first refused line; on success it appends one faithful line per request, in request order, adds their subtotals to the running total, and sets the notes only when at least one line was processed |
| PedidoService.ArmarPedido | backend/src/main/java/com/batiendoconamor/backend/service/impl/PedidoServiceImpl.java:30-107 | the order is built exactly when the client exists and is active and every line is acceptable; a missing client, then an inactive one, then the first refused line decides the error; the built order is dated at the given moment, is due at the start of the requested day, has the extra price (0 when null), one detail per request entry in order, a total of the extra price plus all subtotals, notes only when there are details, and no flag set |
| PedidoService.CrearPedido | backend/src/main/java/com/batiendoconamor/backend/service/impl/PedidoServiceImpl.java:29-111 | a refused request stores nothing and reports the expected error; an accepted one is saved under a fresh id, holds exactly the built order, and leaves every other stored order as it was |
| PedidoService.ExtrasPorId | backend/src/main/java/com/batiendoconamor/backend/service/impl/PedidoServiceImpl.java:77-94 | the frozen extras of a line sum to the current prices of its option ids with one term per occurrence, so an id listed twice is charged twice |
| PedidoService.CancelarPedido | backend/src/main/java/com/batiendoconamor/backend/service/impl/PedidoServiceImpl.java:117-123 | cancel fails only on a missing id ("order not found"); otherwise it sets `cancelado` on that order and changes nothing else in the store |
| PedidoService.EntregarPedido | backend/src/main/java/com/batiendoconamor/backend/service/impl/PedidoServiceImpl.java:125-135 | deliver fails exactly on a missing or a cancelled order, with the matching error; otherwise it sets only `entregado` on that order and changes nothing else |
| PedidoService.ConfirmarPago | backend/src/main/java/com/batiendoconamor/backend/service/impl/PedidoServiceImpl.java:137-147 | pay fails exactly on a missing or a cancelled order, with the matching error; otherwise it sets only `pagado` on that order and changes nothing else |
| PedidoService.EjecutarAvanza | backend/src/main/java/com/batiendoconamor/backend/service/impl/PedidoServiceImpl.java:117-147 | after any sequence of cancel, deliver and pay requests every order is still stored with its data intact, no flag is ever cleared, and an order cancelled at the start is never delivered or paid afterwards |
| PedidoService.CancelarIdempotente | backend/src/main/java/com/batiendoconamor/backend/service/impl/PedidoServiceImpl.java:117-123 | cancelling an order twice leaves the store as cancelling it once |
| PedidoService.CanceladoEsFinal | backend/src/main/java/com/batiendoconamor/backend/service/impl/PedidoServiceImpl.java:117-147 | once an order is cancelled, delivering it and paying it are both refused with the cancelled-order errors |
| PedidoService.EntregarPagarConmutan | backend/src/main/java/com/batiendoconamor/backend/service/impl/PedidoServiceImpl.java:125-147 | on a live order, delivering then paying and paying then delivering both succeed and give the same store |
| ProductoService.ListarProductos | backend/src/main/java/com/batiendoconamor/backend/service/impl/ProductoServiceImpl.java:22-27 | with `soloActivos` the listing holds exactly the active products, without it every product, each as stored |
| ProductoService.AtributosEncontrados | backend/src/main/java/com/batiendoconamor/backend/service/impl/ProductoServiceImpl.java:37-40 | looking up a list of attribute ids keeps exactly the listed ids that name an attribute, dropping unknown ones and duplicates |
| ProductoService.CrearProducto | backend/src/main/java/com/batiendoconamor/backend/service/impl/ProductoServiceImpl.java:30-43 | a created product is active under a fresh id, has name, unit and base price from the request, the attributes found for the given ids (none when the list is null), and no other product changes |
| ProductoService.ActualizarProducto | backend/src/main/java/com/batiendoconamor/backend/service/impl/ProductoServiceImpl.java:46-60 | update fails exactly on a missing id; otherwise it copies name, unit and price, keeps `activo`, replaces the attributes only when ids are given (and then by the ones found), and changes no other product |
| ProductoService.EliminarProducto | backend/src/main/java/com/batiendoconamor/backend/service/impl/ProductoServiceImpl.java:63-69 | delete fails exactly on a missing id; otherwise it only sets `activo` to false on that product |
| ProductoService.ActivarProducto | backend/src/main/java/com/batiendoconamor/backend/service/impl/ProductoServiceImpl.java:71-77 | activate fails exactly on a missing id; otherwise it only sets `activo` to true on that product |
| ProductoService.EliminarIdempotente | backend/src/main/java/com/batiendoconamor/backend/service/impl/ProductoServiceImpl.java:63-69 | deleting a product twice is deleting it once |
| ProductoService.EliminarActivarRestaura | backend/src/main/java/com/batiendoconamor/backend/service/impl/ProductoServiceImpl.java:63-77 | reactivating a deleted product that was active restores the store exactly |
| ProductoService.EliminadoNoSeVende | backend/src/main/java/com/batiendoconamor/backend/service/impl/ProductoServiceImpl.java:22-69 | a deleted product leaves the active listing but stays in the full one, and no other product's presence in either listing changes |
| ProductoService.ActualizarConservaEstado | backend/src/main/java/com/batiendoconamor/backend/service/impl/ProductoServiceImpl.java:46-60 | an update never adds a product to, or removes it from, the active listing |
| ClienteService.ListarClientes | backend/src/main/java/com/batiendoconamor/backend/service/impl/ClienteServiceImpl.java:20-28 | with `soloActivos` the listing holds exactly the active clients, without it every client, each as stored |
| ClienteService.CrearCliente | backend/src/main/java/com/batiendoconamor/backend/service/impl/ClienteServiceImpl.java:31-40 | a created client is active under a fresh id with the four contact fields from the request, and no other client changes |
| ClienteService.ActualizarCliente | backend/src/main/java/com/batiendoconamor/backend/service/impl/ClienteServiceImpl.java:43-53 | update fails exactly on a missing id; otherwise it copies the four fields, keeps `activo`, and changes no other client |
| ClienteService.EliminarCliente | backend/src/main/java/com/batiendoconamor/backend/service/impl/ClienteServiceImpl.java:56-62 | blocking fails exactly on a missing id; otherwise it only sets `activo` to false on that client |
| ClienteService.ActivarCliente | backend/src/main/java/com/batiendoconamor/backend/service/impl/ClienteServiceImpl.java:64-70 | unblocking fails exactly on a missing id; otherwise it only sets `activo` to true on that client |
| ClienteService.EliminarActivarIdempotentes | backend/src/main/java/com/batiendoconamor/backend/service/impl/ClienteServiceImpl.java:56-70 | blocking twice is blocking once, and unblocking twice is unblocking once |
| ClienteService.EliminarActivarRestaura | backend/src/main/java/com/batiendoconamor/backend/service/impl/ClienteServiceImpl.java:56-70 | unblocking a client blocked from an active state restores the store exactly |
| ClienteService.ActualizarUltimaGana | backend/src/main/java/com/batiendoconamor/backend/service/impl/ClienteServiceImpl.java:43-53 | editing a client twice leaves the store as the second edit alone |
| OpcionService.ListarTodas | backend/src/main/java/com/batiendoconamor/backend/service/impl/OpcionServiceImpl.java:21-23 | the listing holds every stored option, as stored |
| OpcionService.CrearOpcion | backend/src/main/java/com/batiendoconamor/backend/service/impl/OpcionServiceImpl.java:29-41 | create succeeds exactly when the attribute id is given and names an attribute, failing on a null id and then on an unknown attribute; the new option, under a fresh id, has the request's name and price and is linked to that attribute, and no other option changes |
| OpcionService.ActualizarOpcion | backend/src/main/java/com/batiendoconamor/backend/service/impl/OpcionServiceImpl.java:43-58 | update fails on a missing option, then on a given but unknown attribute; otherwise it copies name and price, moves the option to the given attribute only when one is given, and changes no other option |
| OpcionService.EliminarOpcion | backend/src/main/java/com/batiendoconamor/backend/service/impl/OpcionServiceImpl.java:60-65 | delete fails, changing nothing, exactly when the option exists and a stored order line refers to it; otherwise it removes exactly that option, if present, and leaves every other option as it was |
| OpcionService.EliminarConservaIntegridad | backend/src/main/java/com/batiendoconamor/backend/entity/DetalleOpcion.java:30-32 | when every option the stored orders refer to exists, a delete that goes through keeps it so, and a refused delete names an option some order line refers to |
| OpcionService.EliminarDefinitivo | backend/src/main/java/com/batiendoconamor/backend/service/impl/OpcionServiceImpl.java:29-65 | once a delete goes through, deleting the option again changes nothing, and a later option never receives the deleted option's id |
| Calendar.StartOfDay | backend/src/main/java/com/batiendoconamor/backend/service/impl/PedidoServiceImpl.java:35 | the delivery moment is the requested day at time 0 |
| Calendar.IsoDate | frontend/src/app/pedidos/nuevo/page.tsx:11-18 | today's text for a four-digit year is ten characters with dashes at positions 4 and 7 (year, zero-padded month, zero-padded day) |
| Calendar.IsoDateOrder | frontend/src/app/pedidos/nuevo/page.tsx:11-18 | for four-digit years, one date's text is less than another's as a string exactly when it is the earlier day |
| Calendar.OrdinalOrder | frontend/src/app/pedidos/page.tsx:52-55 | the number standing for a delivery timestamp is smaller exactly when the moment is chronologically earlier (day first, then time), and equal exactly for the same moment |
| NuevoPedido.AgregarProducto | frontend/src/app/pedidos/nuevo/page.tsx:62-75 | an unknown product id leaves the cart unchanged; a known one appends, after the untouched cart, one line of the first product listed with that id, with the given temporary id, quantity 1 and no options |
| NuevoPedido.AgregarEliminar | frontend/src/app/pedidos/nuevo/page.tsx:62-99 | removing the line just added, under a temporary id no other line has, gives back the cart as it was |
| NuevoPedido.ToggleOpcion | frontend/src/app/pedidos/nuevo/page.tsx:79-94 | the cart keeps its length; lines with another temporary id are unchanged; on the targeted lines product and quantity are kept and the option list is the toggled list: the option's membership flips, every other option's membership is kept, a new option goes at the end, and a chosen one is removed with every copy, the rest keeping their order |
| Seqs.Toggle | frontend/src/app/pedidos/nuevo/page.tsx:86-90 | an absent id is appended at the end; a present id is removed with every copy, by the filter that keeps every other id in its order; so membership of that id flips and of every other id is kept |
| Seqs.ToggleNoDuplicates | frontend/src/app/pedidos/nuevo/page.tsx:86-90 | a list of ids without repeats stays without repeats after a toggle |
| NuevoPedido.ToggleOpcionSinRepetidos | frontend/src/app/pedidos/nuevo/page.tsx:79-94 | when no line lists an option twice, none does after a toggle, so the backend charges each chosen option once |
| NuevoPedido.EliminarItem | frontend/src/app/pedidos/nuevo/page.tsx:97-99 | no remaining line has that temporary id, every other line remains, and the remaining lines keep their relative order |
| NuevoPedido.OpcionesVisibles | frontend/src/app/pedidos/nuevo/page.tsx:256-268 | the shown options keep the list's order; a product without valid attributes shows every option; an option without a category is shown; otherwise an option is shown exactly when its category is among the product's |
| NuevoPedido.DetallesDe | frontend/src/app/pedidos/nuevo/page.tsx:123-127 | the request lines have the cart's length and order, with product id, quantity and option ids copied from each line |
| NuevoPedido.ProcesarPedido | frontend/src/app/pedidos/nuevo/page.tsx:102-135 | the order is posted exactly when a client is chosen, a date is given, the date text is not before today's and the cart is not empty; otherwise the first failing check, in that order, is reported (no client, no date, a past date, an empty cart); a posted order carries the client, date, notes and the cart's lines |
| NuevoPedido.FechaPasadaEsAnterior | frontend/src/app/pedidos/nuevo/page.tsx:112-115 | for a date picked in the date input, the text comparison with today refuses exactly the days before today |
| NuevoPedido.ExtraDe | frontend/src/app/pedidos/nuevo/page.tsx:148-151 | an option id the page does not list contributes 0; a listed id contributes the extra of its first listing |
| NuevoPedido.OpcionDesconocidaNoSuma | frontend/src/app/pedidos/nuevo/page.tsx:145-154 | choosing an option the page does not list leaves the estimate of the line's extras unchanged |
| NuevoPedido.TotalEstimado | frontend/src/app/pedidos/nuevo/page.tsx:145-154 | a one-line cart is estimated at that line's price; with no negative line the estimate is not negative and covers every line |
| NuevoPedido.TotalEstimadoConcat | frontend/src/app/pedidos/nuevo/page.tsx:145-154 | the estimate of two carts joined is the sum of their estimates |
| NuevoPedido.LineaCoincide | frontend/src/app/pedidos/nuevo/page.tsx:146-152 | with the page's prices current, a cart line's estimate is the subtotal the backend computes for that line |
| NuevoPedido.EstimadoCoincideConBackend | frontend/src/app/pedidos/nuevo/page.tsx:145-154 | with the page's prices current, every chosen option found and no extra price sent, the estimate equals the total the backend computes for the posted order |
| Dashboard.Pendientes | frontend/src/app/page.tsx:30-41 | the pending count is the number of positions holding an order not cancelled, not paid, not delivered and due today or later; it is at most the number of orders and is 0 exactly when no order is pending |
| Dashboard.PagosPendientes | frontend/src/app/page.tsx:44 | the count is the number of positions holding an order neither cancelled nor paid; it is at most the number of orders and 0 exactly when there is none |
| Dashboard.IngresosMes | frontend/src/app/page.tsx:47-56 | the month's income is the sum of the totals (missing as 0) of the paid, not cancelled orders delivered in today's month and year, and with no negative totals never exceeds the sum of all totals |
| Dashboard.Calcular | frontend/src/app/page.tsx:29-88 | the four cards: both counts are the numbers of positions holding a pending order and an order awaiting payment, the first never exceeds the second nor the second the number of orders, the income is the sum over the orders paid, not cancelled and delivered this month, and the best client is '-' or a name with a spending order |
| Dashboard.Sumar | frontend/src/app/page.tsx:66-69 | adding to the per-name object keeps the keys distinct; a new name is added at the end with the amount, an existing one keeps its place and gains the amount while every other entry is unchanged |
| Dashboard.GastosPorCliente | frontend/src/app/page.tsx:59-70 | the per-client object has each full name at most once |
| Dashboard.GastosClaves | frontend/src/app/page.tsx:59-70 | the object's keys are exactly the full names with a paid, not cancelled order, so clients sharing a full name share an entry |
| Dashboard.GastosTotales | frontend/src/app/page.tsx:59-70 | each entry holds the sum of the totals of its name's paid, not cancelled orders |
| Dashboard.AusenteNoGasta | frontend/src/app/page.tsx:59-70 | a name without a paid, not cancelled order spent nothing |
| Dashboard.GastosOrden | frontend/src/app/page.tsx:59-70 | the entries come in the order in which their names first spent |
| Dashboard.MejorEsPrimerMaximo | frontend/src/app/page.tsx:73-81 | the scan stays at '-' with 0 exactly when no total is positive; otherwise it ends on an entry whose total is at least every other total and strictly greater than every earlier one |
| Dashboard.MejorCliente | frontend/src/app/page.tsx:59-81 | the best client is '-' or the full name of a client with a paid, not cancelled order, and is '-' when there is no such order |
| Dashboard.MejorClienteCorrecto | frontend/src/app/page.tsx:59-81 | the best client is '-' exactly when no name spent more than 0; otherwise it is a name that spent a positive amount, at least as much as every other name, and strictly more than every name that first spent before it |
| Dashboard.CanceladosNoCuentan | frontend/src/app/page.tsx:29-88 | removing the cancelled orders changes none of the four statistics |
| Dashboard.GastosSinCancelados | frontend/src/app/page.tsx:59-70 | the per-client object is the same with or without the cancelled orders |
| Finanzas.Resumir | frontend/src/app/finanzas/page.tsx:70-72 | the income is the sales total and the expenses the expense total; the net profit is the income minus the expenses; the page is profitable exactly when the expenses do not exceed the income |
| Finanzas.TotalVentas | frontend/src/app/finanzas/page.tsx:29-35 | the sales total is the sum of the totals (missing as 0) of every order not cancelled, paid or not; with no negative total it never exceeds the sum over all orders |
| Finanzas.TotalGastos | frontend/src/app/finanzas/page.tsx:70 | the expense total of no expense is 0 and of one expense its amount (missing as 0), so with `Finanzas.TotalGastosConcat` it is the sum of the amounts; with no negative amount it is not negative and at least each single amount |
| Finanzas.IngresosMesAcotados | frontend/src/app/finanzas/page.tsx:29-35 | with no negative totals, the home page's income of the month never exceeds this page's sales total |
| Finanzas.TotalGastosConcat | frontend/src/app/finanzas/page.tsx:70 | the expense total (missing amounts as 0) of two lists joined is the sum of their totals |
| Finanzas.TotalGastosReverso | frontend/src/app/finanzas/page.tsx:26-70 | reversing the expense list for display does not change its total |
| Finanzas.BalanceNoDependeDelOrden | frontend/src/app/finanzas/page.tsx:26-72 | the balance cards are the same whichever order the expenses come in |
| Finanzas.FormInicial | frontend/src/app/finanzas/page.tsx:13-17 | the form opens with no description, amount 0 and the given day's date |
| Finanzas.AceptaSoloDifiereEnNaN | frontend/src/app/finanzas/page.tsx:52 | every form the intended check accepts the written check accepts too, and they disagree exactly on a described expense whose amount is NaN |
| Finanzas.NaNPasaComoEsta | frontend/src/app/finanzas/page.tsx:50-61 | a described expense whose amount field was cleared is posted with a NaN amount by the save as written, and refused by the intended save |
| Finanzas.GuardarComoEsta | frontend/src/app/finanzas/page.tsx:50-61 | save as written posts exactly the forms its check accepts, posts the form unchanged, and then clears description and amount and keeps the date |
| Finanzas.Guardar | frontend/src/app/finanzas/page.tsx:50-61 | save posts exactly a described expense with a positive amount, posts the form unchanged, and then clears description and amount and keeps the date |
| Finanzas.GuardarNoRepite | frontend/src/app/finanzas/page.tsx:56 | the cleared form that follows a save is refused under both checks |
| PedidosPage.HandleSort | frontend/src/app/pedidos/page.tsx:39-46 | the clicked column always becomes the key; the direction becomes descending exactly when that column was already the key and ascending |
| PedidosPage.HandleSortAlterna | frontend/src/app/pedidos/page.tsx:39-46 | clicking the same column flips the direction each time, with period two, and clicking another column starts it ascending |
| PedidosPage.ColumnaDe | frontend/src/app/pedidos/page.tsx:52-62 | a key falls to no column exactly when it is none of "entrega", "cliente" and "id" |
| PedidosPage.DescNiegaAsc | frontend/src/app/pedidos/page.tsx:64 | the descending comparator is the exact negation of the ascending one |
| PedidosPage.CompararAntisimetrico | frontend/src/app/pedidos/page.tsx:48-65 | swapping the two orders flips the comparison's sign and keeps a tie a tie |
| PedidosPage.CompararTransitivo | frontend/src/app/pedidos/page.tsx:48-65 | "not after" is transitive under every key and direction |
| PedidosPage.Ordenar | frontend/src/app/pedidos/page.tsx:48-65 | the sorted copy is a permutation of the orders in which no order comes after a later one under the comparator, and, for every order, the orders tied with it come in the order they came (the sort is stable) |
| PedidosPage.CompararSignifica | frontend/src/app/pedidos/page.tsx:48-65 | the comparator is negative when the first order goes first and 0 on a tie: by id, by lower-cased full name, or by delivery moment (for valid moments), reversed when descending; any other key ties every pair |
| PedidosPage.ClaveDesconocidaConservaOrden | frontend/src/app/pedidos/page.tsx:48-65 | under an unrecognised key the stable sort returns the list in its original order |
| PedidosPage.OrdenPorId | frontend/src/app/pedidos/page.tsx:60-61 | sorted by id, the ids are non-decreasing ascending and non-increasing descending |
| PedidosPage.OrdenPorEntrega | frontend/src/app/pedidos/page.tsx:52-55 | sorted by delivery ascending, no order is due strictly before one listed above it |
| PedidosPage.OrdenPorCliente | frontend/src/app/pedidos/page.tsx:56-59 | sorted by client ascending, the lower-cased full names never step back |
| ProductosPage.Guardar | frontend/src/app/productos/page.tsx:48-77 | save refuses a blank trimmed name, then a price that compares at most 0, then for "cm" an empty size or one parsing to at most 0; otherwise it sends the form with the final unit ("N cm" for "cm", the unit itself otherwise), as an update exactly when an id is being edited |
| ProductosPage.Decodificar | frontend/src/app/productos/page.tsx:88-99 | a size is shown only with "cm"; a missing unit shows as "unidad"; a unit not ending in " cm" is shown as it is, with no size; a unit ending in " cm" shows as "cm" with the first part as size when it splits on spaces into exactly two parts and the first reads as a number, and otherwise is shown as it is, with no size |
| ProductosPage.CmIdaYVuelta | frontend/src/app/productos/page.tsx:56-99 | a space-free numeric size packed as "N cm" unpacks to unit "cm" with that same size |
| ProductosPage.UnidadSimpleIdaYVuelta | frontend/src/app/productos/page.tsx:88-99 | the selector's other units unpack to themselves with no size |
| ProductosPage.CargarParaEditar | frontend/src/app/productos/page.tsx:85-107 | editing a product sets its id, its name (missing as ''), its price, its attribute ids in order, and the unit and size unpacked from its stored unit |
| ProductosPage.EditarSinCambiosConservaUnidad | frontend/src/app/productos/page.tsx:48-107 | opening a product stored with "N cm" and saving it untouched updates that product with the same unit text |
| ProductosPage.EditarSinCambiosUnidadSimple | frontend/src/app/productos/page.tsx:48-107 | opening a product stored with a plain unit and saving it untouched updates that product with the same unit |
| ProductosPage.ToggleAtributo | frontend/src/app/productos/page.tsx:125-140 | the attribute's membership flips, every other attribute's is kept, and the rest of the form and page state is unchanged |
| ProductosPage.CambiarUnidad | frontend/src/app/productos/page.tsx:181-184 | picking a unit sets it; the size is kept only when the unit is "cm" and cleared otherwise |
| ProductosPage.Limpiar | frontend/src/app/productos/page.tsx:112-116 | clearing leaves no edited id, an empty name, unit "unidad", price 0, no attributes and no size |
| ProductosPage.LimpioNoSeGuarda | frontend/src/app/productos/page.tsx:48-116 | a cleared form is refused for its blank name |
| ClientesPage.Particion | frontend/src/app/clientes/page.tsx:22-24 | the active and blocked lists hold only active and only blocked clients, together hold every fetched client exactly as often as fetched, and each keeps the fetched order |
| ClientesPage.Guardar | frontend/src/app/clientes/page.tsx:38-51 | save is refused exactly when first or last name is empty; otherwise it sends the form, as an update of the edited id exactly when that id is set, and as a new client otherwise |
| ClientesPage.CargarParaEditar | frontend/src/app/clientes/page.tsx:62-71 | editing a client sets its id and each of the four fields, a missing one as '' |
| ClientesPage.CancelarEdicion | frontend/src/app/clientes/page.tsx:76-79 | cancelling leaves no edited id and the four fields empty |
| ClientesPage.EditarSinCambios | frontend/src/app/clientes/page.tsx:38-74 | opening a named client and saving it untouched updates that client with its own data, missing contact fields as '' |
| ClientesPage.CanceladoNoSeGuarda | frontend/src/app/clientes/page.tsx:38-79 | the empty form left after cancelling is refused |
| ClientesPage.ToggleEstado | frontend/src/app/clientes/page.tsx:81-89 | an active client is blocked only once the user confirms, and a blocked one is always unblocked |
| ClientesPage.ToggleInvierteEstado | frontend/src/app/clientes/page.tsx:81-89 | when the page's copy agrees with the store, a confirmed press (or any press on a blocked client) flips that client's `activo` in the store and changes nothing else, and an unconfirmed press changes nothing |

## Left out

- HTTP and persistence are not modelled: controllers, the frontend service clients and the API wrapper. JPA repositories are replaced by `Tables`, a map from generated ids to rows. Ids are handed out increasing, like an identity column.
- Transactions: a failed creation is modelled as an error with no new store, which is what the rollback guarantees.
- Entities and DTOs are data shapes only, so they carry no behaviour.
- The expense service is a pass-through to its repository, so it is not modelled. The data seeder is a startup side effect and is left out too.
- The layout, sidebar, modals and configuration page are display and form plumbing.
- React state and effects, `alert`, `confirm`, the router and `window.scrollTo` are left out. Each page operation is a function from the old state to the new one. The user's answer to `confirm` is a parameter.
- Clock, time zone and `setHours` are left out. "Today", the current moment and the cart's `Date.now()` temporary id are parameters. The finance page's UTC `toISOString` default date is taken as a given text.
- Delivery moments that the home page reads back through `new Date` in the browser's zone are compared by calendar day only.
- `toLocaleString` and `toLocaleDateString` are display formatting, so they are not modelled.
- `localeCompare` is modelled as lexicographic order of Unicode code points, a strict total order. JavaScript compares UTF-16 code units, which orders characters outside the Basic Multilingual Plane differently. `toLowerCase` lowers only ASCII A-Z. `trim` removes the ASCII whitespace, the no-break space and the byte-order mark only, not the other Unicode space separators.
- `Number` and `parseFloat` are modelled only on plain signed decimal texts, which is what a number input yields. Exponents, hexadecimal, `Infinity`, surrounding whitespace and `parseFloat`'s prefix parsing are not modelled.
- JavaScript floating-point arithmetic is left out. Money is exact integer cents, so rounding of fractional prices on the pages is not modelled.
- A NaN cart quantity is not modelled. `parseInt` of a cleared quantity input gives NaN, but the model's quantity is an integer. A zero or negative quantity is modelled, since the page submits from a button without form validation and the backend does not check it.
- HTML constraint validation (`required`, `min`) is not modelled. Because the product form's price and size inputs are `required`, the NaN those fields could hold never reaches save. So no finding is raised for that page.
- `deleteById` on a missing option id is modelled as a no-op.
- Listings are modelled as maps from id to row, so the order in which `findAll` returns rows is not modelled.
- Null fields that would throw in Java (a null client or product id in a request, for instance) are not modelled. The one null the option service checks (`idAtributo` in creation) is modelled as the error `IdNulo`.
- A sales report by day, month or year range is described in the repository's documentation, but no code computes one. The code was followed, so no report is modelled.
- Calendar.IsoDate: its contract states the text's shape for four-digit years. Its meaning is stated by Calendar.IsoDateOrder.

## Findings

| source | as written | input that shows it | evidently intended | confidence | as-written member | corrected member |
|---|---|---|---|---|---|---|
| frontend/src/app/finanzas/page.tsx:52 | an expense is refused when the description is empty or `monto <= 0`, where `monto` is `parseFloat` of a number input that is not `required` | description "Harina" with the amount field cleared: `parseFloat("")` is NaN, `NaN <= 0` is false, so the expense is posted; `JSON.stringify` sends the NaN as `null`, the backend's `Gasto.monto` (a `BigDecimal` with no constraint) stores no amount, and the page then counts it as 0 | only a described expense with a positive numeric amount is posted | not executed | Finanzas.NaNPasaComoEsta | Finanzas.Guardar |

=== FILE: calendar.dfy ===
/** Calendar dates as (year, month, day) triples, independent of any time
    zone, plus the `YYYY-MM-DD` text the new-order page builds for "today". */
module Calendar {
  import opened Strings

  datatype Date = Date(year: int, month: int, day: int)

  /** A date with a time of day, as `LocalDateTime` holds it. */
  datatype DateTime = DateTime(date: Date, secondOfDay: nat)

  predicate IsLeapYear(y: int)
  {
    y % 4 == 0 && (y % 100 != 0 || y % 400 == 0)
  }

  function DaysInMonth(y: int, m: int): int
    requires 1 <= m <= 12
  {
    if m == 2 then (if IsLeapYear(y) then 29 else 28)
    else if m == 4 || m == 6 || m == 9 || m == 11 then 30
    else 31
  }

  predicate Valid(d: Date)
  {
    1 <= d.month <= 12 && 1 <= d.day <= DaysInMonth(d.year, d.month)
  }

  predicate ValidDateTime(t: DateTime)
  {
    Valid(t.date) && t.secondOfDay < 86400
  }

  /** `a` is a strictly earlier calendar day than `b`. */
  predicate Before(a: Date, b: Date)
  {
    a.year < b.year
    || (a.year == b.year && a.month < b.month)
    || (a.year == b.year && a.month == b.month && a.day < b.day)
  }

  /** `LocalDate.atStartOfDay()`. */
  function StartOfDay(d: Date): (t: DateTime)
    ensures t.date == d && t.secondOfDay == 0
  {
    DateTime(d, 0)
  }

  /** An order-preserving number for a moment, standing in for the
      millisecond timestamp of `Date.prototype.getTime`. */
  function Ordinal(t: DateTime): int
  {
    ((t.date.year * 13 + t.date.month) * 32 + t.date.day) * 86400 + t.secondOfDay
  }

  /** Comparing ordinals compares moments chronologically: first the day,
      then the time of day. */
  lemma OrdinalOrder(s: DateTime, t: DateTime)
    requires ValidDateTime(s) && ValidDateTime(t)
    ensures Ordinal(s) < Ordinal(t) <==> Before(s.date, t.date) || (s.date == t.date && s.secondOfDay < t.secondOfDay)
    ensures Ordinal(s) == Ordinal(t) <==> s == t
  {
    var a, b := s.date, t.date;
    var ma, mb := a.year * 13 + a.month, b.year * 13 + b.month;
    assert ma < mb <==> a.year < b.year || (a.year == b.year && a.month < b.month);
    assert ma == mb <==> a.year == b.year && a.month == b.month;
    var da, db := ma * 32 + a.day, mb * 32 + b.day;
    assert da < db <==> ma < mb || (ma == mb && a.day < b.day);
    assert da == db <==> ma == mb && a.day == b.day;
    assert Ordinal(s) == da * 86400 + s.secondOfDay;
    assert Ordinal(t) == db * 86400 + t.secondOfDay;
  }

  /** The text `${year}-${month padded to 2}-${day padded to 2}` built from
      the local calendar date. */
  function IsoDate(d: Date): (r: string)
    requires Valid(d) && d.year >= 0
    ensures 1000 <= d.year <= 9999 ==> |r| == 10 && r[4] == '-' && r[7] == '-'
  {
    if 1000 <= d.year <= 9999 then IsoDateShape(d); IsoDateText(d) else IsoDateText(d)
  }

  function IsoDateText(d: Date): string
    requires Valid(d) && d.year >= 0
  {
    Decimal(d.year) + "-" + PadStart(Decimal(d.month), 2, '0') + "-" + PadStart(Decimal(d.day), 2, '0')
  }

  /** A date of a four-digit year prints as fixed-width fields. */
  lemma IsoDateFixed(d: Date)
    requires Valid(d) && 1000 <= d.year <= 9999
    ensures IsoDateText(d) == Fixed(d.year, 4) + "-" + Fixed(d.month, 2) + "-" + Fixed(d.day, 2)
  {
    assert Pow10(3) == 1000 && Pow10(4) == 10000;
    DecimalIsFixed(d.year, 4);
    PadTwoIsFixed(d.month);
    PadTwoIsFixed(d.day);
  }

  lemma IsoDateShape(d: Date)
    requires Valid(d) && 1000 <= d.year <= 9999
    ensures |IsoDateText(d)| == 10 && IsoDateText(d)[4] == '-' && IsoDateText(d)[7] == '-'
  {
    IsoDateFixed(d);
  }

  /** Comparing `x1-y1` with `x2-y2` where the `x` parts have the same
      length compares the `x` parts first and the `y` parts on a tie. */
  lemma DashOrder(x1: string, y1: string, x2: string, y2: string)
    requires |x1| == |x2|
    ensures LexLess(x1 + "-" + y1, x2 + "-" + y2) <==> LexLess(x1, x2) || (x1 == x2 && LexLess(y1, y2))
  {
    assert x1 + "-" + y1 == x1 + ("-" + y1);
    assert x2 + "-" + y2 == x2 + ("-" + y2);
    LexLessConcat(x1, "-" + y1, x2, "-" + y2);
    LexLessConcat("-", y1, "-", y2);
    LexLessIrreflexive("-");
  }

  /** `Y-M-D` texts whose year and month parts have matching lengths
      compare field by field. */
  lemma FieldsOrderText(ya: string, ma: string, da: string, yb: string, mb: string, db: string)
    requires |ya| == |yb| && |ma| == |mb|
    ensures LexLess(ya + "-" + ma + "-" + da, yb + "-" + mb + "-" + db)
        <==> LexLess(ya, yb) || (ya == yb && LexLess(ma, mb)) || (ya == yb && ma == mb && LexLess(da, db))
  {
    var pa, pb := ya + "-" + ma, yb + "-" + mb;
    DashOrder(ya, ma, yb, mb);
    DashOrder(pa, da, pb, db);
    assert pa == pb <==> ya == yb && ma == mb by {
      if pa == pb {
        assert ya == pa[..|ya|] && yb == pb[..|ya|];
        assert ma == pa[|ya| + 1..] && mb == pb[|ya| + 1..];
      }
    }
  }

  /** `FieldsOrderText` with each field comparison replaced by the numeric
      comparison it is known to mean. */
  lemma FieldsOrderCombined(ya: string, ma: string, da: string, yb: string, mb: string, db: string,
                            y1: int, m1: int, d1: int, y2: int, m2: int, d2: int)
    requires |ya| == |yb| && |ma| == |mb|
    requires (LexLess(ya, yb) <==> y1 < y2) && (ya == yb <==> y1 == y2)
    requires (LexLess(ma, mb) <==> m1 < m2) && (ma == mb <==> m1 == m2)
    requires LexLess(da, db) <==> d1 < d2
    ensures LexLess(ya + "-" + ma + "-" + da, yb + "-" + mb + "-" + db)
        <==> y1 < y2 || (y1 == y2 && m1 < m2) || (y1 == y2 && m1 == m2 && d1 < d2)
  {
    FieldsOrderText(ya, ma, da, yb, mb, db);
  }

  lemma FieldsOrderFacts(y1: nat, m1: nat, d1: nat, y2: nat, m2: nat, d2: nat, w4: nat, w2: nat)
    requires y1 < Pow10(w4) && y2 < Pow10(w4) && m1 < Pow10(w2) && m2 < Pow10(w2) && d1 < Pow10(w2) && d2 < Pow10(w2)
    ensures LexLess(Fixed(y1, w4), Fixed(y2, w4)) <==> y1 < y2
    ensures LexLess(Fixed(m1, w2), Fixed(m2, w2)) <==> m1 < m2
    ensures LexLess(Fixed(d1, w2), Fixed(d2, w2)) <==> d1 < d2
  {
    FixedOrder(y1, y2, w4);
    FixedOrder(m1, m2, w2);
    FixedOrder(d1, d2, w2);
  }

  lemma FieldsEqualFacts(y1: nat, m1: nat, y2: nat, m2: nat, w4: nat, w2: nat)
    requires y1 < Pow10(w4) && y2 < Pow10(w4) && m1 < Pow10(w2) && m2 < Pow10(w2)
    ensures Fixed(y1, w4) == Fixed(y2, w4) <==> y1 == y2
    ensures Fixed(m1, w2) == Fixed(m2, w2) <==> m1 == m2
  {
    FixedInjective(y1, y2, w4);
    FixedInjective(m1, m2, w2);
  }

  /** `YYYY-MM-DD` digit texts compare as their (year, month, day) fields. */
  lemma FieldsOrder(ta: string, tb: string, y1: nat, m1: nat, d1: nat, y2: nat, m2: nat, d2: nat)
    requires y1 < 10000 && y2 < 10000 && m1 < 100 && m2 < 100 && d1 < 100 && d2 < 100
    requires ta == Fixed(y1, 4) + "-" + Fixed(m1, 2) + "-" + Fixed(d1, 2)
    requires tb == Fixed(y2, 4) + "-" + Fixed(m2, 2) + "-" + Fixed(d2, 2)
    ensures LexLess(ta, tb) <==> y1 < y2 || (y1 == y2 && m1 < m2) || (y1 == y2 && m1 == m2 && d1 < d2)
  {
    assert Pow10(2) == 100 && Pow10(4) == 10000;
    FieldsOrderFacts(y1, m1, d1, y2, m2, d2, 4, 2);
    FieldsEqualFacts(y1, m1, y2, m2, 4, 2);
    FieldsOrderCombined(Fixed(y1, 4), Fixed(m1, 2), Fixed(d1, 2), Fixed(y2, 4), Fixed(m2, 2), Fixed(d2, 2),
                        y1, m1, d1, y2, m2, d2);
  }

  /** For dates of four-digit years, comparing the `YYYY-MM-DD` texts as
      strings is comparing the days chronologically. */
  lemma IsoDateOrder(a: Date, b: Date)
    requires Valid(a) && Valid(b)
    requires 1000 <= a.year <= 9999 && 1000 <= b.year <= 9999
    ensures LexLess(IsoDate(a), IsoDate(b)) <==> Before(a, b)
  {
    IsoDateTextOrder(a, b);
  }

  lemma IsoDateTextOrder(a: Date, b: Date)
    requires Valid(a) && Valid(b)
    requires 1000 <= a.year <= 9999 && 1000 <= b.year <= 9999
    ensures LexLess(IsoDateText(a), IsoDateText(b)) <==> Before(a, b)
  {
    assert 1 <= a.month <= 12 && 1 <= a.day <= 31 && 1 <= b.month <= 12 && 1 <= b.day <= 31;
    IsoDateFixed(a);
    IsoDateFixed(b);
    FieldsOrder(IsoDateText(a), IsoDateText(b), a.year, a.month, a.day, b.year, b.month, b.day);
  }
}

=== FILE: cliente_service.dfy ===
/** The client service: listing, creating, editing, and blocking or
    unblocking a client without ever removing the row. */
module ClienteService {
  import opened Wrappers
  import opened Tables
  import opened Entities

  datatype ClienteRequest = ClienteRequest(nombre: string, apellido: string, direccion: string, telefono: string)

  /** `listarClientes(soloActivos)`: the active clients, or all of them. */
  function ListarClientes(t: Table<Cliente>, soloActivos: bool): (r: map<int, Cliente>)
    ensures forall id :: id in r <==> id in t.rows && (!soloActivos || t.rows[id].activo)
    ensures forall id :: id in r ==> r[id] == t.rows[id]
  {
    Listar(t, (c: Cliente) => !soloActivos || c.activo)
  }

  /** `crearCliente`: a new active client with the four contact fields. */
  function CrearCliente(t: Table<Cliente>, dto: ClienteRequest): (r: Inserted<Cliente>)
    requires t.Valid()
    ensures r.table.Valid() && r.id !in t.rows
    ensures r.table.rows.Keys == t.rows.Keys + {r.id}
    ensures forall id :: id in t.rows ==> r.table.rows[id] == t.rows[id]
    ensures
      var c := r.table.rows[r.id];
      c.activo && c.nombre == dto.nombre && c.apellido == dto.apellido
      && c.direccion == dto.direccion && c.telefono == dto.telefono
  {
    Insert(t, Cliente(dto.nombre, dto.apellido, dto.direccion, dto.telefono, true))
  }

  /** `actualizarCliente`: fails on a missing id; copies the four fields and
      keeps `activo`. */
  function ActualizarCliente(t: Table<Cliente>, id: int, dto: ClienteRequest): (r: Result<Table<Cliente>, Error>)
    ensures r.Err? <==> id !in t.rows
    ensures r.Err? ==> r.error == ClienteNoEncontrado
    ensures r.Ok? ==> r.value.rows.Keys == t.rows.Keys && r.value.nextId == t.nextId
    ensures r.Ok? ==> forall k :: k in t.rows && k != id ==> r.value.rows[k] == t.rows[k]
    ensures r.Ok? ==>
      var c := r.value.rows[id];
      c.nombre == dto.nombre && c.apellido == dto.apellido
      && c.direccion == dto.direccion && c.telefono == dto.telefono
      && c.activo == t.rows[id].activo
  {
    if id !in t.rows then Err(ClienteNoEncontrado)
    else
      Ok(Put(t, id, t.rows[id].(nombre := dto.nombre, apellido := dto.apellido,
                                direccion := dto.direccion, telefono := dto.telefono)))
  }

  /** `eliminarCliente`: fails on a missing id, otherwise blocks the client
      and changes nothing else. */
  function EliminarCliente(t: Table<Cliente>, id: int): (r: Result<Table<Cliente>, Error>)
    ensures r.Err? <==> id !in t.rows
    ensures r.Err? ==> r.error == ClienteNoEncontrado
    ensures r.Ok? ==> r.value.rows.Keys == t.rows.Keys && r.value.nextId == t.nextId
    ensures r.Ok? ==> r.value.rows[id] == t.rows[id].(activo := false)
    ensures r.Ok? ==> forall k :: k in t.rows && k != id ==> r.value.rows[k] == t.rows[k]
  {
    if id !in t.rows then Err(ClienteNoEncontrado)
    else Ok(Put(t, id, t.rows[id].(activo := false)))
  }

  /** `activarCliente`: fails on a missing id, otherwise unblocks the client
      and changes nothing else. */
  function ActivarCliente(t: Table<Cliente>, id: int): (r: Result<Table<Cliente>, Error>)
    ensures r.Err? <==> id !in t.rows
    ensures r.Err? ==> r.error == ClienteNoEncontrado
    ensures r.Ok? ==> r.value.rows.Keys == t.rows.Keys && r.value.nextId == t.nextId
    ensures r.Ok? ==> r.value.rows[id] == t.rows[id].(activo := true)
    ensures r.Ok? ==> forall k :: k in t.rows && k != id ==> r.value.rows[k] == t.rows[k]
  {
    if id !in t.rows then Err(ClienteNoEncontrado)
    else Ok(Put(t, id, t.rows[id].(activo := true)))
  }

  /** Blocking twice is blocking once, and unblocking twice is unblocking once. */
  lemma EliminarActivarIdempotentes(t: Table<Cliente>, id: int)
    requires id in t.rows
    ensures EliminarCliente(EliminarCliente(t, id).value, id) == EliminarCliente(t, id)
    ensures ActivarCliente(ActivarCliente(t, id).value, id) == ActivarCliente(t, id)
  {
    var u := EliminarCliente(t, id).value;
    PutPut(t, id, t.rows[id].(activo := false), u.rows[id].(activo := false));
    var w := ActivarCliente(t, id).value;
    PutPut(t, id, t.rows[id].(activo := true), w.rows[id].(activo := true));
  }

  /** Unblocking a client that was blocked from an active state gives back
      the store exactly. */
  lemma EliminarActivarRestaura(t: Table<Cliente>, id: int)
    requires id in t.rows && t.rows[id].activo
    ensures ActivarCliente(EliminarCliente(t, id).value, id) == Ok(t)
  {
    var u := EliminarCliente(t, id).value;
    PutPut(t, id, t.rows[id].(activo := false), u.rows[id].(activo := true));
    PutSame(t, id);
  }

  /** Editing a client's contact data twice keeps only the second edit. */
  lemma ActualizarUltimaGana(t: Table<Cliente>, id: int, a: ClienteRequest, b: ClienteRequest)
    requires id in t.rows
    ensures ActualizarCliente(ActualizarCliente(t, id, a).value, id, b) == ActualizarCliente(t, id, b)
  {
    var u := ActualizarCliente(t, id, a).value;
    var c := t.rows[id];
    assert u.rows[id].(nombre := b.nombre, apellido := b.apellido, direccion := b.direccion, telefono := b.telefono)
        == c.(nombre := b.nombre, apellido := b.apellido, direccion := b.direccion, telefono := b.telefono);
    PutPut(t, id, u.rows[id], c.(nombre := b.nombre, apellido := b.apellido, direccion := b.direccion, telefono := b.telefono));
  }
}

=== FILE: clientes_page.dfy ===
/** The clients page: the active and blocked lists, the form that creates
    or edits a client, and the button that blocks or unblocks one. */
module ClientesPage {
  import opened Wrappers
  import opened Strings
  import opened Seqs
  import opened Tables
  import opened Views
  import Entities
  import CS = ClienteService

  predicate Activo(c: ClienteV)
  {
    c.activo
  }

  predicate Inactivo(c: ClienteV)
  {
    !c.activo
  }

  datatype Listas = Listas(activos: seq<ClienteV>, inactivos: seq<ClienteV>)

  /** `cargarClientes`: the fetched list split by `activo`; every client
      lands in exactly one list, and each list keeps the fetched order. */
  function Particion(data: seq<ClienteV>): (r: Listas)
    ensures forall i :: 0 <= i < |r.activos| ==> r.activos[i].activo
    ensures forall i :: 0 <= i < |r.inactivos| ==> !r.inactivos[i].activo
    ensures multiset(r.activos) + multiset(r.inactivos) == multiset(data)
    ensures SubsequenceOf(r.activos, data) && SubsequenceOf(r.inactivos, data)
  {
    FilterComplement(data, Activo, Inactivo);
    FilterSubsequence(data, Activo);
    FilterSubsequence(data, Inactivo);
    Listas(Filter(data, Activo), Filter(data, Inactivo))
  }

  /** The page state: which client is edited, and the form. */
  datatype Estado = Estado(idEdicion: Option<int>, form: CS.ClienteRequest)

  datatype Envio = Rechazado | Actualizar(id: int, cliente: CS.ClienteRequest) | Crear(cliente: CS.ClienteRequest)

  /** `handleGuardar`: refuses a missing first or last name; otherwise sends
      the form, as an update when an id is being edited and as a new client
      when not. */
  function Guardar(e: Estado): (r: Envio)
    ensures r == Rechazado <==> e.form.nombre == "" || e.form.apellido == ""
    ensures r.Actualizar? <==> r != Rechazado && Truthy(e.idEdicion)
    ensures r.Actualizar? ==> r.id == e.idEdicion.value && r.cliente == e.form
    ensures r.Crear? ==> r.cliente == e.form
  {
    if e.form.nombre == "" || e.form.apellido == "" then Rechazado
    else if Truthy(e.idEdicion) then Actualizar(e.idEdicion.value, e.form)
    else Crear(e.form)
  }

  /** `cargarParaEditar`: edits that client, each missing field as ''. */
  function CargarParaEditar(c: ClienteV): (r: Estado)
    ensures r.idEdicion == Some(c.idCliente)
    ensures r.form.nombre == OrElse(c.nombre, "") && r.form.apellido == OrElse(c.apellido, "")
    ensures r.form.direccion == OrElse(c.direccion, "") && r.form.telefono == OrElse(c.telefono, "")
  {
    Estado(Some(c.idCliente), CS.ClienteRequest(OrElse(c.nombre, ""), OrElse(c.apellido, ""),
                                                OrElse(c.direccion, ""), OrElse(c.telefono, "")))
  }

  /** `cancelarEdicion`: leaves edit mode with an empty form. */
  function CancelarEdicion(): (r: Estado)
    ensures r.idEdicion.None?
    ensures r.form == CS.ClienteRequest("", "", "", "")
  {
    Estado(None, CS.ClienteRequest("", "", "", ""))
  }

  /** Saving a client opened for editing updates that client with its own
      data, the missing contact fields sent as ''. */
  lemma EditarSinCambios(c: ClienteV)
    requires c.idCliente != 0
    requires c.nombre.Some? && c.nombre.value != "" && c.apellido.Some? && c.apellido.value != ""
    ensures Guardar(CargarParaEditar(c))
      == Actualizar(c.idCliente, CS.ClienteRequest(c.nombre.value, c.apellido.value,
                                                   OrElse(c.direccion, ""), OrElse(c.telefono, "")))
  {
  }

  /** After a save the page cancels the edit; that form is refused. */
  lemma CanceladoNoSeGuarda()
    ensures Guardar(CancelarEdicion()) == Rechazado
  {
  }

  // ---------------------------------------------------------------------
  // Blocking and unblocking
  // ---------------------------------------------------------------------

  /** The backend call the button makes. */
  datatype Llamada = Eliminar(id: int) | Activar(id: int)

  /** `toggleEstado`: blocks an active client only once the user confirms,
      and always unblocks a blocked one. */
  function ToggleEstado(c: ClienteV, confirmado: bool): (r: Option<Llamada>)
    ensures c.activo && !confirmado ==> r.None?
    ensures c.activo && confirmado ==> r == Some(Eliminar(c.idCliente))
    ensures !c.activo ==> r == Some(Activar(c.idCliente))
  {
    if c.activo then (if confirmado then Some(Eliminar(c.idCliente)) else None)
    else Some(Activar(c.idCliente))
  }

  /** The service behind each call. */
  function Despachar(t: Table<Entities.Cliente>, l: Option<Llamada>): Result<Table<Entities.Cliente>, Entities.Error>
  {
    match l
    case None => Ok(t)
    case Some(Eliminar(id)) => CS.EliminarCliente(t, id)
    case Some(Activar(id)) => CS.ActivarCliente(t, id)
  }

  /** When the page's copy agrees with the store, a confirmed press flips
      that client's state in the store and changes nothing else; an
      unconfirmed press changes nothing. */
  lemma ToggleInvierteEstado(t: Table<Entities.Cliente>, c: ClienteV, confirmado: bool)
    requires c.idCliente in t.rows && t.rows[c.idCliente].activo == c.activo
    ensures c.activo && !confirmado ==> Despachar(t, ToggleEstado(c, confirmado)) == Ok(t)
    ensures confirmado || !c.activo ==>
      var r := Despachar(t, ToggleEstado(c, confirmado));
      r.Ok? && r.value.rows.Keys == t.rows.Keys
      && r.value.rows[c.idCliente] == t.rows[c.idCliente].(activo := !c.activo)
      && forall k :: k in t.rows && k != c.idCliente ==> r.value.rows[k] == t.rows[k]
  {
  }
}

=== FILE: dashboard.dfy ===
/** The home page statistics: pending orders, pending payments, this
    month's income and the client who spent the most. */
module Dashboard {
  import opened Wrappers
  import opened Calendar
  import opened Seqs
  import opened Views

  predicate NoCancelado(p: PedidoV)
  {
    !p.cancelado
  }

  /** Still to be made: not cancelled, paid or delivered, and due today or
      later (both sides taken at midnight, so only the day counts). */
  predicate Pendiente(p: PedidoV, hoy: Date)
  {
    !p.cancelado && !p.pagado && !p.entregado && !Before(p.fechaEntrega.date, hoy)
  }

  function EsPendiente(hoy: Date): PedidoV -> bool
  {
    p => Pendiente(p, hoy)
  }

  predicate PagoPendiente(p: PedidoV)
  {
    !p.cancelado && !p.pagado
  }

  /** Paid, not cancelled, and delivered in the month and year of today. */
  predicate IngresoDelMes(p: PedidoV, hoy: Date)
  {
    !p.cancelado && p.pagado && p.fechaEntrega.date.month == hoy.month && p.fechaEntrega.date.year == hoy.year
  }

  function EsIngresoDelMes(hoy: Date): PedidoV -> bool
  {
    p => IngresoDelMes(p, hoy)
  }

  /** The number of pending orders: how many positions hold one; 0 exactly
      when none is pending. */
  function Pendientes(ps: seq<PedidoV>, hoy: Date): (r: nat)
    ensures r == |set i | 0 <= i < |ps| && Pendiente(ps[i], hoy)|
    ensures r <= |ps|
    ensures r == 0 <==> forall i :: 0 <= i < |ps| ==> !Pendiente(ps[i], hoy)
  {
    var f := Filter(ps, EsPendiente(hoy));
    CuentaPendientes(ps, hoy);
    if |f| > 0 then assert Pendiente(f[0], hoy); |f| else |f|
  }

  /** The number of orders not cancelled and not paid: how many positions
      hold one; 0 exactly when there is none. */
  function PagosPendientes(ps: seq<PedidoV>): (r: nat)
    ensures r == |set i | 0 <= i < |ps| && PagoPendiente(ps[i])|
    ensures r <= |ps|
    ensures r == 0 <==> forall i :: 0 <= i < |ps| ==> !PagoPendiente(ps[i])
  {
    var f := Filter(ps, PagoPendiente);
    CuentaPagosPendientes(ps);
    if |f| > 0 then assert PagoPendiente(f[0]); |f| else |f|
  }

  lemma CuentaPendientes(ps: seq<PedidoV>, hoy: Date)
    ensures |Filter(ps, EsPendiente(hoy))| == |set i | 0 <= i < |ps| && Pendiente(ps[i], hoy)|
  {
    FilterCount(ps, EsPendiente(hoy));
    assert Positions(ps, EsPendiente(hoy)) == set i | 0 <= i < |ps| && Pendiente(ps[i], hoy);
  }

  lemma CuentaPagosPendientes(ps: seq<PedidoV>)
    ensures |Filter(ps, PagoPendiente)| == |set i | 0 <= i < |ps| && PagoPendiente(ps[i])|
  {
    FilterCount(ps, PagoPendiente);
    assert Positions(ps, PagoPendiente) == set i | 0 <= i < |ps| && PagoPendiente(ps[i]);
  }

  /** The income of the month: the totals of the orders paid, not cancelled
      and delivered this month; with no negative totals, never more than
      the sum of all totals. */
  function IngresosMes(ps: seq<PedidoV>, hoy: Date): (r: int)
    ensures r == SumaTotales(Filter(ps, EsIngresoDelMes(hoy)))
    ensures (forall i :: 0 <= i < |ps| ==> MontoOCero(ps[i].total) >= 0) ==> r <= SumaTotales(ps)
  {
    SumaSiFiltra(ps, EsIngresoDelMes(hoy));
    if forall i :: 0 <= i < |ps| ==> MontoOCero(ps[i].total) >= 0 then
      SumaFiltradaAcotada(ps, EsIngresoDelMes(hoy));
      SumaSi(ps, EsIngresoDelMes(hoy))
    else SumaSi(ps, EsIngresoDelMes(hoy))
  }

  // ---------------------------------------------------------------------
  // Spending per client
  // ---------------------------------------------------------------------

  /** An entry of the object keyed by full name. */
  datatype Entrada = Entrada(nombre: string, total: int)

  predicate Distintas(es: seq<Entrada>)
  {
    forall i, j :: 0 <= i < j < |es| ==> es[i].nombre != es[j].nombre
  }

  predicate TieneClave(es: seq<Entrada>, nombre: string)
  {
    exists i :: 0 <= i < |es| && es[i].nombre == nombre
  }

  /** `gastos[nombre] += monto`, the key created at the end when new. */
  function Sumar(es: seq<Entrada>, nombre: string, monto: int): (r: seq<Entrada>)
    requires Distintas(es)
    ensures Distintas(r)
    ensures !TieneClave(es, nombre) ==> r == es + [Entrada(nombre, monto)]
    ensures TieneClave(es, nombre) ==> |r| == |es| && forall i :: 0 <= i < |es| ==>
      r[i].nombre == es[i].nombre && r[i].total == es[i].total + (if es[i].nombre == nombre then monto else 0)
  {
    if es == [] then [Entrada(nombre, monto)]
    else if es[0].nombre == nombre then [es[0].(total := es[0].total + monto)] + es[1..]
    else
      var r := [es[0]] + Sumar(es[1..], nombre, monto);
      assert TieneClave(es, nombre) <==> TieneClave(es[1..], nombre) by {
        if TieneClave(es, nombre) {
          var i :| 0 <= i < |es| && es[i].nombre == nombre;
          assert es[1..][i - 1] == es[i];
        }
      }
      r
  }

  /** The orders that count as spending: paid and not cancelled. */
  predicate Gasta(p: PedidoV)
  {
    !p.cancelado && p.pagado
  }

  function Clave(p: PedidoV): string
  {
    NombreCompleto(p.cliente)
  }

  /** The `forEach` that fills the per-client object, in the order of the
      orders. */
  function GastosPorCliente(ps: seq<PedidoV>): (r: seq<Entrada>)
    ensures Distintas(r)
  {
    if ps == [] then []
    else
      var prev, p := GastosPorCliente(ps[..|ps| - 1]), ps[|ps| - 1];
      if Gasta(p) then Sumar(prev, Clave(p), MontoOCero(p.total)) else prev
  }

  /** What a full name spent: the totals of its paid, not cancelled orders. */
  function GastoDe(ps: seq<PedidoV>, nombre: string): int
  {
    if ps == [] then 0
    else
      var p := ps[|ps| - 1];
      GastoDe(ps[..|ps| - 1], nombre) + (if Gasta(p) && Clave(p) == nombre then MontoOCero(p.total) else 0)
  }

  predicate Aparece(ps: seq<PedidoV>, nombre: string)
  {
    exists k :: 0 <= k < |ps| && Gasta(ps[k]) && Clave(ps[k]) == nombre
  }

  /** The position of the first spending order of that name; `|ps|` if none. */
  function PrimeraVez(ps: seq<PedidoV>, nombre: string): (r: nat)
    ensures r <= |ps|
  {
    if ps == [] then 0
    else if Gasta(ps[0]) && Clave(ps[0]) == nombre then 0
    else 1 + PrimeraVez(ps[1..], nombre)
  }

  lemma {:induction false} PrimeraVezDice(ps: seq<PedidoV>, nombre: string)
    ensures PrimeraVez(ps, nombre) < |ps| <==> Aparece(ps, nombre)
    ensures PrimeraVez(ps, nombre) < |ps| ==>
      Gasta(ps[PrimeraVez(ps, nombre)]) && Clave(ps[PrimeraVez(ps, nombre)]) == nombre
  {
    if ps != [] && !(Gasta(ps[0]) && Clave(ps[0]) == nombre) {
      PrimeraVezDice(ps[1..], nombre);
      if Aparece(ps, nombre) {
        var k :| 0 <= k < |ps| && Gasta(ps[k]) && Clave(ps[k]) == nombre;
        assert ps[1..][k - 1] == ps[k];
      }
      if Aparece(ps[1..], nombre) {
        var k :| 0 <= k < |ps[1..]| && Gasta(ps[1..][k]) && Clave(ps[1..][k]) == nombre;
        assert ps[k + 1] == ps[1..][k];
      }
    }
  }

  /** An order added at the end does not move the first appearance of a
      name already present. */
  lemma {:induction false} PrimeraVezSnoc(ps: seq<PedidoV>, x: PedidoV, nombre: string)
    ensures PrimeraVez(ps, nombre) < |ps| ==> PrimeraVez(ps + [x], nombre) == PrimeraVez(ps, nombre)
    ensures PrimeraVez(ps, nombre) == |ps| && Gasta(x) && Clave(x) == nombre ==> PrimeraVez(ps + [x], nombre) == |ps|
  {
    if ps == [] {
      assert [] + [x] == [x];
    } else {
      assert (ps + [x])[1..] == ps[1..] + [x];
      PrimeraVezSnoc(ps[1..], x, nombre);
    }
  }

  lemma AparecePrefijo(ps: seq<PedidoV>, nombre: string)
    requires ps != []
    ensures Aparece(ps, nombre) <==>
      Aparece(ps[..|ps| - 1], nombre) || (Gasta(ps[|ps| - 1]) && Clave(ps[|ps| - 1]) == nombre)
  {
    var q := ps[..|ps| - 1];
    if Aparece(q, nombre) {
      var k :| 0 <= k < |q| && Gasta(q[k]) && Clave(q[k]) == nombre;
      assert ps[k] == q[k];
    }
  }

  /** The object's keys are exactly the names with a spending order. */
  lemma {:induction false} GastosClaves(ps: seq<PedidoV>)
    ensures forall n :: TieneClave(GastosPorCliente(ps), n) <==> Aparece(ps, n)
    decreases |ps|
  {
    if ps != [] {
      var q, p := ps[..|ps| - 1], ps[|ps| - 1];
      GastosClaves(q);
      var prev := GastosPorCliente(q);
      forall n ensures TieneClave(GastosPorCliente(ps), n) <==> Aparece(ps, n) {
        AparecePrefijo(ps, n);
        if Gasta(p) {
          var r := Sumar(prev, Clave(p), MontoOCero(p.total));
          if TieneClave(prev, Clave(p)) {
            if TieneClave(prev, n) {
              var i :| 0 <= i < |prev| && prev[i].nombre == n;
              assert r[i].nombre == n;
            }
            if TieneClave(r, n) {
              var i :| 0 <= i < |r| && r[i].nombre == n;
              assert prev[i].nombre == n;
            }
          } else {
            assert r[|prev|].nombre == Clave(p);
            if TieneClave(prev, n) {
              var i :| 0 <= i < |prev| && prev[i].nombre == n;
              assert r[i].nombre == n;
            }
            if TieneClave(r, n) && n != Clave(p) {
              var i :| 0 <= i < |r| && r[i].nombre == n;
              assert prev[i].nombre == n;
            }
          }
        }
      }
    }
  }

  /** Each entry holds what its name spent. */
  lemma {:induction false} GastosTotales(ps: seq<PedidoV>)
    ensures forall i :: 0 <= i < |GastosPorCliente(ps)| ==>
      GastosPorCliente(ps)[i].total == GastoDe(ps, GastosPorCliente(ps)[i].nombre)
    decreases |ps|
  {
    if ps != [] {
      var q, p := ps[..|ps| - 1], ps[|ps| - 1];
      GastosTotales(q);
      GastosClaves(q);
      var prev := GastosPorCliente(q);
      if Gasta(p) && !TieneClave(prev, Clave(p)) {
        AusenteNoGasta(q, Clave(p));
      }
    }
  }

  /** A name without spending orders spent nothing. */
  lemma {:induction false} AusenteNoGasta(ps: seq<PedidoV>, nombre: string)
    requires !Aparece(ps, nombre)
    ensures GastoDe(ps, nombre) == 0
    decreases |ps|
  {
    if ps != [] {
      AparecePrefijo(ps, nombre);
      AusenteNoGasta(ps[..|ps| - 1], nombre);
    }
  }

  /** The entries come in the order in which their names first spent. */
  lemma {:induction false} GastosOrden(ps: seq<PedidoV>)
    ensures forall i, j :: 0 <= i < j < |GastosPorCliente(ps)| ==>
      PrimeraVez(ps, GastosPorCliente(ps)[i].nombre) < PrimeraVez(ps, GastosPorCliente(ps)[j].nombre)
    decreases |ps|
  {
    if ps != [] {
      var q, p := ps[..|ps| - 1], ps[|ps| - 1];
      assert ps == q + [p];
      GastosOrden(q);
      GastosClaves(q);
      var prev := GastosPorCliente(q);
      var r := GastosPorCliente(ps);
      assert forall i :: 0 <= i < |prev| ==> TieneClave(prev, prev[i].nombre);
      forall i | 0 <= i < |prev|
        ensures PrimeraVez(ps, prev[i].nombre) == PrimeraVez(q, prev[i].nombre) < |q|
      {
        PrimeraVezDice(q, prev[i].nombre);
        PrimeraVezSnoc(q, p, prev[i].nombre);
      }
      if Gasta(p) && !TieneClave(prev, Clave(p)) {
        PrimeraVezDice(q, Clave(p));
        PrimeraVezSnoc(q, p, Clave(p));
        assert r == prev + [Entrada(Clave(p), MontoOCero(p.total))];
      }
    }
  }

  // ---------------------------------------------------------------------
  // Best client
  // ---------------------------------------------------------------------

  /** The running best of the `forEach` over the entries. */
  datatype Podio = Podio(nombre: string, maximo: int)

  function Mejor(es: seq<Entrada>): Podio
  {
    if es == [] then Podio("-", 0)
    else
      var m, e := Mejor(es[..|es| - 1]), es[|es| - 1];
      if e.total > m.maximo then Podio(e.nombre, e.total) else m
  }

  /** The scan keeps the first entry of strictly greatest total, and stays
      at `'-'` exactly when no total is positive. */
  lemma {:induction false} MejorEsPrimerMaximo(es: seq<Entrada>)
    ensures (forall i :: 0 <= i < |es| ==> es[i].total <= 0) <==> Mejor(es) == Podio("-", 0)
    ensures Mejor(es).maximo >= 0
    ensures forall i :: 0 <= i < |es| ==> es[i].total <= Mejor(es).maximo
    ensures Mejor(es) != Podio("-", 0) ==>
      exists i :: 0 <= i < |es| && es[i] == Entrada(Mejor(es).nombre, Mejor(es).maximo)
        && forall j :: 0 <= j < i ==> es[j].total < Mejor(es).maximo
    decreases |es|
  {
    if es != [] {
      var q, e := es[..|es| - 1], es[|es| - 1];
      MejorEsPrimerMaximo(q);
      var m := Mejor(q);
      assert forall i :: 0 <= i < |q| ==> es[i] == q[i];
      if e.total > m.maximo {
        assert es[|es| - 1] == Entrada(Mejor(es).nombre, Mejor(es).maximo);
      } else if m != Podio("-", 0) {
        var i :| 0 <= i < |q| && q[i] == Entrada(m.nombre, m.maximo) && forall j :: 0 <= j < i ==> q[j].total < m.maximo;
        assert es[i] == q[i];
      }
    }
  }

  /** `mejorCliente`: `'-'` or the name of a client with a spending order;
      `'-'` whenever no order is paid and not cancelled. */
  function MejorCliente(ps: seq<PedidoV>): (r: string)
    ensures r == "-" || Aparece(ps, r)
    ensures (forall k :: 0 <= k < |ps| ==> !Gasta(ps[k])) ==> r == "-"
  {
    var es := GastosPorCliente(ps);
    MejorEsPrimerMaximo(es);
    GastosClaves(ps);
    if Mejor(es) != Podio("-", 0) then
      var i :| 0 <= i < |es| && es[i] == Entrada(Mejor(es).nombre, Mejor(es).maximo);
      assert TieneClave(es, es[i].nombre);
      Mejor(es).nombre
    else
      if es != [] then
        assert TieneClave(es, es[0].nombre);
        Mejor(es).nombre
      else Mejor(es).nombre
  }

  /** The best client is `'-'` exactly when no name spent more than 0;
      otherwise it is a name that spent the most, and every name that first
      spent before it spent strictly less. */
  lemma MejorClienteCorrecto(ps: seq<PedidoV>)
    ensures MejorCliente(ps) == "-" <==> forall n :: Aparece(ps, n) ==> GastoDe(ps, n) <= 0
    ensures MejorCliente(ps) != "-" ==>
      var m := MejorCliente(ps);
      Aparece(ps, m) && GastoDe(ps, m) > 0
      && (forall n :: Aparece(ps, n) ==> GastoDe(ps, n) <= GastoDe(ps, m))
      && (forall n :: Aparece(ps, n) && PrimeraVez(ps, n) < PrimeraVez(ps, m) ==> GastoDe(ps, n) < GastoDe(ps, m))
  {
    if Mejor(GastosPorCliente(ps)) == Podio("-", 0) {
      forall n | Aparece(ps, n) ensures GastoDe(ps, n) <= 0 {
        NadieSupera(ps, n);
      }
    } else {
      MejorAparece(ps);
      forall n | Aparece(ps, n)
        ensures GastoDe(ps, n) <= GastoDe(ps, MejorCliente(ps))
        ensures PrimeraVez(ps, n) < PrimeraVez(ps, MejorCliente(ps)) ==> GastoDe(ps, n) < GastoDe(ps, MejorCliente(ps))
      {
        MejorSupera(ps, n);
      }
    }
  }

  /** Every name with a spending order has its entry, holding what it spent. */
  lemma EntradaDe(ps: seq<PedidoV>, n: string) returns (i: nat)
    requires Aparece(ps, n)
    ensures i < |GastosPorCliente(ps)|
    ensures GastosPorCliente(ps)[i] == Entrada(n, GastoDe(ps, n))
  {
    var es := GastosPorCliente(ps);
    GastosClaves(ps);
    GastosTotales(ps);
    assert TieneClave(es, n);
    i :| 0 <= i < |es| && es[i].nombre == n;
  }

  lemma NadieSupera(ps: seq<PedidoV>, n: string)
    requires Mejor(GastosPorCliente(ps)) == Podio("-", 0)
    requires Aparece(ps, n)
    ensures GastoDe(ps, n) <= 0
  {
    MejorEsPrimerMaximo(GastosPorCliente(ps));
    var i := EntradaDe(ps, n);
  }

  /** The position of the entry a positive best comes from. */
  lemma PosicionDelMejor(es: seq<Entrada>) returns (i0: nat)
    requires Mejor(es) != Podio("-", 0)
    ensures i0 < |es| && es[i0] == Entrada(Mejor(es).nombre, Mejor(es).maximo) && Mejor(es).maximo > 0
    ensures forall j :: 0 <= j < i0 ==> es[j].total < Mejor(es).maximo
  {
    MejorEsPrimerMaximo(es);
    var b := Mejor(es);
    i0 :| 0 <= i0 < |es| && es[i0] == Entrada(b.nombre, b.maximo) && forall j :: 0 <= j < i0 ==> es[j].total < b.maximo;
  }

  lemma CotaDelMejor(es: seq<Entrada>, i: nat)
    requires i < |es|
    ensures es[i].total <= Mejor(es).maximo
  {
    MejorEsPrimerMaximo(es);
  }

  lemma OrdenEntre(ps: seq<PedidoV>, i: nat, j: nat)
    requires i < j < |GastosPorCliente(ps)|
    ensures PrimeraVez(ps, GastosPorCliente(ps)[i].nombre) < PrimeraVez(ps, GastosPorCliente(ps)[j].nombre)
  {
    GastosOrden(ps);
  }

  /** A positive best is the entry of a real full name, never `'-'`. */
  lemma MejorAparece(ps: seq<PedidoV>)
    requires Mejor(GastosPorCliente(ps)) != Podio("-", 0)
    ensures Aparece(ps, MejorCliente(ps)) && MejorCliente(ps) != "-"
    ensures GastoDe(ps, MejorCliente(ps)) == Mejor(GastosPorCliente(ps)).maximo > 0
  {
    var es := GastosPorCliente(ps);
    var b := Mejor(es);
    var i0 := PosicionDelMejor(es);
    GastosClaves(ps);
    GastosTotales(ps);
    assert TieneClave(es, b.nombre);
    var k :| 0 <= k < |ps| && Gasta(ps[k]) && Clave(ps[k]) == b.nombre;
    assert ' ' in Clave(ps[k]);
  }

  lemma MejorSupera(ps: seq<PedidoV>, n: string)
    requires Mejor(GastosPorCliente(ps)) != Podio("-", 0)
    requires Aparece(ps, n)
    ensures GastoDe(ps, n) <= GastoDe(ps, MejorCliente(ps))
    ensures PrimeraVez(ps, n) < PrimeraVez(ps, MejorCliente(ps)) ==> GastoDe(ps, n) < GastoDe(ps, MejorCliente(ps))
  {
    var es := GastosPorCliente(ps);
    MejorAparece(ps);
    var i0 := PosicionDelMejor(es);
    var i := EntradaDe(ps, n);
    CotaDelMejor(es, i);
    if PrimeraVez(ps, n) < PrimeraVez(ps, MejorCliente(ps)) {
      AntesQueElMejor(ps, i0, i);
    }
  }

  /** An entry whose name first spent before the best's comes before it. */
  lemma AntesQueElMejor(ps: seq<PedidoV>, i0: nat, i: nat)
    requires i0 < |GastosPorCliente(ps)| && i < |GastosPorCliente(ps)|
    requires PrimeraVez(ps, GastosPorCliente(ps)[i].nombre) < PrimeraVez(ps, GastosPorCliente(ps)[i0].nombre)
    ensures i < i0
  {
    if i0 < i {
      OrdenEntre(ps, i0, i);
    }
  }

  // ---------------------------------------------------------------------
  // The four statistics
  // ---------------------------------------------------------------------

  datatype Estadisticas = Estadisticas(pendientes: nat, pagosPendientes: nat, ingresosMes: int, mejorCliente: string)

  /** The four cards. Every pending order also awaits payment, so the first
      count never exceeds the second. */
  function Calcular(ps: seq<PedidoV>, hoy: Date): (r: Estadisticas)
    ensures r.pendientes == |set i | 0 <= i < |ps| && Pendiente(ps[i], hoy)|
    ensures r.pagosPendientes == |set i | 0 <= i < |ps| && PagoPendiente(ps[i])|
    ensures r.pendientes <= r.pagosPendientes <= |ps|
    ensures r.ingresosMes == SumaTotales(Filter(ps, EsIngresoDelMes(hoy)))
    ensures r.mejorCliente == "-" || Aparece(ps, r.mejorCliente)
  {
    FilterMonotone(ps, EsPendiente(hoy), PagoPendiente);
    Estadisticas(Pendientes(ps, hoy), PagosPendientes(ps), IngresosMes(ps, hoy), MejorCliente(ps))
  }

  /** Dropping the cancelled orders changes none of the four statistics. */
  lemma CanceladosNoCuentan(ps: seq<PedidoV>, hoy: Date)
    ensures Calcular(Filter(ps, NoCancelado), hoy) == Calcular(ps, hoy)
  {
    var vivos := Filter(ps, NoCancelado);
    FilterAbsorb(ps, NoCancelado, EsPendiente(hoy));
    FilterAbsorb(ps, NoCancelado, PagoPendiente);
    FilterAbsorb(ps, NoCancelado, EsIngresoDelMes(hoy));
    SumaSiFiltra(ps, EsIngresoDelMes(hoy));
    SumaSiFiltra(vivos, EsIngresoDelMes(hoy));
    GastosSinCancelados(ps);
  }

  lemma {:induction false} GastosSinCancelados(ps: seq<PedidoV>)
    ensures GastosPorCliente(Filter(ps, NoCancelado)) == GastosPorCliente(ps)
    decreases |ps|
  {
    if ps != [] {
      var q, p := ps[..|ps| - 1], ps[|ps| - 1];
      assert ps == q + [p];
      GastosSinCancelados(q);
      FilterConcat(q, [p], NoCancelado);
      FiltrarUno(p, NoCancelado);
      var fq := Filter(q, NoCancelado);
      if p.cancelado {
        assert Filter(ps, NoCancelado) == fq;
      } else {
        assert Filter(ps, NoCancelado) == fq + [p];
        assert (fq + [p])[..|fq + [p]| - 1] == fq;
      }
    }
  }
}

=== FILE: entities.dfy ===
/** The persisted records of the backend and the failures its services
    report. Money is exact, in cents; ids of related rows stand for the
    JPA associations. */
module Entities {
  import opened Wrappers
  import opened Calendar

  /** An option category: "Relleno", "Tamaño", "Decoración". */
  datatype Atributo = Atributo(nombre: string)

  datatype Cliente = Cliente(
    nombre: string,
    apellido: string,
    direccion: string,
    telefono: string,
    activo: bool)

  /** A product for sale; `atributosValidos` holds the ids of the option
      categories it admits. */
  datatype Producto = Producto(
    nombre: string,
    unidad: string,
    precioBase: int,
    activo: bool,
    atributosValidos: set<int>)

  /** An option of a category, with the price it adds to each unit. */
  datatype OpcionAtributo = OpcionAtributo(nombre: string, precioExtra: int, idAtributo: int)

  /** A chosen option of an order line, with its price frozen at ordering time. */
  datatype DetalleOpcion = DetalleOpcion(idOpcion: int, precioExtraHistorico: int)

  /** An order line: a product, a quantity, the frozen base price, the chosen
      options and the line's subtotal. */
  datatype DetallePedido = DetallePedido(
    idProducto: int,
    cantidad: int,
    subtotal: int,
    precioBaseHistorico: int,
    opciones: seq<DetalleOpcion>)

  /** An order, with the three lifecycle flags the order service sets. */
  datatype Pedido = Pedido(
    fechaEmitido: DateTime,
    fechaEntrega: DateTime,
    total: int,
    idCliente: int,
    detalles: seq<DetallePedido>,
    observaciones: Option<string>,
    precioAdicional: int,
    cancelado: bool,
    entregado: bool,
    pagado: bool)

  /** The runtime exceptions the services throw, one per message. */
  datatype Error =
    | ClienteNoEncontrado
    | ClienteInactivo
    | ProductoNoEncontrado
    | ProductoNoDisponible(nombreProducto: string)
    | OpcionNoEncontrada
    | PedidoNoEncontrado
    | EntregaDeCancelado
    | PagoDeCancelado
    | AtributoNoExiste
    | AtributoNoEncontrado
    | IdNulo
    | OpcionEnUso
}

=== FILE: finanzas.dfy ===
/** The finance page: sales against expenses, and the form that records
    an expense. */
module Finanzas {
  import opened Wrappers
  import opened Calendar
  import opened Seqs
  import opened Numbers
  import opened Views
  import Dashboard

  /** `totalVentas`: every order that is not cancelled, paid or not; with
      no negative totals, never more than the sum over all orders. */
  function TotalVentas(ps: seq<PedidoV>): (r: int)
    ensures r == SumaTotales(Filter(ps, Dashboard.NoCancelado))
    ensures (forall i :: 0 <= i < |ps| ==> MontoOCero(ps[i].total) >= 0) ==> r <= SumaTotales(ps)
  {
    SumaSiFiltra(ps, Dashboard.NoCancelado);
    if forall i :: 0 <= i < |ps| ==> MontoOCero(ps[i].total) >= 0 then
      SumaFiltradaAcotada(ps, Dashboard.NoCancelado); SumaSi(ps, Dashboard.NoCancelado)
    else SumaSi(ps, Dashboard.NoCancelado)
  }

  /** `totalGastos`: the amounts, a missing one counted as 0. No expense
      costs nothing and a single one costs its amount; with no negative
      amount the total is not negative and covers each amount. */
  function TotalGastos(gs: seq<GastoV>): (r: int)
    ensures gs == [] ==> r == 0
    ensures |gs| == 1 ==> r == MontoOCero(gs[0].monto)
    ensures (forall i :: 0 <= i < |gs| ==> MontoOCero(gs[i].monto) >= 0) ==>
      r >= 0 && forall i :: 0 <= i < |gs| ==> MontoOCero(gs[i].monto) <= r
  {
    if gs == [] then 0
    else
      var q := gs[..|gs| - 1];
      assert forall i :: 0 <= i < |q| ==> q[i] == gs[i];
      TotalGastos(q) + MontoOCero(gs[|gs| - 1].monto)
  }

  datatype Balance = Balance(ingresos: int, totalGastos: int, gananciaNeta: int, esRentable: bool)

  /** The three cards: the profit is what is left of the sales after the
      expenses, and the page is profitable when that is not negative. */
  function Resumir(ps: seq<PedidoV>, gs: seq<GastoV>): (r: Balance)
    ensures r.ingresos == TotalVentas(ps) && r.totalGastos == TotalGastos(gs)
    ensures r.gananciaNeta + r.totalGastos == r.ingresos
    ensures r.esRentable <==> r.totalGastos <= r.ingresos
  {
    var v, g := TotalVentas(ps), TotalGastos(gs);
    Balance(v, g, v - g, v - g >= 0)
  }

  /** With no negative totals, the home page's income of the month never
      exceeds the sales total here: it keeps a subset of the same orders. */
  lemma IngresosMesAcotados(ps: seq<PedidoV>, hoy: Date)
    requires forall i :: 0 <= i < |ps| ==> MontoOCero(ps[i].total) >= 0
    ensures Dashboard.IngresosMes(ps, hoy) <= TotalVentas(ps)
  {
    var vivos := Filter(ps, Dashboard.NoCancelado);
    var f := Dashboard.EsIngresoDelMes(hoy);
    SumaSiFiltra(ps, f);
    SumaSiFiltra(ps, Dashboard.NoCancelado);
    FilterAbsorb(ps, Dashboard.NoCancelado, f);
    assert forall i :: 0 <= i < |vivos| ==> MontoOCero(vivos[i].total) >= 0;
    SumaFiltradaAcotada(vivos, f);
  }

  lemma {:induction false} TotalGastosConcat(a: seq<GastoV>, b: seq<GastoV>)
    ensures TotalGastos(a + b) == TotalGastos(a) + TotalGastos(b)
    decreases |b|
  {
    if b == [] {
      assert a + b == a;
    } else {
      var n := |b| - 1;
      assert (a + b)[..|a + b| - 1] == a + b[..n];
      TotalGastosConcat(a, b[..n]);
    }
  }

  /** The list is shown reversed; its total does not change. */
  lemma {:induction false} TotalGastosReverso(gs: seq<GastoV>)
    ensures TotalGastos(Reverse(gs)) == TotalGastos(gs)
    decreases |gs|
  {
    if gs != [] {
      var n := |gs| - 1;
      TotalGastosReverso(gs[..n]);
      TotalGastosConcat([gs[n]], Reverse(gs[..n]));
      assert TotalGastos([gs[n]]) == MontoOCero(gs[n].monto) by { assert [gs[n]][..0] == []; }
    }
  }

  /** The balance is the same whichever order the expenses come in. */
  lemma BalanceNoDependeDelOrden(ps: seq<PedidoV>, gs: seq<GastoV>)
    ensures Resumir(ps, Reverse(gs)) == Resumir(ps, gs)
  {
    TotalGastosReverso(gs);
  }

  // ---------------------------------------------------------------------
  // The expense form
  // ---------------------------------------------------------------------

  /** The form; the amount is `parseFloat` of the number input, so a cleared
      field holds NaN. */
  datatype FormGasto = FormGasto(descripcion: string, monto: JsNum, fecha: string)

  /** The form as the page opens, dated with the given day's text. */
  function FormInicial(fecha: string): (r: FormGasto)
    ensures r.descripcion == "" && r.monto == Num(0.0) && r.fecha == fecha
  {
    FormGasto("", Num(0.0), fecha)
  }

  /** The outcome of pressing save: refused, or posted with the form that
      follows. */
  datatype Guardado = Invalido | Enviado(gasto: FormGasto, siguiente: FormGasto)

  /** The check as written: refuse an empty description or an amount that
      compares `<= 0`. NaN compares false, so it passes. */
  predicate AceptaComoEsta(f: FormGasto)
  {
    !(f.descripcion == "" || AtMost(f.monto, 0.0))
  }

  /** The check it stands for: a description and a positive number. */
  predicate Acepta(f: FormGasto)
  {
    f.descripcion != "" && f.monto.Num? && f.monto.value > 0.0
  }

  /** The two checks disagree exactly on a described expense whose amount
      is NaN, which only the check as written lets through. */
  lemma AceptaSoloDifiereEnNaN(f: FormGasto)
    ensures Acepta(f) ==> AceptaComoEsta(f)
    ensures AceptaComoEsta(f) && !Acepta(f) <==> f.descripcion != "" && f.monto.NaN?
  {
  }


  /** `handleGuardar` as written. */
  function GuardarComoEsta(f: FormGasto): (r: Guardado)
    ensures r.Enviado? <==> AceptaComoEsta(f)
    ensures r.Enviado? ==> r.gasto == f && r.siguiente == FormInicial(f.fecha)
  {
    if !AceptaComoEsta(f) then Invalido
    else Enviado(f, f.(descripcion := "", monto := Num(0.0)))
  }

  /** `handleGuardar` with the intended check: posts only a described
      expense of positive amount, then clears description and amount and
      keeps the date. */
  function Guardar(f: FormGasto): (r: Guardado)
    ensures r.Enviado? <==> f.descripcion != "" && f.monto.Num? && f.monto.value > 0.0
    ensures r.Enviado? ==> r.gasto == f && r.siguiente == FormInicial(f.fecha)
  {
    if !Acepta(f) then Invalido
    else Enviado(f, f.(descripcion := "", monto := Num(0.0)))
  }

  /** A described expense whose amount field was cleared is posted, NaN
      amount and all, by the save as written, and refused by the intended
      one. */
  lemma NaNPasaComoEsta()
    ensures GuardarComoEsta(FormGasto("Harina", ParseFloat(""), "2025-01-01")).Enviado?
    ensures GuardarComoEsta(FormGasto("Harina", ParseFloat(""), "2025-01-01")).gasto.monto == NaN
    ensures Guardar(FormGasto("Harina", ParseFloat(""), "2025-01-01")) == Invalido
  {
  }

  /** The cleared form cannot be posted again until it is filled in, under
      either check. */
  lemma GuardarNoRepite(f: FormGasto)
    requires Guardar(f).Enviado?
    ensures Guardar(Guardar(f).siguiente) == Invalido
    ensures GuardarComoEsta(Guardar(f).siguiente) == Invalido
  {
  }
}

=== FILE: nuevo_pedido.dfy ===
/** The new-order page: the cart, the options shown for a product, the
    checks before submitting and the price estimate. */
module NuevoPedido {
  import opened Wrappers
  import opened Strings
  import opened Calendar
  import opened Seqs
  import opened Views
  import PS = PedidoService
  import Entities

  /** A cart line; `tempId` tells lines apart on screen. */
  datatype Item = Item(tempId: int, producto: ProductoV, cantidad: int, idsOpciones: seq<int>)

  // ---------------------------------------------------------------------
  // Cart
  // ---------------------------------------------------------------------

  /** `agregarProducto`: appends the first product with that id, once, with
      quantity 1 and no options; an unknown id leaves the cart alone. The
      temporary id is the clock reading the page takes. */
  function AgregarProducto(carrito: seq<Item>, productos: seq<ProductoV>, idProducto: int, tempId: int): (r: seq<Item>)
    ensures (forall i :: 0 <= i < |productos| ==> productos[i].idProducto != idProducto) ==> r == carrito
    ensures (exists i :: 0 <= i < |productos| && productos[i].idProducto == idProducto) ==>
      |r| == |carrito| + 1 && r[..|carrito|] == carrito
      && r[|carrito|].tempId == tempId && r[|carrito|].cantidad == 1 && r[|carrito|].idsOpciones == []
      && r[|carrito|].producto in productos && r[|carrito|].producto.idProducto == idProducto
    ensures forall i :: 0 <= i < |productos| && productos[i].idProducto == idProducto
                        && (forall j :: 0 <= j < i ==> productos[j].idProducto != idProducto)
                        ==> r == carrito + [Item(tempId, productos[i], 1, [])]
  {
    match Find(productos, (p: ProductoV) => p.idProducto == idProducto)
    case None => carrito
    case Some(p) => carrito + [Item(tempId, p, 1, [])]
  }

  function ToggleEnItem(item: Item, tempId: int, idOpcion: int): Item
  {
    if item.tempId != tempId then item else item.(idsOpciones := Toggle(item.idsOpciones, idOpcion))
  }

  /** `toggleOpcion`: flips whether the option is chosen on the lines with
      that temporary id; every other line, and every other option of those
      lines, stays as it was. */
  function ToggleOpcion(carrito: seq<Item>, tempId: int, idOpcion: int): (r: seq<Item>)
    ensures |r| == |carrito|
    ensures forall i :: 0 <= i < |carrito| && carrito[i].tempId != tempId ==> r[i] == carrito[i]
    ensures forall i :: 0 <= i < |carrito| && carrito[i].tempId == tempId ==>
      r[i].tempId == tempId && r[i].producto == carrito[i].producto && r[i].cantidad == carrito[i].cantidad
      && (idOpcion in r[i].idsOpciones <==> idOpcion !in carrito[i].idsOpciones)
      && forall y :: y != idOpcion ==> (y in r[i].idsOpciones <==> y in carrito[i].idsOpciones)
    ensures forall i :: 0 <= i < |carrito| && carrito[i].tempId == tempId ==>
      r[i].idsOpciones == Toggle(carrito[i].idsOpciones, idOpcion)
  {
    seq(|carrito|, i requires 0 <= i < |carrito| => ToggleEnItem(carrito[i], tempId, idOpcion))
  }

  /** No line lists an option twice, and toggling keeps it so: the backend
      charges each chosen option once. */
  lemma ToggleOpcionSinRepetidos(carrito: seq<Item>, tempId: int, idOpcion: int)
    requires forall i :: 0 <= i < |carrito| ==> NoDuplicates(carrito[i].idsOpciones)
    ensures var r := ToggleOpcion(carrito, tempId, idOpcion);
      forall i :: 0 <= i < |r| ==> NoDuplicates(r[i].idsOpciones)
  {
    var r := ToggleOpcion(carrito, tempId, idOpcion);
    forall i | 0 <= i < |r| ensures NoDuplicates(r[i].idsOpciones) {
      if carrito[i].tempId == tempId {
        ToggleNoDuplicates(carrito[i].idsOpciones, idOpcion);
      }
    }
  }

  /** `eliminarItem`: drops exactly the lines with that temporary id and
      keeps the others in their order. */
  function EliminarItem(carrito: seq<Item>, tempId: int): (r: seq<Item>)
    ensures forall i :: 0 <= i < |r| ==> r[i].tempId != tempId
    ensures forall i :: 0 <= i < |carrito| && carrito[i].tempId != tempId ==> carrito[i] in r
    ensures SubsequenceOf(r, carrito)
  {
    var p := (it: Item) => it.tempId != tempId;
    FilterSubsequence(carrito, p);
    Filter(carrito, p)
  }

  /** Removing a line just added, under a temporary id no other line has,
      gives back the cart. */
  lemma AgregarEliminar(carrito: seq<Item>, productos: seq<ProductoV>, idProducto: int, tempId: int)
    requires forall i :: 0 <= i < |carrito| ==> carrito[i].tempId != tempId
    ensures EliminarItem(AgregarProducto(carrito, productos, idProducto, tempId), tempId) == carrito
  {
    var p := (it: Item) => it.tempId != tempId;
    var r := AgregarProducto(carrito, productos, idProducto, tempId);
    if r == carrito {
      FilterAll(carrito, p);
    } else {
      assert r == carrito + [r[|carrito|]];
      FilterDescartaUltimo(carrito, r[|carrito|], p);
    }
  }

  // ---------------------------------------------------------------------
  // Options shown for a cart line
  // ---------------------------------------------------------------------

  /** `op.atributo?.idAtributo || op.idAtributo`. */
  function CategoriaDe(op: OpcionV): Option<int>
  {
    if op.atributo.Some? && op.atributo.value.idAtributo != 0 then Some(op.atributo.value.idAtributo)
    else op.idAtributo
  }

  predicate Admite(p: ProductoV, idAtributo: int)
  {
    exists i :: 0 <= i < |p.atributosValidos| && p.atributosValidos[i].idAtributo == idAtributo
  }

  /** The filter of the options list: every option for a product without
      rules, every option without a category, and otherwise the options of
      the product's categories. */
  predicate OpcionVisible(p: ProductoV, op: OpcionV)
  {
    if |p.atributosValidos| == 0 then true
    else if !Truthy(CategoriaDe(op)) then true
    else Admite(p, CategoriaDe(op).value)
  }

  function OpcionesVisibles(p: ProductoV, opciones: seq<OpcionV>): (r: seq<OpcionV>)
    ensures SubsequenceOf(r, opciones)
    ensures |p.atributosValidos| == 0 ==> r == opciones
    ensures forall i :: 0 <= i < |opciones| && !Truthy(CategoriaDe(opciones[i])) ==> opciones[i] in r
    ensures forall i :: 0 <= i < |opciones| && |p.atributosValidos| > 0 && Truthy(CategoriaDe(opciones[i])) ==>
      (opciones[i] in r <==> Admite(p, CategoriaDe(opciones[i]).value))
  {
    var f := (op: OpcionV) => OpcionVisible(p, op);
    FilterSubsequence(opciones, f);
    if |p.atributosValidos| == 0 then FilterAll(opciones, f); Filter(opciones, f)
    else VisiblesExactas(p, opciones); Filter(opciones, f)
  }

  lemma VisiblesExactas(p: ProductoV, opciones: seq<OpcionV>)
    requires |p.atributosValidos| > 0
    ensures forall i :: 0 <= i < |opciones| && Truthy(CategoriaDe(opciones[i])) ==>
      (opciones[i] in Filter(opciones, (op: OpcionV) => OpcionVisible(p, op)) <==> Admite(p, CategoriaDe(opciones[i]).value))
  {
    var f := (op: OpcionV) => OpcionVisible(p, op);
    var r := Filter(opciones, f);
    forall i | 0 <= i < |opciones| && Truthy(CategoriaDe(opciones[i]))
      ensures opciones[i] in r <==> Admite(p, CategoriaDe(opciones[i]).value)
    {
      if opciones[i] in r {
        var j :| 0 <= j < |r| && r[j] == opciones[i];
        assert f(r[j]);
      }
    }
  }

  // ---------------------------------------------------------------------
  // Submitting
  // ---------------------------------------------------------------------

  datatype Aviso = SinCliente | SinFecha | FechaPasada | CarritoVacio

  /** A line of the request body the page posts. */
  datatype DetalleReq = DetalleReq(idProducto: int, cantidad: int, idsOpciones: seq<int>)

  datatype PedidoReq = PedidoReq(idCliente: int, fechaEntrega: string, observaciones: string, detalles: seq<DetalleReq>)

  datatype Envio = Rechazado(aviso: Aviso) | Enviado(pedido: PedidoReq)

  /** The cart as request lines: same length and order, the three fields copied. */
  function DetallesDe(carrito: seq<Item>): (r: seq<DetalleReq>)
    ensures |r| == |carrito|
    ensures forall i :: 0 <= i < |carrito| ==>
      r[i].idProducto == carrito[i].producto.idProducto
      && r[i].cantidad == carrito[i].cantidad && r[i].idsOpciones == carrito[i].idsOpciones
  {
    seq(|carrito|, i requires 0 <= i < |carrito| =>
      DetalleReq(carrito[i].producto.idProducto, carrito[i].cantidad, carrito[i].idsOpciones))
  }

  /** `procesarPedido`: posts only when a client is chosen, a date is given,
      the date is not before today's `YYYY-MM-DD` as text, and the cart has a
      line; otherwise it warns about the first of these that fails. */
  function ProcesarPedido(idCliente: Option<int>, fechaEntrega: string, observaciones: string, carrito: seq<Item>, hoy: Date): (r: Envio)
    requires Valid(hoy) && hoy.year >= 0
    ensures r.Enviado? <==>
      Truthy(idCliente) && fechaEntrega != "" && !LexLess(fechaEntrega, IsoDate(hoy)) && |carrito| > 0
    ensures !Truthy(idCliente) ==> r == Rechazado(SinCliente)
    ensures Truthy(idCliente) && fechaEntrega == "" ==> r == Rechazado(SinFecha)
    ensures Truthy(idCliente) && fechaEntrega != "" && LexLess(fechaEntrega, IsoDate(hoy)) ==> r == Rechazado(FechaPasada)
    ensures Truthy(idCliente) && fechaEntrega != "" && !LexLess(fechaEntrega, IsoDate(hoy)) && |carrito| == 0 ==>
      r == Rechazado(CarritoVacio)
    ensures r.Enviado? ==>
      r.pedido.idCliente == idCliente.value && r.pedido.fechaEntrega == fechaEntrega
      && r.pedido.observaciones == observaciones && r.pedido.detalles == DetallesDe(carrito)
  {
    if !Truthy(idCliente) then Rechazado(SinCliente)
    else if fechaEntrega == "" then Rechazado(SinFecha)
    else if LexLess(fechaEntrega, IsoDate(hoy)) then Rechazado(FechaPasada)
    else if |carrito| == 0 then Rechazado(CarritoVacio)
    else Enviado(PedidoReq(idCliente.value, fechaEntrega, observaciones, DetallesDe(carrito)))
  }

  /** For a date picked in the date input, the text comparison with today
      refuses exactly the days before today. */
  lemma FechaPasadaEsAnterior(idCliente: Option<int>, entrega: Date, observaciones: string, carrito: seq<Item>, hoy: Date)
    requires Valid(hoy) && Valid(entrega)
    requires 1000 <= hoy.year <= 9999 && 1000 <= entrega.year <= 9999
    requires Truthy(idCliente)
    ensures ProcesarPedido(idCliente, IsoDate(entrega), observaciones, carrito, hoy) == Rechazado(FechaPasada)
        <==> Before(entrega, hoy)
  {
    IsoDateOrder(entrega, hoy);
  }

  // ---------------------------------------------------------------------
  // Price estimate
  // ---------------------------------------------------------------------

  /** The extra of the first listed option with that id; 0 if none. */
  function ExtraDe(opciones: seq<OpcionV>, id: int): (r: int)
    ensures (forall i :: 0 <= i < |opciones| ==> opciones[i].idOpcion != id) ==> r == 0
    ensures forall i :: 0 <= i < |opciones| && opciones[i].idOpcion == id
                        && (forall j :: 0 <= j < i ==> opciones[j].idOpcion != id)
                        ==> r == opciones[i].precioExtra
  {
    match Find(opciones, (o: OpcionV) => o.idOpcion == id)
    case None => 0
    case Some(o) => o.precioExtra
  }

  /** The inner `reduce`: the extras of the chosen ids, left to right. */
  function ExtrasEstimados(ids: seq<int>, opciones: seq<OpcionV>): int
  {
    if ids == [] then 0 else ExtrasEstimados(ids[..|ids| - 1], opciones) + ExtraDe(opciones, ids[|ids| - 1])
  }

  function PrecioItem(item: Item, opciones: seq<OpcionV>): int
  {
    item.producto.precioBase * item.cantidad + ExtrasEstimados(item.idsOpciones, opciones) * item.cantidad
  }

  /** `totalEstimado`: the outer `reduce` over the cart. A one-line cart
      costs that line; with no negative line the estimate is not negative
      and covers every line. */
  function TotalEstimado(carrito: seq<Item>, opciones: seq<OpcionV>): (r: int)
    ensures |carrito| == 1 ==> r == PrecioItem(carrito[0], opciones)
    ensures (forall i :: 0 <= i < |carrito| ==> PrecioItem(carrito[i], opciones) >= 0) ==>
      r >= 0 && forall i :: 0 <= i < |carrito| ==> PrecioItem(carrito[i], opciones) <= r
  {
    if carrito == [] then 0
    else
      var q := carrito[..|carrito| - 1];
      assert forall i :: 0 <= i < |q| ==> q[i] == carrito[i];
      TotalEstimado(q, opciones) + PrecioItem(carrito[|carrito| - 1], opciones)
  }

  /** Choosing an option the page does not list adds nothing to the estimate. */
  lemma OpcionDesconocidaNoSuma(ids: seq<int>, id: int, opciones: seq<OpcionV>)
    requires forall i :: 0 <= i < |opciones| ==> opciones[i].idOpcion != id
    ensures ExtrasEstimados(ids + [id], opciones) == ExtrasEstimados(ids, opciones)
  {
    assert (ids + [id])[..|ids|] == ids;
  }

  /** The estimate is additive over the cart. */
  lemma {:induction false} TotalEstimadoConcat(a: seq<Item>, b: seq<Item>, opciones: seq<OpcionV>)
    ensures TotalEstimado(a + b, opciones) == TotalEstimado(a, opciones) + TotalEstimado(b, opciones)
    decreases |b|
  {
    if b != [] {
      var b' := b[..|b| - 1];
      assert (a + b)[..|a + b| - 1] == a + b';
      TotalEstimadoConcat(a, b', opciones);
    } else {
      assert a + b == a;
    }
  }

  // ---------------------------------------------------------------------
  // Agreement with the backend
  // ---------------------------------------------------------------------

  /** The backend request line for a cart line. */
  function LineaBackend(item: Item): PS.DetalleRequest
  {
    PS.DetalleRequest(item.producto.idProducto, item.cantidad, Some(item.idsOpciones))
  }

  /** The page's copies of the prices are the catalogue's: the product of
      every line and every option the page finds. */
  predicate PreciosCoinciden(cat: PS.Catalogo, carrito: seq<Item>, opciones: seq<OpcionV>)
  {
    forall i :: 0 <= i < |carrito| ==>
      (carrito[i].producto.idProducto in cat.productos ==>
            cat.productos[carrito[i].producto.idProducto].precioBase == carrito[i].producto.precioBase)
      && forall j :: 0 <= j < |carrito[i].idsOpciones| && carrito[i].idsOpciones[j] in cat.opciones ==>
            ExtraDe(opciones, carrito[i].idsOpciones[j]) == cat.opciones[carrito[i].idsOpciones[j]].precioExtra
  }

  /** With the page's prices current and every option found, the estimate is
      the total the backend computes for the posted order (the page never
      sends an extra price). */
  lemma EstimadoCoincideConBackend(cat: PS.Catalogo, carrito: seq<Item>, opciones: seq<OpcionV>, dto: PS.PedidoRequest, ahora: DateTime)
    requires PreciosCoinciden(cat, carrito, opciones)
    requires |dto.detalles| == |carrito|
    requires forall i :: 0 <= i < |carrito| ==> dto.detalles[i] == LineaBackend(carrito[i])
    requires dto.precioAdicional.None?
    requires PS.ArmarPedido(cat, dto, ahora).Ok?
    ensures PS.ArmarPedido(cat, dto, ahora).value.total == TotalEstimado(carrito, opciones)
  {
    var p := PS.ArmarPedido(cat, dto, ahora).value;
    SubtotalesCoinciden(cat, carrito, opciones, dto.detalles, p.detalles);
  }

  lemma {:induction false} SubtotalesCoinciden(cat: PS.Catalogo, carrito: seq<Item>, opciones: seq<OpcionV>,
                                               ds: seq<PS.DetalleRequest>, dets: seq<Entities.DetallePedido>)
    requires PreciosCoinciden(cat, carrito, opciones)
    requires |ds| == |carrito| && |dets| == |carrito|
    requires forall i :: 0 <= i < |carrito| ==> ds[i] == LineaBackend(carrito[i])
    requires forall i :: 0 <= i < |carrito| ==> PS.DetalleFiel(cat, ds[i], dets[i])
    ensures PS.SumaSubtotales(dets) == TotalEstimado(carrito, opciones)
    decreases |carrito|
  {
    if carrito != [] {
      var n := |carrito| - 1;
      var q, x := carrito[..n], carrito[n];
      PreciosPartes(cat, carrito, opciones, n);
      LineasPrefijo(cat, carrito, ds, dets, n);
      SubtotalesCoinciden(cat, q, opciones, ds[..n], dets[..n]);
      assert dets == dets[..n] + [dets[n]];
      SumaSubtotalesSnoc(dets[..n], dets[n]);
      LineaCoincide(cat, x, opciones, ds[n], dets[n]);
      assert TotalEstimado(carrito, opciones) == TotalEstimado(q, opciones) + PrecioItem(x, opciones);
    }
  }

  /** The page's prices agree on every part of a cart they agree on. */
  lemma PreciosPartes(cat: PS.Catalogo, carrito: seq<Item>, opciones: seq<OpcionV>, n: int)
    requires PreciosCoinciden(cat, carrito, opciones) && 0 <= n < |carrito|
    ensures PreciosCoinciden(cat, carrito[..n], opciones)
    ensures PreciosCoinciden(cat, [carrito[n]], opciones)
  {
    assert forall i :: 0 <= i < n ==> carrito[..n][i] == carrito[i];
    assert [carrito[n]][0] == carrito[n];
  }

  lemma LineasPrefijo(cat: PS.Catalogo, carrito: seq<Item>, ds: seq<PS.DetalleRequest>, dets: seq<Entities.DetallePedido>, n: int)
    requires |ds| == |carrito| && |dets| == |carrito| && 0 <= n <= |carrito|
    requires forall i :: 0 <= i < |carrito| ==> ds[i] == LineaBackend(carrito[i])
    requires forall i :: 0 <= i < |carrito| ==> PS.DetalleFiel(cat, ds[i], dets[i])
    ensures forall i :: 0 <= i < n ==> ds[..n][i] == LineaBackend(carrito[..n][i])
    ensures forall i :: 0 <= i < n ==> PS.DetalleFiel(cat, ds[..n][i], dets[..n][i])
  {
    forall i | 0 <= i < n
      ensures ds[..n][i] == LineaBackend(carrito[..n][i]) && PS.DetalleFiel(cat, ds[..n][i], dets[..n][i])
    {
      assert ds[..n][i] == ds[i] && carrito[..n][i] == carrito[i] && dets[..n][i] == dets[i];
    }
  }

  lemma LineaCoincide(cat: PS.Catalogo, item: Item, opciones: seq<OpcionV>, d: PS.DetalleRequest, det: Entities.DetallePedido)
    requires PreciosCoinciden(cat, [item], opciones)
    requires d == LineaBackend(item)
    requires PS.DetalleFiel(cat, d, det)
    ensures det.subtotal == PrecioItem(item, opciones)
  {
    assert [item][0] == item;
    PS.ExtrasPorId(cat, item.idsOpciones, det.opciones);
    PreciosPorId(cat, item.idsOpciones, opciones);
  }

  lemma {:induction false} PreciosPorId(cat: PS.Catalogo, ids: seq<int>, opciones: seq<OpcionV>)
    requires forall j :: 0 <= j < |ids| ==> ids[j] in cat.opciones
    requires forall j :: 0 <= j < |ids| ==> ExtraDe(opciones, ids[j]) == cat.opciones[ids[j]].precioExtra
    ensures PS.SumaPrecios(cat, ids) == ExtrasEstimados(ids, opciones)
    decreases |ids|
  {
    if ids != [] {
      var n := |ids| - 1;
      PreciosPorId(cat, ids[..n], opciones);
      assert ids == ids[..n] + [ids[n]];
      SumaPreciosSnoc(cat, ids[..n], ids[n]);
    }
  }

  lemma {:induction false} SumaPreciosSnoc(cat: PS.Catalogo, ids: seq<int>, x: int)
    requires forall j :: 0 <= j < |ids| ==> ids[j] in cat.opciones
    requires x in cat.opciones
    ensures PS.SumaPrecios(cat, ids + [x]) == PS.SumaPrecios(cat, ids) + cat.opciones[x].precioExtra
  {
    if ids != [] {
      assert (ids + [x])[1..] == ids[1..] + [x];
      SumaPreciosSnoc(cat, ids[1..], x);
    }
  }

  lemma {:induction false} SumaSubtotalesSnoc(ds: seq<Entities.DetallePedido>, x: Entities.DetallePedido)
    ensures PS.SumaSubtotales(ds + [x]) == PS.SumaSubtotales(ds) + x.subtotal
  {
    if ds != [] {
      assert (ds + [x])[1..] == ds[1..] + [x];
      SumaSubtotalesSnoc(ds[1..], x);
    }
  }
}

=== FILE: numbers.dfy ===
/** JavaScript numbers as the pages read them from text inputs: `Number(s)`
    and `parseFloat(s)` over the plain decimal texts a number input yields,
    with NaN as a value of its own. */
module Numbers {
  import opened Wrappers
  import opened Strings

  /** A JavaScript number that may be NaN; every comparison with NaN is false. */
  datatype JsNum = NaN | Num(value: real)

  /** `x <= k`, false for NaN. */
  predicate AtMost(x: JsNum, k: real)
  {
    x.Num? && x.value <= k
  }

  predicate IsDigit(c: char)
  {
    '0' <= c <= '9'
  }

  predicate AllDigits(s: string)
  {
    forall i :: 0 <= i < |s| ==> IsDigit(s[i])
  }

  /** The value of a string of decimal digits, most significant first. */
  function DigitsValue(s: string): nat
    requires AllDigits(s)
  {
    if s == [] then 0 else DigitsValue(s[..|s| - 1]) * 10 + ((s[|s| - 1] as int) - 48)
  }

  /** The unsigned part of a decimal text: digits with at most one point and
      at least one digit. */
  function UnsignedValue(s: string): Option<real>
  {
    var parts := Split(s, '.');
    if |parts| == 1 && parts[0] != "" && AllDigits(parts[0]) then
      Some(DigitsValue(parts[0]) as real)
    else if |parts| == 2 && parts[0] + parts[1] != "" && AllDigits(parts[0]) && AllDigits(parts[1]) then
      Some(DigitsValue(parts[0]) as real + DigitsValue(parts[1]) as real / Pow10(|parts[1]|) as real)
    else None
  }

  /** `Number(s)`: the empty text is 0, a signed decimal text its value,
      anything else NaN. */
  function NumberOf(s: string): (r: JsNum)
    ensures s == "" ==> r == Num(0.0)
  {
    if s == "" then Num(0.0)
    else
      var negative := s[0] == '-';
      var body := if s[0] == '-' || s[0] == '+' then s[1..] else s;
      match UnsignedValue(body)
      case None => NaN
      case Some(v) => Num(if negative then -v else v)
  }

  /** `parseFloat(s)` on the texts a number input yields: as `Number` except
      that the empty text is NaN. */
  function ParseFloat(s: string): (r: JsNum)
    ensures s == "" ==> r == NaN
    ensures s != "" ==> r == NumberOf(s)
  {
    if s == "" then NaN else NumberOf(s)
  }

  /** A non-empty string of digits is a number, of its digits' value. */
  lemma DigitsAreNumber(s: string)
    requires s != "" && AllDigits(s)
    ensures NumberOf(s) == Num(DigitsValue(s) as real)
  {
    assert forall i :: 0 <= i < |s| ==> s[i] != '.';
    SplitNoSeparator(s, '.');
    assert !(s[0] == '-' || s[0] == '+') by {
      assert IsDigit(s[0]);
    }
  }
}

=== FILE: opcion_service.dfy ===
/** The option service: options belong to an attribute and, unlike
    products and clients, are deleted for real. */
module OpcionService {
  import opened Wrappers
  import opened Tables
  import opened Entities

  /** The request body; the attribute id may be absent. */
  datatype OpcionRequest = OpcionRequest(nombre: string, precioExtra: int, idAtributo: Option<int>)

  /** `listarTodas`: every stored option. */
  function ListarTodas(t: Table<OpcionAtributo>): (r: map<int, OpcionAtributo>)
    ensures r.Keys == t.rows.Keys
    ensures forall id :: id in r ==> r[id] == t.rows[id]
  {
    t.rows
  }

  /** `crearOpcion`: the attribute must exist (an absent id is refused by the
      lookup itself); the new option is linked to it. */
  function CrearOpcion(t: Table<OpcionAtributo>, atributos: map<int, Atributo>, dto: OpcionRequest): (r: Result<Inserted<OpcionAtributo>, Error>)
    requires t.Valid()
    ensures r.Ok? <==> dto.idAtributo.Some? && dto.idAtributo.value in atributos
    ensures r.Err? ==> r.error == (if dto.idAtributo.None? then IdNulo else AtributoNoExiste)
    ensures r.Ok? ==>
      r.value.table.Valid() && r.value.id !in t.rows
      && r.value.table.rows.Keys == t.rows.Keys + {r.value.id}
      && (forall id :: id in t.rows ==> r.value.table.rows[id] == t.rows[id])
      && r.value.table.rows[r.value.id] == OpcionAtributo(dto.nombre, dto.precioExtra, dto.idAtributo.value)
  {
    if dto.idAtributo.None? then Err(IdNulo)
    else if dto.idAtributo.value !in atributos then Err(AtributoNoExiste)
    else Ok(Insert(t, OpcionAtributo(dto.nombre, dto.precioExtra, dto.idAtributo.value)))
  }

  /** `actualizarOpcion`: fails on a missing option, then on a given but
      unknown attribute; copies name and price, and moves the option to the
      given attribute only when one is given. */
  function ActualizarOpcion(t: Table<OpcionAtributo>, atributos: map<int, Atributo>, id: int, dto: OpcionRequest): (r: Result<Table<OpcionAtributo>, Error>)
    ensures r.Err? <==> id !in t.rows || (dto.idAtributo.Some? && dto.idAtributo.value !in atributos)
    ensures r.Err? ==> r.error == (if id !in t.rows then OpcionNoEncontrada else AtributoNoEncontrado)
    ensures r.Ok? ==> r.value.rows.Keys == t.rows.Keys && r.value.nextId == t.nextId
    ensures r.Ok? ==> forall k :: k in t.rows && k != id ==> r.value.rows[k] == t.rows[k]
    ensures r.Ok? ==>
      var o := r.value.rows[id];
      o.nombre == dto.nombre && o.precioExtra == dto.precioExtra
      && o.idAtributo == (if dto.idAtributo.Some? then dto.idAtributo.value else t.rows[id].idAtributo)
  {
    if id !in t.rows then Err(OpcionNoEncontrada)
    else
      var o := t.rows[id].(nombre := dto.nombre, precioExtra := dto.precioExtra);
      if dto.idAtributo.None? then Ok(Put(t, id, o))
      else if dto.idAtributo.value !in atributos then Err(AtributoNoEncontrado)
      else Ok(Put(t, id, o.(idAtributo := dto.idAtributo.value)))
  }

  /** The options some stored order line refers to: the foreign key from
      `detalle_opcion` to `opcion_atributo`. */
  function EnUso(pedidos: map<int, Pedido>): (r: set<int>)
    ensures forall id, d, o :: id in pedidos && d in pedidos[id].detalles && o in d.opciones ==> o.idOpcion in r
    ensures forall x :: x in r ==>
      exists id, d, o :: id in pedidos && d in pedidos[id].detalles && o in d.opciones && o.idOpcion == x
  {
    set id, d, o | id in pedidos && d in pedidos[id].detalles && o in d.opciones :: o.idOpcion
  }

  /** Every option a stored order refers to exists. */
  predicate Integra(t: Table<OpcionAtributo>, pedidos: map<int, Pedido>)
  {
    EnUso(pedidos) <= t.rows.Keys
  }

  /** `eliminarOpcion`: removes that option, if present, and nothing else.
      The database refuses to delete an option an order line refers to,
      and then nothing changes. */
  function EliminarOpcion(t: Table<OpcionAtributo>, pedidos: map<int, Pedido>, id: int): (r: Result<Table<OpcionAtributo>, Error>)
    ensures r.Err? <==> id in t.rows && id in EnUso(pedidos)
    ensures r.Err? ==> r.error == OpcionEnUso
    ensures r.Ok? ==> r.value.rows.Keys == t.rows.Keys - {id} && r.value.nextId == t.nextId
    ensures r.Ok? ==> forall k :: k in r.value.rows ==> r.value.rows[k] == t.rows[k]
    ensures r.Ok? && t.Valid() ==> r.value.Valid()
  {
    if id in t.rows && id in EnUso(pedidos) then Err(OpcionEnUso)
    else Ok(t.(rows := t.rows - {id}))
  }

  /** A delete the database lets through never leaves an order line
      pointing at a missing option. */
  lemma EliminarConservaIntegridad(t: Table<OpcionAtributo>, pedidos: map<int, Pedido>, id: int)
    requires Integra(t, pedidos)
    ensures EliminarOpcion(t, pedidos, id).Ok? ==> Integra(EliminarOpcion(t, pedidos, id).value, pedidos)
    ensures EliminarOpcion(t, pedidos, id).Err? ==> exists k, d, o ::
      k in pedidos && d in pedidos[k].detalles && o in d.opciones && o.idOpcion == id
  {
  }

  /** Deleting is idempotent, and a deleted option's id is never handed out
      again to a later option. */
  lemma EliminarDefinitivo(t: Table<OpcionAtributo>, pedidos: map<int, Pedido>, atributos: map<int, Atributo>, id: int, dto: OpcionRequest)
    requires t.Valid()
    requires EliminarOpcion(t, pedidos, id).Ok?
    ensures EliminarOpcion(EliminarOpcion(t, pedidos, id).value, pedidos, id) == EliminarOpcion(t, pedidos, id)
    ensures var u := EliminarOpcion(t, pedidos, id).value;
      id in t.rows && CrearOpcion(u, atributos, dto).Ok? ==> CrearOpcion(u, atributos, dto).value.id != id
  {
    var u := EliminarOpcion(t, pedidos, id).value;
    assert EliminarOpcion(u, pedidos, id).value.rows == u.rows;
  }
}

=== FILE: pedido_service.dfy ===
/** The order service: building an order from a request, with prices frozen
    from the catalogue, and the three lifecycle transitions. */
module PedidoService {
  import opened Wrappers
  import opened Calendar
  import opened Tables
  import opened Entities

  /** One requested line; `idsOpciones` may be absent. */
  datatype DetalleRequest = DetalleRequest(idProducto: int, cantidad: int, idsOpciones: Option<seq<int>>)

  datatype PedidoRequest = PedidoRequest(
    idCliente: int,
    fechaEntrega: Date,
    detalles: seq<DetalleRequest>,
    observaciones: Option<string>,
    precioAdicional: Option<int>)

  /** The rows order creation reads. */
  datatype Catalogo = Catalogo(
    clientes: map<int, Cliente>,
    productos: map<int, Producto>,
    opciones: map<int, OpcionAtributo>)

  /** The option ids of a line; an absent list means none. */
  function IdsDe(d: DetalleRequest): seq<int>
  {
    if d.idsOpciones.Some? then d.idsOpciones.value else []
  }

  // ---------------------------------------------------------------------
  // What a created order must look like
  // ---------------------------------------------------------------------

  function SumaExtras(ops: seq<DetalleOpcion>): int
  {
    if ops == [] then 0 else ops[0].precioExtraHistorico + SumaExtras(ops[1..])
  }

  function SumaSubtotales(ds: seq<DetallePedido>): int
  {
    if ds == [] then 0 else ds[0].subtotal + SumaSubtotales(ds[1..])
  }

  /** One snapshot per requested id, in order, each with the option's
      current price. */
  predicate OpcionesFieles(cat: Catalogo, ids: seq<int>, ops: seq<DetalleOpcion>)
  {
    |ops| == |ids|
    && forall i :: 0 <= i < |ids| ==>
         ids[i] in cat.opciones && ops[i] == DetalleOpcion(ids[i], cat.opciones[ids[i]].precioExtra)
  }

  /** A line built from `d`: its product, quantity and frozen prices, and a
      subtotal of base price times quantity plus every extra times quantity. */
  predicate DetalleFiel(cat: Catalogo, d: DetalleRequest, det: DetallePedido)
  {
    d.idProducto in cat.productos
    && det.idProducto == d.idProducto
    && det.cantidad == d.cantidad
    && det.precioBaseHistorico == cat.productos[d.idProducto].precioBase
    && OpcionesFieles(cat, IdsDe(d), det.opciones)
    && det.subtotal == det.precioBaseHistorico * det.cantidad + SumaExtras(det.opciones) * det.cantidad
  }

  predicate DetalleAceptable(cat: Catalogo, d: DetalleRequest)
  {
    d.idProducto in cat.productos && cat.productos[d.idProducto].activo
    && forall i :: 0 <= i < |IdsDe(d)| ==> IdsDe(d)[i] in cat.opciones
  }

  /** Why a line is refused: its product is missing, then inactive, then one
      of its options is missing. */
  function ErrorDeDetalle(cat: Catalogo, d: DetalleRequest): Error
  {
    if d.idProducto !in cat.productos then ProductoNoEncontrado
    else if !cat.productos[d.idProducto].activo then ProductoNoDisponible(cat.productos[d.idProducto].nombre)
    else OpcionNoEncontrada
  }

  /** Line `k` is the first refused one. */
  predicate PrimerRechazo(cat: Catalogo, ds: seq<DetalleRequest>, k: int)
  {
    0 <= k < |ds| && !DetalleAceptable(cat, ds[k])
    && forall i :: 0 <= i < k ==> DetalleAceptable(cat, ds[i])
  }

  predicate ClienteActivo(cat: Catalogo, id: int)
  {
    id in cat.clientes && cat.clientes[id].activo
  }

  predicate Aceptable(cat: Catalogo, dto: PedidoRequest)
  {
    ClienteActivo(cat, dto.idCliente)
    && forall i :: 0 <= i < |dto.detalles| ==> DetalleAceptable(cat, dto.detalles[i])
  }

  /** The error a refused request reports: the client's first, then the one
      of the first refused line. */
  predicate ErrorEsperado(cat: Catalogo, dto: PedidoRequest, e: Error)
  {
    if dto.idCliente !in cat.clientes then e == ClienteNoEncontrado
    else if !cat.clientes[dto.idCliente].activo then e == ClienteInactivo
    else exists k :: 0 <= k < |dto.detalles| && PrimerRechazo(cat, dto.detalles, k) && e == ErrorDeDetalle(cat, dto.detalles[k])
  }

  /** An order created from `dto` at moment `ahora`. */
  predicate PedidoFiel(cat: Catalogo, dto: PedidoRequest, ahora: DateTime, p: Pedido)
  {
    p.fechaEmitido == ahora
    && p.fechaEntrega == StartOfDay(dto.fechaEntrega)
    && p.idCliente == dto.idCliente
    && p.precioAdicional == dto.precioAdicional.GetOr(0)
    && |p.detalles| == |dto.detalles|
    && (forall i :: 0 <= i < |dto.detalles| ==> DetalleFiel(cat, dto.detalles[i], p.detalles[i]))
    && p.total == p.precioAdicional + SumaSubtotales(p.detalles)
    && p.observaciones == (if dto.detalles == [] then None else dto.observaciones)
    && !p.cancelado && !p.entregado && !p.pagado
  }

  // ---------------------------------------------------------------------
  // Order creation, loop by loop
  // ---------------------------------------------------------------------

  /** A line's options and running subtotal while its options are added. */
  datatype Linea = Linea(opciones: seq<DetalleOpcion>, subtotal: int)

  /** `v` is `acc` with one snapshot per id of `ids` appended and price
      times quantity added to the subtotal for each. */
  predicate LineaExtendida(cat: Catalogo, ids: seq<int>, cantidad: int, acc: Linea, v: Linea)
  {
    var n := |acc.opciones|;
    |v.opciones| == n + |ids| && v.opciones[..n] == acc.opciones
    && OpcionesFieles(cat, ids, v.opciones[n..])
    && v.subtotal == acc.subtotal + SumaExtras(v.opciones[n..]) * cantidad
  }

  /** The options loop: for each id, look the option up, freeze its price
      and add price times quantity to the subtotal. */
  function AgregarOpciones(cat: Catalogo, ids: seq<int>, cantidad: int, acc: Linea): (r: Result<Linea, Error>)
    ensures r.Ok? <==> forall i :: 0 <= i < |ids| ==> ids[i] in cat.opciones
    ensures r.Err? ==> r.error == OpcionNoEncontrada
    ensures r.Ok? ==> LineaExtendida(cat, ids, cantidad, acc, r.value)
    decreases |ids|
  {
    if ids == [] then
      assert acc.opciones[|acc.opciones|..] == [];
      Ok(acc)
    else if ids[0] !in cat.opciones then Err(OpcionNoEncontrada)
    else
      var op := DetalleOpcion(ids[0], cat.opciones[ids[0]].precioExtra);
      var r := AgregarOpciones(cat, ids[1..], cantidad,
                               Linea(acc.opciones + [op], acc.subtotal + op.precioExtraHistorico * cantidad));
      if r.Ok? then LineaPaso(cat, ids, cantidad, acc, r.value); r else r
  }

  lemma LineaPaso(cat: Catalogo, ids: seq<int>, cantidad: int, acc: Linea, v: Linea)
    requires ids != [] && ids[0] in cat.opciones
    requires
      var op := DetalleOpcion(ids[0], cat.opciones[ids[0]].precioExtra);
      LineaExtendida(cat, ids[1..], cantidad, Linea(acc.opciones + [op], acc.subtotal + op.precioExtraHistorico * cantidad), v)
    ensures LineaExtendida(cat, ids, cantidad, acc, v)
  {
    var op := DetalleOpcion(ids[0], cat.opciones[ids[0]].precioExtra);
    var n := |acc.opciones|;
    var rest := v.opciones[n..];
    assert rest[0] == op && rest[1..] == v.opciones[n + 1..];
    assert v.opciones[..n] == (acc.opciones + [op])[..n];
    assert (op.precioExtraHistorico + SumaExtras(rest[1..])) * cantidad
        == op.precioExtraHistorico * cantidad + SumaExtras(rest[1..]) * cantidad;
    assert forall i :: 1 <= i < |ids| ==> ids[i] == ids[1..][i - 1] && rest[i] == rest[1..][i - 1];
  }

  /** One line of the products loop: the product must exist and be active;
      its price is frozen and the options are added. */
  function ArmarDetalle(cat: Catalogo, d: DetalleRequest): (r: Result<DetallePedido, Error>)
    ensures r.Ok? <==> DetalleAceptable(cat, d)
    ensures r.Err? ==> r.error == ErrorDeDetalle(cat, d)
    ensures r.Ok? ==> DetalleFiel(cat, d, r.value)
  {
    if d.idProducto !in cat.productos then Err(ProductoNoEncontrado)
    else
      var producto := cat.productos[d.idProducto];
      if !producto.activo then Err(ProductoNoDisponible(producto.nombre))
      else
        match AgregarOpciones(cat, IdsDe(d), d.cantidad, Linea([], producto.precioBase * d.cantidad))
        case Err(e) => Err(e)
        case Ok(linea) =>
          assert linea.opciones[0..] == linea.opciones;
          Ok(DetallePedido(d.idProducto, d.cantidad, linea.subtotal, producto.precioBase, linea.opciones))
  }

  /** The order header while the lines are added. */
  datatype Cabecera = Cabecera(detalles: seq<DetallePedido>, total: int, observaciones: Option<string>)

  /** `v` is `acc` with one faithful line per request of `ds` appended, their
      subtotals added to the total, and the notes set if any line was. */
  predicate CabeceraExtendida(cat: Catalogo, ds: seq<DetalleRequest>, obs: Option<string>, acc: Cabecera, v: Cabecera)
  {
    var n := |acc.detalles|;
    |v.detalles| == n + |ds| && v.detalles[..n] == acc.detalles
    && (forall i :: 0 <= i < |ds| ==> DetalleFiel(cat, ds[i], v.detalles[n + i]))
    && v.total == acc.total + SumaSubtotales(v.detalles[n..])
    && v.observaciones == (if ds == [] then acc.observaciones else obs)
  }

  /** The products loop: each line is built, appended and added to the
      total; the notes are set on every pass. */
  function AgregarDetalles(cat: Catalogo, ds: seq<DetalleRequest>, obs: Option<string>, acc: Cabecera): (r: Result<Cabecera, Error>)
    ensures r.Ok? <==> forall i :: 0 <= i < |ds| ==> DetalleAceptable(cat, ds[i])
    ensures r.Err? ==> exists k :: PrimerRechazo(cat, ds, k) && r.error == ErrorDeDetalle(cat, ds[k])
    ensures r.Ok? ==> CabeceraExtendida(cat, ds, obs, acc, r.value)
    decreases |ds|
  {
    if ds == [] then
      assert acc.detalles[|acc.detalles|..] == [];
      Ok(acc)
    else
      match ArmarDetalle(cat, ds[0])
      case Err(e) =>
        assert PrimerRechazo(cat, ds, 0);
        Err(e)
      case Ok(det) =>
        var r := AgregarDetalles(cat, ds[1..], obs, Cabecera(acc.detalles + [det], acc.total + det.subtotal, obs));
        if r.Ok? then
          CabeceraPaso(cat, ds, obs, acc, det, r.value);
          r
        else
          RechazoPaso(cat, ds, r.error);
          r
  }

  lemma CabeceraPaso(cat: Catalogo, ds: seq<DetalleRequest>, obs: Option<string>, acc: Cabecera, det: DetallePedido, v: Cabecera)
    requires ds != [] && DetalleFiel(cat, ds[0], det)
    requires CabeceraExtendida(cat, ds[1..], obs, Cabecera(acc.detalles + [det], acc.total + det.subtotal, obs), v)
    ensures CabeceraExtendida(cat, ds, obs, acc, v)
  {
    var n := |acc.detalles|;
    var rest := v.detalles[n..];
    assert rest[0] == det && rest[1..] == v.detalles[n + 1..];
    assert v.detalles[..n] == (acc.detalles + [det])[..n];
    assert forall i :: 1 <= i < |ds| ==> ds[i] == ds[1..][i - 1] && n + i == (n + 1) + (i - 1);
  }

  lemma RechazoPaso(cat: Catalogo, ds: seq<DetalleRequest>, e: Error)
    requires ds != [] && DetalleAceptable(cat, ds[0])
    requires exists k :: PrimerRechazo(cat, ds[1..], k) && e == ErrorDeDetalle(cat, ds[1..][k])
    ensures exists k :: PrimerRechazo(cat, ds, k) && e == ErrorDeDetalle(cat, ds[k])
  {
    var k :| PrimerRechazo(cat, ds[1..], k) && e == ErrorDeDetalle(cat, ds[1..][k]);
    assert PrimerRechazo(cat, ds, k + 1);
  }

  /** `crearPedido` before saving: the client must exist and be active, the
      extra price defaults to 0 and starts the total, then every line is
      added. */
  function ArmarPedido(cat: Catalogo, dto: PedidoRequest, ahora: DateTime): (r: Result<Pedido, Error>)
    ensures r.Ok? <==> Aceptable(cat, dto)
    ensures r.Err? ==> ErrorEsperado(cat, dto, r.error)
    ensures r.Ok? ==> PedidoFiel(cat, dto, ahora, r.value)
  {
    if dto.idCliente !in cat.clientes then Err(ClienteNoEncontrado)
    else if !cat.clientes[dto.idCliente].activo then Err(ClienteInactivo)
    else
      var adicional := dto.precioAdicional.GetOr(0);
      match AgregarDetalles(cat, dto.detalles, dto.observaciones, Cabecera([], adicional, None))
      case Err(e) => Err(e)
      case Ok(c) =>
        assert c.detalles[0..] == c.detalles;
        Ok(Pedido(ahora, StartOfDay(dto.fechaEntrega), c.total, dto.idCliente, c.detalles,
                  c.observaciones, adicional, false, false, false))
  }

  /** `crearPedido`: a refused request stores nothing; an accepted one is
      saved under a fresh id and no other order changes. */
  function CrearPedido(cat: Catalogo, pedidos: Table<Pedido>, dto: PedidoRequest, ahora: DateTime): (r: Result<Inserted<Pedido>, Error>)
    requires pedidos.Valid()
    ensures r.Ok? <==> Aceptable(cat, dto)
    ensures r.Err? ==> ErrorEsperado(cat, dto, r.error)
    ensures r.Ok? ==>
      r.value.table.Valid()
      && r.value.id !in pedidos.rows
      && r.value.table.rows.Keys == pedidos.rows.Keys + {r.value.id}
      && PedidoFiel(cat, dto, ahora, r.value.table.rows[r.value.id])
      && forall id :: id in pedidos.rows ==> r.value.table.rows[id] == pedidos.rows[id]
  {
    match ArmarPedido(cat, dto, ahora)
    case Err(e) => Err(e)
    case Ok(p) => Ok(Insert(pedidos, p))
  }

  /** An option listed twice is charged twice: the extras of a line are the
      sum over its ids, repetitions included. */
  lemma {:induction false} ExtrasPorId(cat: Catalogo, ids: seq<int>, ops: seq<DetalleOpcion>)
    requires OpcionesFieles(cat, ids, ops)
    ensures SumaExtras(ops) == SumaPrecios(cat, ids)
  {
    if ids != [] {
      assert OpcionesFieles(cat, ids[1..], ops[1..]) by {
        forall i | 0 <= i < |ids[1..]|
          ensures ids[1..][i] in cat.opciones
          ensures ops[1..][i] == DetalleOpcion(ids[1..][i], cat.opciones[ids[1..][i]].precioExtra)
        {
          assert ids[1..][i] == ids[i + 1] && ops[1..][i] == ops[i + 1];
        }
      }
      ExtrasPorId(cat, ids[1..], ops[1..]);
    }
  }

  /** The current price of every listed option, one term per occurrence. */
  function SumaPrecios(cat: Catalogo, ids: seq<int>): int
    requires forall i :: 0 <= i < |ids| ==> ids[i] in cat.opciones
  {
    if ids == [] then 0 else cat.opciones[ids[0]].precioExtra + SumaPrecios(cat, ids[1..])
  }

  // ---------------------------------------------------------------------
  // Lifecycle
  // ---------------------------------------------------------------------

  /** `cancelarPedido`: no guard; only a missing id fails. */
  function CancelarPedido(t: Table<Pedido>, id: int): (r: Result<Table<Pedido>, Error>)
    ensures r.Err? <==> id !in t.rows
    ensures r.Err? ==> r.error == PedidoNoEncontrado
    ensures r.Ok? ==> r.value.rows.Keys == t.rows.Keys && r.value.nextId == t.nextId
    ensures r.Ok? ==> r.value.rows[id] == t.rows[id].(cancelado := true)
    ensures r.Ok? ==> forall k :: k in t.rows && k != id ==> r.value.rows[k] == t.rows[k]
  {
    if id !in t.rows then Err(PedidoNoEncontrado)
    else Ok(Put(t, id, t.rows[id].(cancelado := true)))
  }

  /** `entregarPedido`: refused for a missing or cancelled order. */
  function EntregarPedido(t: Table<Pedido>, id: int): (r: Result<Table<Pedido>, Error>)
    ensures r.Err? <==> id !in t.rows || t.rows[id].cancelado
    ensures r.Err? ==> r.error == (if id !in t.rows then PedidoNoEncontrado else EntregaDeCancelado)
    ensures r.Ok? ==> r.value.rows.Keys == t.rows.Keys && r.value.nextId == t.nextId
    ensures r.Ok? ==> r.value.rows[id] == t.rows[id].(entregado := true)
    ensures r.Ok? ==> forall k :: k in t.rows && k != id ==> r.value.rows[k] == t.rows[k]
  {
    if id !in t.rows then Err(PedidoNoEncontrado)
    else if t.rows[id].cancelado then Err(EntregaDeCancelado)
    else Ok(Put(t, id, t.rows[id].(entregado := true)))
  }

  /** `confirmarPago`: refused for a missing or cancelled order. */
  function ConfirmarPago(t: Table<Pedido>, id: int): (r: Result<Table<Pedido>, Error>)
    ensures r.Err? <==> id !in t.rows || t.rows[id].cancelado
    ensures r.Err? ==> r.error == (if id !in t.rows then PedidoNoEncontrado else PagoDeCancelado)
    ensures r.Ok? ==> r.value.rows.Keys == t.rows.Keys && r.value.nextId == t.nextId
    ensures r.Ok? ==> r.value.rows[id] == t.rows[id].(pagado := true)
    ensures r.Ok? ==> forall k :: k in t.rows && k != id ==> r.value.rows[k] == t.rows[k]
  {
    if id !in t.rows then Err(PedidoNoEncontrado)
    else if t.rows[id].cancelado then Err(PagoDeCancelado)
    else Ok(Put(t, id, t.rows[id].(pagado := true)))
  }

  /** A request to one of the three endpoints. */
  datatype Accion = Cancelar(id: int) | Entregar(id: int) | Pagar(id: int)

  function Aplicar(t: Table<Pedido>, a: Accion): Result<Table<Pedido>, Error>
  {
    match a
    case Cancelar(id) => CancelarPedido(t, id)
    case Entregar(id) => EntregarPedido(t, id)
    case Pagar(id) => ConfirmarPago(t, id)
  }

  /** A run of requests, each refused one leaving the store as it was. */
  function Ejecutar(t: Table<Pedido>, acciones: seq<Accion>): Table<Pedido>
    decreases |acciones|
  {
    if acciones == [] then t
    else
      var r := Aplicar(t, acciones[0]);
      Ejecutar(if r.Ok? then r.value else t, acciones[1..])
  }

  /** The transitions touch only the flags, and never clear one. */
  predicate Avanza(p: Pedido, q: Pedido)
  {
    q == p.(cancelado := q.cancelado, entregado := q.entregado, pagado := q.pagado)
    && (p.cancelado ==> q.cancelado) && (p.entregado ==> q.entregado) && (p.pagado ==> q.pagado)
  }

  /** Any run of requests keeps every order, keeps its data and only raises
      flags; an order that is cancelled at the start is never delivered or
      paid afterwards unless it already was. */
  lemma {:induction false} EjecutarAvanza(t: Table<Pedido>, acciones: seq<Accion>)
    ensures Ejecutar(t, acciones).rows.Keys == t.rows.Keys
    ensures forall id :: id in t.rows ==> Avanza(t.rows[id], Ejecutar(t, acciones).rows[id])
    ensures forall id :: id in t.rows && t.rows[id].cancelado ==>
      Ejecutar(t, acciones).rows[id].entregado == t.rows[id].entregado
      && Ejecutar(t, acciones).rows[id].pagado == t.rows[id].pagado
    decreases |acciones|
  {
    if acciones != [] {
      var r := Aplicar(t, acciones[0]);
      var u := if r.Ok? then r.value else t;
      assert u.rows.Keys == t.rows.Keys;
      assert forall id :: id in t.rows ==> Avanza(t.rows[id], u.rows[id]);
      assert forall id :: id in t.rows && t.rows[id].cancelado ==>
        u.rows[id].cancelado && u.rows[id].entregado == t.rows[id].entregado && u.rows[id].pagado == t.rows[id].pagado;
      EjecutarAvanza(u, acciones[1..]);
      var v := Ejecutar(u, acciones[1..]);
      assert v == Ejecutar(t, acciones);
      forall id | id in t.rows
        ensures Avanza(t.rows[id], v.rows[id])
      {
        var p, q, w := t.rows[id], u.rows[id], v.rows[id];
        assert Avanza(p, q) && Avanza(q, w);
      }
    }
  }

  /** Cancelling twice is cancelling once. */
  lemma CancelarIdempotente(t: Table<Pedido>, id: int)
    requires id in t.rows
    ensures CancelarPedido(CancelarPedido(t, id).value, id) == CancelarPedido(t, id)
  {
    var u := CancelarPedido(t, id).value;
    PutPut(t, id, t.rows[id].(cancelado := true), u.rows[id].(cancelado := true));
  }

  /** Once cancelled, an order can be neither delivered nor paid. */
  lemma CanceladoEsFinal(t: Table<Pedido>, id: int)
    requires id in t.rows
    ensures EntregarPedido(CancelarPedido(t, id).value, id) == Err(EntregaDeCancelado)
    ensures ConfirmarPago(CancelarPedido(t, id).value, id) == Err(PagoDeCancelado)
  {
  }

  /** Delivering and paying a live order give the same store in either order. */
  lemma EntregarPagarConmutan(t: Table<Pedido>, id: int)
    requires id in t.rows && !t.rows[id].cancelado
    ensures ConfirmarPago(EntregarPedido(t, id).value, id).Ok?
    ensures EntregarPedido(ConfirmarPago(t, id).value, id).Ok?
    ensures ConfirmarPago(EntregarPedido(t, id).value, id).value
         == EntregarPedido(ConfirmarPago(t, id).value, id).value
  {
    var a := ConfirmarPago(EntregarPedido(t, id).value, id).value;
    var b := EntregarPedido(ConfirmarPago(t, id).value, id).value;
    assert a.rows == b.rows;
  }
}

=== FILE: pedidos_page.dfy ===
/** The order history page: the column the list is sorted by, the
    comparator, and the stable sort of a copy of the list. */
module PedidosPage {
  import opened Calendar
  import opened Strings
  import opened Views
  import opened Seqs

  datatype Direccion = Asc | Desc

  datatype SortConfig = SortConfig(key: string, direction: Direccion)

  /** The page opens sorted by delivery, latest first. */
  const ConfigInicial := SortConfig("entrega", Desc)

  /** `handleSort`: the clicked column becomes the key; the direction turns
      descending only when that column was already sorted ascending. */
  function HandleSort(cfg: SortConfig, key: string): (r: SortConfig)
    ensures r.key == key
    ensures r.direction == Desc <==> cfg.key == key && cfg.direction == Asc
  {
    SortConfig(key, if cfg.key == key && cfg.direction == Asc then Desc else Asc)
  }

  /** Clicking the same column again flips the direction each time;
      clicking another column starts it ascending. */
  lemma HandleSortAlterna(cfg: SortConfig, key: string, otra: string)
    requires otra != key
    ensures HandleSort(HandleSort(cfg, key), key).direction != HandleSort(cfg, key).direction
    ensures HandleSort(HandleSort(HandleSort(cfg, key), key), key) == HandleSort(cfg, key)
    ensures HandleSort(HandleSort(cfg, key), otra) == SortConfig(otra, Asc)
  {
  }

  function NombreOrden(p: PedidoV): string
  {
    ToLower(NombreCompleto(p.cliente))
  }

  /** The columns the comparator knows. */
  datatype Columna = Entrega | Cliente | Id | Otra

  function ColumnaDe(key: string): (c: Columna)
    ensures c == Otra <==> key != "entrega" && key != "cliente" && key != "id"
  {
    if key == "entrega" then Entrega
    else if key == "cliente" then Cliente
    else if key == "id" then Id
    else Otra
  }

  /** The ascending comparison for a key: by delivery moment, by lower-cased
      full name, by id, and 0 for any other key. */
  function Comparacion(key: string, a: PedidoV, b: PedidoV): int
  {
    match ColumnaDe(key)
    case Entrega => Ordinal(a.fechaEntrega) - Ordinal(b.fechaEntrega)
    case Cliente => LexCompare(NombreOrden(a), NombreOrden(b))
    case Id => a.idPedido - b.idPedido
    case Otra => 0
  }

  /** The comparator handed to `sort`. */
  function Comparar(cfg: SortConfig, a: PedidoV, b: PedidoV): int
  {
    var c := Comparacion(cfg.key, a, b);
    if cfg.direction == Asc then c else -c
  }

  /** `a` is a strictly earlier moment than `b`. */
  predicate Antes(a: DateTime, b: DateTime)
  {
    Before(a.date, b.date) || (a.date == b.date && a.secondOfDay < b.secondOfDay)
  }

  /** What the comparator's sign means for each key: negative when `a` goes
      first, 0 on a tie, the order reversed when descending, and every pair
      tied under a key the comparator does not know. */
  lemma CompararSignifica(cfg: SortConfig, a: PedidoV, b: PedidoV)
    ensures var r, asc := Comparar(cfg, a, b), cfg.direction == Asc;
      match ColumnaDe(cfg.key)
      case Otra => r == 0
      case Id =>
        (r < 0 <==> if asc then a.idPedido < b.idPedido else b.idPedido < a.idPedido)
        && (r == 0 <==> a.idPedido == b.idPedido)
      case Cliente =>
        (r < 0 <==> if asc then LexLess(NombreOrden(a), NombreOrden(b)) else LexLess(NombreOrden(b), NombreOrden(a)))
        && (r == 0 <==> NombreOrden(a) == NombreOrden(b))
      case Entrega =>
        ValidDateTime(a.fechaEntrega) && ValidDateTime(b.fechaEntrega) ==>
          (r < 0 <==> if asc then Antes(a.fechaEntrega, b.fechaEntrega) else Antes(b.fechaEntrega, a.fechaEntrega))
          && (r == 0 <==> a.fechaEntrega == b.fechaEntrega)
  {
    if ColumnaDe(cfg.key) == Entrega && ValidDateTime(a.fechaEntrega) && ValidDateTime(b.fechaEntrega) {
      OrdinalOrder(a.fechaEntrega, b.fechaEntrega);
      OrdinalOrder(b.fechaEntrega, a.fechaEntrega);
    }
  }

  /** The descending comparator is the exact negation of the ascending one. */
  lemma DescNiegaAsc(key: string, a: PedidoV, b: PedidoV)
    ensures Comparar(SortConfig(key, Desc), a, b) == -Comparar(SortConfig(key, Asc), a, b)
  {
  }

  /** Swapping the arguments flips the sign of the comparison. */
  lemma CompararAntisimetrico(cfg: SortConfig, a: PedidoV, b: PedidoV)
    ensures Comparar(cfg, a, b) > 0 <==> Comparar(cfg, b, a) < 0
    ensures Comparar(cfg, a, b) == 0 <==> Comparar(cfg, b, a) == 0
  {
  }

  /** "Not after" is transitive, so the comparator is a total preorder and
      the sorted order is well defined. */
  lemma CompararTransitivo(cfg: SortConfig, a: PedidoV, b: PedidoV, c: PedidoV)
    requires Comparar(cfg, a, b) <= 0 && Comparar(cfg, b, c) <= 0
    ensures Comparar(cfg, a, c) <= 0
  {
    if ColumnaDe(cfg.key) == Cliente {
      var x, y, z := NombreOrden(a), NombreOrden(b), NombreOrden(c);
      if cfg.direction == Asc {
        if LexLess(x, y) && LexLess(y, z) { LexLessTransitive(x, y, z); }
      } else {
        if LexLess(z, y) && LexLess(y, x) { LexLessTransitive(z, y, x); }
      }
    }
  }

  /** Every earlier element is not after every later one. */
  predicate Ordenado(cfg: SortConfig, s: seq<PedidoV>)
  {
    forall i, j :: 0 <= i < j < |s| ==> Comparar(cfg, s[i], s[j]) <= 0
  }

  /** Puts `x` before the first element that comes strictly after it, so
      equal elements keep their order. */
  function Insertar(cfg: SortConfig, s: seq<PedidoV>, x: PedidoV): (r: seq<PedidoV>)
    ensures multiset(r) == multiset(s) + multiset{x}
  {
    if s == [] then [x]
    else if Comparar(cfg, s[0], x) > 0 then [x] + s
    else
      var t := Insertar(cfg, s[1..], x);
      assert s == [s[0]] + s[1..];
      [s[0]] + t
  }

  lemma {:induction false} InsertarOrdenado(cfg: SortConfig, s: seq<PedidoV>, x: PedidoV)
    requires Ordenado(cfg, s)
    ensures Ordenado(cfg, Insertar(cfg, s, x))
  {
    if s != [] {
      var r := Insertar(cfg, s, x);
      if Comparar(cfg, s[0], x) > 0 {
        CompararAntisimetrico(cfg, s[0], x);
        forall j | 0 <= j < |s| ensures Comparar(cfg, x, s[j]) <= 0 {
          if j > 0 { CompararTransitivo(cfg, x, s[0], s[j]); }
        }
        assert forall j :: 0 < j < |r| ==> r[j] == s[j - 1];
      } else {
        var t := Insertar(cfg, s[1..], x);
        InsertarOrdenado(cfg, s[1..], x);
        forall j | 0 <= j < |t| ensures Comparar(cfg, s[0], t[j]) <= 0 {
          assert t[j] in multiset(t);
          if t[j] != x {
            assert t[j] in multiset(s[1..]);
            var k :| 0 <= k < |s[1..]| && s[1..][k] == t[j];
            assert s[k + 1] == t[j];
          }
        }
        assert forall j :: 0 < j < |r| ==> r[j] == t[j - 1];
      }
    }
  }

  /** The orders tied with `x` under the comparator. */
  function Empata(cfg: SortConfig, x: PedidoV): PedidoV -> bool
  {
    y => Comparar(cfg, x, y) == 0
  }

  /** An element tied with nothing in a sorted list goes in after every
      element it ties with: the ties of `x` keep their order, the new one
      last. */
  lemma {:induction false} InsertarEstable(cfg: SortConfig, s: seq<PedidoV>, e: PedidoV, x: PedidoV)
    requires Ordenado(cfg, s)
    ensures Filter(Insertar(cfg, s, e), Empata(cfg, x)) == Filter(s, Empata(cfg, x)) + Filter([e], Empata(cfg, x))
  {
    var t := Empata(cfg, x);
    if s == [] {
      assert Insertar(cfg, s, e) == [e];
    } else if Comparar(cfg, s[0], e) > 0 {
      assert Insertar(cfg, s, e) == [e] + s;
      EstableDelante(cfg, s, e, x);
    } else {
      var u := s[1..];
      assert Ordenado(cfg, u) by {
        assert forall i :: 0 <= i < |u| ==> u[i] == s[i + 1];
      }
      InsertarEstable(cfg, u, e, x);
      assert Insertar(cfg, s, e) == [s[0]] + Insertar(cfg, u, e);
      FilterConsAppend(s[0], u, Insertar(cfg, u, e), [e], t);
    }
  }

  /** Putting `e` in front of a sorted list whose head comes after it. */
  lemma EstableDelante(cfg: SortConfig, s: seq<PedidoV>, e: PedidoV, x: PedidoV)
    requires Ordenado(cfg, s) && s != [] && Comparar(cfg, s[0], e) > 0
    ensures Filter([e] + s, Empata(cfg, x)) == Filter(s, Empata(cfg, x)) + Filter([e], Empata(cfg, x))
  {
    var t := Empata(cfg, x);
    FiltrarUno(e, t);
    FilterConcat([e], s, t);
    if t(e) {
      SinEmpatesDelante(cfg, s, e, x);
      FilterNone(s, t);
    }
  }

  /** When `e` ties with `x` and the head of a sorted list comes after `e`,
      nothing in the list ties with `x`. */
  lemma SinEmpatesDelante(cfg: SortConfig, s: seq<PedidoV>, e: PedidoV, x: PedidoV)
    requires Ordenado(cfg, s) && s != []
    requires Comparar(cfg, s[0], e) > 0 && Comparar(cfg, x, e) == 0
    ensures forall j :: 0 <= j < |s| ==> Comparar(cfg, x, s[j]) != 0
  {
    forall j | 0 <= j < |s| ensures Comparar(cfg, x, s[j]) != 0 {
      if Comparar(cfg, x, s[j]) == 0 {
        CompararAntisimetrico(cfg, s[0], s[0]);
        EmpateNoSupera(cfg, s[0], s[j], e, x);
      }
    }
  }

  /** Anything not after an order tied with `x` is not after anything else
      tied with `x`. */
  lemma EmpateNoSupera(cfg: SortConfig, a: PedidoV, b: PedidoV, e: PedidoV, x: PedidoV)
    requires Comparar(cfg, a, b) <= 0 && Comparar(cfg, x, e) == 0 && Comparar(cfg, x, b) == 0
    ensures Comparar(cfg, a, e) <= 0
  {
    CompararAntisimetrico(cfg, x, b);
    CompararTransitivo(cfg, b, x, e);
    CompararTransitivo(cfg, a, b, e);
  }

  /** One insertion step keeps, for every `x`, the ties of `x` in the order
      of the input with the new element last. */
  lemma InsertarEstableTodos(cfg: SortConfig, q: seq<PedidoV>, s: seq<PedidoV>, e: PedidoV)
    requires Ordenado(cfg, s)
    requires forall x :: Filter(s, Empata(cfg, x)) == Filter(q, Empata(cfg, x))
    ensures forall x :: Filter(Insertar(cfg, s, e), Empata(cfg, x)) == Filter(q + [e], Empata(cfg, x))
  {
    forall x ensures Filter(Insertar(cfg, s, e), Empata(cfg, x)) == Filter(q + [e], Empata(cfg, x)) {
      InsertarEstable(cfg, s, e, x);
      FilterConcat(q, [e], Empata(cfg, x));
    }
  }

  /** `[...pedidos].sort(...)`: a stable sort of a copy; the result is a
      permutation of the list, in comparator order, and the orders that tie
      with any given order appear in the order they came. */
  function Ordenar(cfg: SortConfig, ps: seq<PedidoV>): (r: seq<PedidoV>)
    ensures multiset(r) == multiset(ps)
    ensures Ordenado(cfg, r)
    ensures forall x :: Filter(r, Empata(cfg, x)) == Filter(ps, Empata(cfg, x))
  {
    if ps == [] then []
    else
      var n := |ps| - 1;
      var s := Ordenar(cfg, ps[..n]);
      InsertarOrdenado(cfg, s, ps[n]);
      InsertarEstableTodos(cfg, ps[..n], s, ps[n]);
      assert ps == ps[..n] + [ps[n]];
      Insertar(cfg, s, ps[n])
  }

  /** Under an unrecognised key every comparison is 0 and the stable sort
      keeps the list as it came. */
  lemma {:induction false} ClaveDesconocidaConservaOrden(cfg: SortConfig, ps: seq<PedidoV>)
    requires cfg.key != "entrega" && cfg.key != "cliente" && cfg.key != "id"
    ensures Ordenar(cfg, ps) == ps
  {
    OtraConservaOrden(cfg, ps);
  }

  lemma {:induction false} OtraConservaOrden(cfg: SortConfig, ps: seq<PedidoV>)
    requires ColumnaDe(cfg.key) == Otra
    ensures Ordenar(cfg, ps) == ps
    decreases |ps|
  {
    if ps != [] {
      var n := |ps| - 1;
      var q, x := ps[..n], ps[n];
      assert ps == q + [x];
      OtraConservaOrden(cfg, q);
      InsertarAlFinal(cfg, q, x);
      assert Ordenar(cfg, ps) == Insertar(cfg, Ordenar(cfg, q), x);
    }
  }

  lemma {:induction false} InsertarAlFinal(cfg: SortConfig, s: seq<PedidoV>, x: PedidoV)
    requires ColumnaDe(cfg.key) == Otra
    ensures Insertar(cfg, s, x) == s + [x]
  {
    if s != [] {
      assert Comparar(cfg, s[0], x) == 0;
      InsertarAlFinal(cfg, s[1..], x);
      assert s == [s[0]] + s[1..];
    }
  }

  /** Sorted by id, the ids ascend (or descend). */
  lemma OrdenPorId(ps: seq<PedidoV>, d: Direccion)
    ensures var r := Ordenar(SortConfig("id", d), ps);
      forall i, j :: 0 <= i < j < |r| ==>
        if d == Asc then r[i].idPedido <= r[j].idPedido else r[i].idPedido >= r[j].idPedido
  {
  }

  /** Sorted by delivery ascending, no order is delivered strictly before
      one listed above it. */
  lemma OrdenPorEntrega(ps: seq<PedidoV>)
    requires forall i :: 0 <= i < |ps| ==> ValidDateTime(ps[i].fechaEntrega)
    ensures var r := Ordenar(SortConfig("entrega", Asc), ps);
      forall i, j :: 0 <= i < j < |r| ==>
        var s, t := r[i].fechaEntrega, r[j].fechaEntrega;
        !(Before(t.date, s.date) || (t.date == s.date && t.secondOfDay < s.secondOfDay))
  {
    var r := Ordenar(SortConfig("entrega", Asc), ps);
    forall i, j | 0 <= i < j < |r|
      ensures var s, t := r[i].fechaEntrega, r[j].fechaEntrega;
        !(Before(t.date, s.date) || (t.date == s.date && t.secondOfDay < s.secondOfDay))
    {
      assert r[i] in multiset(ps) && r[j] in multiset(ps);
      OrdinalOrder(r[j].fechaEntrega, r[i].fechaEntrega);
    }
  }

  /** Sorted by client ascending, the lower-cased names never step back. */
  lemma OrdenPorCliente(ps: seq<PedidoV>)
    ensures var r := Ordenar(SortConfig("cliente", Asc), ps);
      forall i, j :: 0 <= i < j < |r| ==> !LexLess(NombreOrden(r[j]), NombreOrden(r[i]))
  {
  }
}

=== FILE: producto_service.dfy ===
/** The product service: listing, creating, editing, and the soft delete
    that only switches a product off. */
module ProductoService {
  import opened Wrappers
  import opened Tables
  import opened Entities

  datatype ProductoRequest = ProductoRequest(
    nombre: string,
    unidad: string,
    precioBase: int,
    idsAtributosValidos: Option<seq<int>>)

  /** `listarProductos(soloActivos)`: the active products, or all of them. */
  function ListarProductos(t: Table<Producto>, soloActivos: bool): (r: map<int, Producto>)
    ensures forall id :: id in r <==> id in t.rows && (!soloActivos || t.rows[id].activo)
    ensures forall id :: id in r ==> r[id] == t.rows[id]
  {
    Listar(t, (p: Producto) => !soloActivos || p.activo)
  }

  /** `findAllById(ids)` as a set: the listed ids that name an attribute;
      unknown ids are dropped. */
  function AtributosEncontrados(atributos: map<int, Atributo>, ids: seq<int>): (r: set<int>)
    ensures forall id :: id in r <==> id in ids && id in atributos
  {
    set id | id in ids && id in atributos
  }

  /** The attribute set after a request: replaced when the request lists ids,
      kept otherwise. */
  function NuevosAtributos(atributos: map<int, Atributo>, actuales: set<int>, ids: Option<seq<int>>): set<int>
  {
    if ids.Some? then AtributosEncontrados(atributos, ids.value) else actuales
  }

  /** `crearProducto`: a new active product with the request's fields. */
  function CrearProducto(t: Table<Producto>, atributos: map<int, Atributo>, dto: ProductoRequest): (r: Inserted<Producto>)
    requires t.Valid()
    ensures r.table.Valid() && r.id !in t.rows
    ensures r.table.rows.Keys == t.rows.Keys + {r.id}
    ensures forall id :: id in t.rows ==> r.table.rows[id] == t.rows[id]
    ensures
      var p := r.table.rows[r.id];
      p.activo && p.nombre == dto.nombre && p.unidad == dto.unidad && p.precioBase == dto.precioBase
      && (dto.idsAtributosValidos.None? ==> p.atributosValidos == {})
      && (dto.idsAtributosValidos.Some? ==>
            forall a :: a in p.atributosValidos <==> a in dto.idsAtributosValidos.value && a in atributos)
  {
    Insert(t, Producto(dto.nombre, dto.unidad, dto.precioBase, true,
                       NuevosAtributos(atributos, {}, dto.idsAtributosValidos)))
  }

  /** `actualizarProducto`: fails on a missing id; copies the three fields,
      replaces the attributes only when ids are given, keeps `activo`. */
  function ActualizarProducto(t: Table<Producto>, atributos: map<int, Atributo>, id: int, dto: ProductoRequest): (r: Result<Table<Producto>, Error>)
    ensures r.Err? <==> id !in t.rows
    ensures r.Err? ==> r.error == ProductoNoEncontrado
    ensures r.Ok? ==> r.value.rows.Keys == t.rows.Keys && r.value.nextId == t.nextId
    ensures r.Ok? ==> forall k :: k in t.rows && k != id ==> r.value.rows[k] == t.rows[k]
    ensures r.Ok? ==>
      var antes, p := t.rows[id], r.value.rows[id];
      p.nombre == dto.nombre && p.unidad == dto.unidad && p.precioBase == dto.precioBase
      && p.activo == antes.activo
      && (dto.idsAtributosValidos.None? ==> p.atributosValidos == antes.atributosValidos)
      && (dto.idsAtributosValidos.Some? ==>
            forall a :: a in p.atributosValidos <==> a in dto.idsAtributosValidos.value && a in atributos)
  {
    if id !in t.rows then Err(ProductoNoEncontrado)
    else
      var p := t.rows[id];
      Ok(Put(t, id, p.(nombre := dto.nombre, unidad := dto.unidad, precioBase := dto.precioBase,
                       atributosValidos := NuevosAtributos(atributos, p.atributosValidos, dto.idsAtributosValidos))))
  }

  /** `eliminarProducto`: fails on a missing id, otherwise switches the
      product off and changes nothing else. */
  function EliminarProducto(t: Table<Producto>, id: int): (r: Result<Table<Producto>, Error>)
    ensures r.Err? <==> id !in t.rows
    ensures r.Err? ==> r.error == ProductoNoEncontrado
    ensures r.Ok? ==> r.value.rows.Keys == t.rows.Keys && r.value.nextId == t.nextId
    ensures r.Ok? ==> r.value.rows[id] == t.rows[id].(activo := false)
    ensures r.Ok? ==> forall k :: k in t.rows && k != id ==> r.value.rows[k] == t.rows[k]
  {
    if id !in t.rows then Err(ProductoNoEncontrado)
    else Ok(Put(t, id, t.rows[id].(activo := false)))
  }

  /** `activarProducto`: fails on a missing id, otherwise switches the
      product back on and changes nothing else. */
  function ActivarProducto(t: Table<Producto>, id: int): (r: Result<Table<Producto>, Error>)
    ensures r.Err? <==> id !in t.rows
    ensures r.Err? ==> r.error == ProductoNoEncontrado
    ensures r.Ok? ==> r.value.rows.Keys == t.rows.Keys && r.value.nextId == t.nextId
    ensures r.Ok? ==> r.value.rows[id] == t.rows[id].(activo := true)
    ensures r.Ok? ==> forall k :: k in t.rows && k != id ==> r.value.rows[k] == t.rows[k]
  {
    if id !in t.rows then Err(ProductoNoEncontrado)
    else Ok(Put(t, id, t.rows[id].(activo := true)))
  }

  /** Deleting twice is deleting once. */
  lemma EliminarIdempotente(t: Table<Producto>, id: int)
    requires id in t.rows
    ensures EliminarProducto(EliminarProducto(t, id).value, id) == EliminarProducto(t, id)
  {
    var u := EliminarProducto(t, id).value;
    PutPut(t, id, t.rows[id].(activo := false), u.rows[id].(activo := false));
  }

  /** Reactivating a deleted product that was active gives back the store
      exactly as it was. */
  lemma EliminarActivarRestaura(t: Table<Producto>, id: int)
    requires id in t.rows && t.rows[id].activo
    ensures ActivarProducto(EliminarProducto(t, id).value, id) == Ok(t)
  {
    var u := EliminarProducto(t, id).value;
    PutPut(t, id, t.rows[id].(activo := false), u.rows[id].(activo := true));
    PutSame(t, id);
  }

  /** A deleted product drops out of the sale list but stays in the full
      list; no other product's listing changes. */
  lemma EliminadoNoSeVende(t: Table<Producto>, id: int)
    requires id in t.rows
    ensures id !in ListarProductos(EliminarProducto(t, id).value, true)
    ensures ListarProductos(EliminarProducto(t, id).value, false).Keys == ListarProductos(t, false).Keys
    ensures forall k :: k != id ==>
      (k in ListarProductos(EliminarProducto(t, id).value, true) <==> k in ListarProductos(t, true))
  {
  }

  /** An update never revives or deletes a product. */
  lemma ActualizarConservaEstado(t: Table<Producto>, atributos: map<int, Atributo>, id: int, dto: ProductoRequest)
    requires id in t.rows
    ensures id in ListarProductos(ActualizarProducto(t, atributos, id, dto).value, true) <==> id in ListarProductos(t, true)
  {
  }
}

=== FILE: productos_page.dfy ===
/** The product page: the form, its checks, and the unit text that packs a
    diameter as "N cm" on save and unpacks it when a product is edited. */
module ProductosPage {
  import opened Wrappers
  import opened Strings
  import opened Seqs
  import opened Numbers
  import opened Views

  /** The form; the price is `parseFloat` of its input. */
  datatype FormProducto = FormProducto(nombre: string, unidad: string, precioBase: JsNum, idsAtributosValidos: seq<int>)

  /** The page state: which product is edited, the form, and the size box
      shown for the unit "cm". */
  datatype Estado = Estado(idEdicion: Option<int>, form: FormProducto, tamanioCm: string)

  datatype Aviso = NombreVacio | PrecioInvalido | TamanioInvalido

  /** The outcome of pressing save. */
  datatype Envio = Rechazado(aviso: Aviso) | Actualizar(id: int, producto: FormProducto) | Crear(producto: FormProducto)

  /** The unit text stored for a form. */
  function UnidadFinal(e: Estado): string
  {
    if e.form.unidad == "cm" then e.tamanioCm + " cm" else e.form.unidad
  }

  /** `handleGuardar`: refuses a blank name, then a price that compares
      `<= 0`, then for "cm" an empty size or one that parses `<= 0`;
      otherwise sends the form with its final unit, as an update when an id
      is being edited and as a new product when not. */
  function Guardar(e: Estado): (r: Envio)
    ensures Trim(e.form.nombre) == "" ==> r == Rechazado(NombreVacio)
    ensures Trim(e.form.nombre) != "" && AtMost(e.form.precioBase, 0.0) ==> r == Rechazado(PrecioInvalido)
    ensures r == Rechazado(TamanioInvalido) <==>
      Trim(e.form.nombre) != "" && !AtMost(e.form.precioBase, 0.0)
      && e.form.unidad == "cm" && (e.tamanioCm == "" || AtMost(ParseFloat(e.tamanioCm), 0.0))
    ensures !r.Rechazado? ==>
      (r.Actualizar? <==> Truthy(e.idEdicion))
      && (r.Actualizar? ==> r.id == e.idEdicion.value)
      && r.producto == e.form.(unidad := UnidadFinal(e))
  {
    if Trim(e.form.nombre) == "" then Rechazado(NombreVacio)
    else if AtMost(e.form.precioBase, 0.0) then Rechazado(PrecioInvalido)
    else if e.form.unidad == "cm" && (e.tamanioCm == "" || AtMost(ParseFloat(e.tamanioCm), 0.0)) then
      Rechazado(TamanioInvalido)
    else
      var p := e.form.(unidad := UnidadFinal(e));
      if Truthy(e.idEdicion) then Actualizar(e.idEdicion.value, p) else Crear(p)
  }

  /** The unit and size the form shows for a stored unit text. */
  datatype Unidad = Unidad(unidad: string, tamanio: string)

  /** The unpacking in `cargarParaEditar`: a text ending in " cm" that splits
      on spaces into two parts, the first a number, shows as "cm" with that
      size; anything else shows as is ("unidad" when missing or empty) with
      no size. */
  function Decodificar(unidad: Option<string>): (r: Unidad)
    ensures r.tamanio != "" ==> r.unidad == "cm"
    ensures unidad.None? ==> r == Unidad("unidad", "")
    ensures unidad.Some? && !EndsWith(unidad.value, " cm") ==> r == Unidad(OrElse(unidad, "unidad"), "")
    ensures unidad.Some? && EndsWith(unidad.value, " cm") ==>
      var partes := Split(unidad.value, ' ');
      (|partes| == 2 && NumberOf(partes[0]) != NaN ==> r == Unidad("cm", partes[0]))
      && (|partes| != 2 || NumberOf(partes[0]) == NaN ==> r == Unidad(unidad.value, ""))
  {
    var porDefecto := Unidad(OrElse(unidad, "unidad"), "");
    if unidad.Some? && unidad.value != "" && EndsWith(unidad.value, " cm") then
      var partes := Split(unidad.value, ' ');
      if |partes| == 2 && NumberOf(partes[0]) != NaN then Unidad("cm", partes[0]) else porDefecto
    else porDefecto
  }

  /** A size with no space that reads as a number comes back as itself
      once packed as "N cm". */
  lemma {:induction false} CmIdaYVuelta(tamanio: string)
    requires ' ' !in tamanio && NumberOf(tamanio) != NaN
    ensures Decodificar(Some(tamanio + " cm")) == Unidad("cm", tamanio)
  {
    var u := tamanio + " cm";
    assert u == tamanio + [' '] + "cm";
    SplitAtFirst(tamanio, ' ', "cm");
    SplitNoSeparator("cm", ' ');
    assert u[|u| - 3..] == " cm";
  }

  /** The units of the selector other than "cm" come back unchanged. */
  lemma UnidadSimpleIdaYVuelta(u: string)
    requires u == "unidad" || u == "kg" || u == "docena" || u == "porcion"
    ensures Decodificar(Some(u)) == Unidad(u, "")
  {
    assert |u| < 3 || u[|u| - 1] != 'm';
  }

  /** `cargarParaEditar`: edits that product, with the missing name as '',
      the stored unit unpacked, and the ids of its attributes in order. */
  function CargarParaEditar(p: ProductoV): (r: Estado)
    ensures r.idEdicion == Some(p.idProducto)
    ensures r.form.nombre == OrElse(p.nombre, "") && r.form.precioBase == Num(p.precioBase as real)
    ensures |r.form.idsAtributosValidos| == |p.atributosValidos|
    ensures forall i :: 0 <= i < |p.atributosValidos| ==> r.form.idsAtributosValidos[i] == p.atributosValidos[i].idAtributo
    ensures Unidad(r.form.unidad, r.tamanioCm) == Decodificar(p.unidad)
  {
    var u := Decodificar(p.unidad);
    var ids := seq(|p.atributosValidos|, i requires 0 <= i < |p.atributosValidos| => p.atributosValidos[i].idAtributo);
    Estado(Some(p.idProducto), FormProducto(OrElse(p.nombre, ""), u.unidad, Num(p.precioBase as real), ids), u.tamanio)
  }

  /** Opening a product whose unit packs a size and saving it untouched
      sends back its own unit text, as an update of that product. */
  lemma EditarSinCambiosConservaUnidad(p: ProductoV, tamanio: string)
    requires p.idProducto != 0 && p.precioBase > 0
    requires p.nombre.Some? && Trim(p.nombre.value) != ""
    requires p.unidad == Some(tamanio + " cm")
    requires ' ' !in tamanio && ParseFloat(tamanio).Num? && ParseFloat(tamanio).value > 0.0
    ensures Guardar(CargarParaEditar(p)).Actualizar?
    ensures Guardar(CargarParaEditar(p)).id == p.idProducto
    ensures Guardar(CargarParaEditar(p)).producto.unidad == p.unidad.value
  {
    CmIdaYVuelta(tamanio);
  }

  /** The same for a product sold in one of the plain units. */
  lemma EditarSinCambiosUnidadSimple(p: ProductoV, u: string)
    requires p.idProducto != 0 && p.precioBase > 0
    requires p.nombre.Some? && Trim(p.nombre.value) != ""
    requires p.unidad == Some(u)
    requires u == "unidad" || u == "kg" || u == "docena" || u == "porcion"
    ensures Guardar(CargarParaEditar(p)).Actualizar?
    ensures Guardar(CargarParaEditar(p)).id == p.idProducto
    ensures Guardar(CargarParaEditar(p)).producto.unidad == u
  {
    UnidadSimpleIdaYVuelta(u);
  }

  /** `toggleAtributo`: flips one attribute id and nothing else. */
  function ToggleAtributo(e: Estado, id: int): (r: Estado)
    ensures r.idEdicion == e.idEdicion && r.tamanioCm == e.tamanioCm
    ensures r.form.nombre == e.form.nombre && r.form.unidad == e.form.unidad && r.form.precioBase == e.form.precioBase
    ensures id in r.form.idsAtributosValidos <==> id !in e.form.idsAtributosValidos
    ensures forall y :: y != id ==> (y in r.form.idsAtributosValidos <==> y in e.form.idsAtributosValidos)
  {
    e.(form := e.form.(idsAtributosValidos := Toggle(e.form.idsAtributosValidos, id)))
  }

  /** The unit selector: picking a unit other than "cm" clears the size. */
  function CambiarUnidad(e: Estado, u: string): (r: Estado)
    ensures r.form == e.form.(unidad := u) && r.idEdicion == e.idEdicion
    ensures r.tamanioCm == (if u == "cm" then e.tamanioCm else "")
  {
    e.(form := e.form.(unidad := u), tamanioCm := if u != "cm" then "" else e.tamanioCm)
  }

  /** `limpiarFormulario`. */
  function Limpiar(): (r: Estado)
    ensures r.idEdicion.None? && r.tamanioCm == ""
    ensures r.form.nombre == "" && r.form.unidad == "unidad" && r.form.precioBase == Num(0.0)
    ensures r.form.idsAtributosValidos == []
  {
    Estado(None, FormProducto("", "unidad", Num(0.0), []), "")
  }

  /** A cleared form is refused for its blank name. */
  lemma LimpioNoSeGuarda()
    ensures Guardar(Limpiar()) == Rechazado(NombreVacio)
  {
  }
}

=== FILE: seqs.dfy ===
/** Sequence operations the pages use: JavaScript's `Array.prototype.filter`
    and the membership toggle of a list of ids. */
module Seqs {
  import opened Wrappers

  /** `s.filter(p)`: the elements of `s` satisfying `p`, in their order. */
  function Filter<T>(s: seq<T>, p: T -> bool): (r: seq<T>)
    ensures |r| <= |s|
    ensures forall i :: 0 <= i < |r| ==> r[i] in s && p(r[i])
    ensures forall i :: 0 <= i < |s| && p(s[i]) ==> s[i] in r
  {
    if s == [] then [] else (if p(s[0]) then [s[0]] else []) + Filter(s[1..], p)
  }

  /** Filtering distributes over concatenation, so the kept elements stay in
      their relative order. */
  lemma {:induction false} FilterConcat<T>(a: seq<T>, b: seq<T>, p: T -> bool)
    ensures Filter(a + b, p) == Filter(a, p) + Filter(b, p)
  {
    if a == [] {
      assert a + b == b;
    } else {
      assert (a + b)[1..] == a[1..] + b;
      FilterConcat(a[1..], b, p);
    }
  }

  /** The positions of `s` whose element satisfies `p`. */
  ghost function Positions<T>(s: seq<T>, p: T -> bool): set<int>
  {
    set i | 0 <= i < |s| && p(s[i])
  }

  /** A filter keeps as many elements as there are positions satisfying
      the predicate. */
  lemma {:induction false} FilterCount<T>(s: seq<T>, p: T -> bool)
    ensures |Filter(s, p)| == |Positions(s, p)|
  {
    if s != [] {
      var n := |s| - 1;
      var q, x := s[..n], s[n];
      assert s == q + [x];
      FilterCount(q, p);
      FilterSnocLength(q, x, p);
      PositionsSnoc(q, x, p);
    }
  }

  lemma FilterSnocLength<T>(q: seq<T>, x: T, p: T -> bool)
    ensures |Filter(q + [x], p)| == |Filter(q, p)| + (if p(x) then 1 else 0)
  {
    FilterConcat(q, [x], p);
    assert [x][1..] == [];
  }

  lemma PositionsSnoc<T>(q: seq<T>, x: T, p: T -> bool)
    ensures |Positions(q + [x], p)| == |Positions(q, p)| + (if p(x) then 1 else 0)
  {
    var s, n := q + [x], |q|;
    var a, b := Positions(q, p), Positions(s, p);
    assert forall i :: 0 <= i < n ==> q[i] == s[i];
    assert n !in a;
    if p(x) {
      assert b == a + {n};
    } else {
      assert b == a;
    }
  }

  /** A head kept in front of a tail whose filter gained `w` at the end. */
  lemma {:induction false} FilterConsAppend<T>(h: T, u: seq<T>, v: seq<T>, w: seq<T>, p: T -> bool)
    requires Filter(v, p) == Filter(u, p) + Filter(w, p)
    ensures Filter([h] + v, p) == Filter([h] + u, p) + Filter(w, p)
  {
    var a, b, c := Filter([h], p), Filter(u, p), Filter(w, p);
    FilterConcat([h], u, p);
    FilterConcat([h], v, p);
    ConcatAssoc(a, b, c);
  }

  lemma ConcatAssoc<T>(a: seq<T>, b: seq<T>, c: seq<T>)
    ensures a + (b + c) == (a + b) + c
  {
  }

  /** Filtering by a predicate and by its negation splits the sequence: every
      element lands in exactly one of the two halves, with its multiplicity. */
  lemma {:induction false} FilterComplement<T>(s: seq<T>, p: T -> bool, q: T -> bool)
    requires forall x :: q(x) == !p(x)
    ensures multiset(Filter(s, p)) + multiset(Filter(s, q)) == multiset(s)
    ensures |Filter(s, p)| + |Filter(s, q)| == |s|
  {
    if s != [] {
      FilterComplement(s[1..], p, q);
      assert s == [s[0]] + s[1..];
    }
  }

  /** Filtering by a predicate no element satisfies keeps nothing. */
  lemma FilterNone<T>(s: seq<T>, p: T -> bool)
    requires forall i :: 0 <= i < |s| ==> !p(s[i])
    ensures Filter(s, p) == []
  {
  }

  /** Filtering by a predicate every element satisfies keeps everything. */
  lemma {:induction false} FilterAll<T>(s: seq<T>, p: T -> bool)
    requires forall i :: 0 <= i < |s| ==> p(s[i])
    ensures Filter(s, p) == s
  {
    if s != [] {
      FilterAll(s[1..], p);
      assert [s[0]] + s[1..] == s;
    }
  }

  /** An element appended at the end and failing `p` is all the filter drops. */
  lemma FilterDescartaUltimo<T>(s: seq<T>, x: T, p: T -> bool)
    requires forall i :: 0 <= i < |s| ==> p(s[i])
    requires !p(x)
    ensures Filter(s + [x], p) == s
  {
    FilterAll(s, p);
    FilterConcat(s, [x], p);
    assert [x][1..] == [];
  }

  /** `s.find(p)`: the first element satisfying `p`, if any. */
  function Find<T>(s: seq<T>, p: T -> bool): (r: Option<T>)
    ensures r.None? <==> forall i :: 0 <= i < |s| ==> !p(s[i])
    ensures r.Some? ==> exists i :: 0 <= i < |s| && s[i] == r.value && p(s[i]) && forall j :: 0 <= j < i ==> !p(s[j])
  {
    if s == [] then None
    else if p(s[0]) then Some(s[0])
    else
      var r := Find(s[1..], p);
      if r.Some? then FindShift(s, p, r.value); r else r
  }

  lemma FindShift<T>(s: seq<T>, p: T -> bool, x: T)
    requires s != [] && !p(s[0])
    requires exists i :: 0 <= i < |s[1..]| && s[1..][i] == x && p(s[1..][i]) && forall j :: 0 <= j < i ==> !p(s[1..][j])
    ensures exists i :: 0 <= i < |s| && s[i] == x && p(s[i]) && forall j :: 0 <= j < i ==> !p(s[j])
  {
    var i :| 0 <= i < |s[1..]| && s[1..][i] == x && p(s[1..][i]) && forall j :: 0 <= j < i ==> !p(s[1..][j]);
    assert s[i + 1] == x && forall j :: 1 <= j < i + 1 ==> s[j] == s[1..][j - 1];
  }

  /** A filter by a weaker predicate keeps at least as many elements. */
  lemma {:induction false} FilterMonotone<T>(s: seq<T>, p: T -> bool, q: T -> bool)
    requires forall x :: p(x) ==> q(x)
    ensures |Filter(s, p)| <= |Filter(s, q)|
  {
    if s != [] {
      FilterMonotone(s[1..], p, q);
    }
  }

  /** Filtering first by a weaker predicate changes nothing. */
  lemma {:induction false} FilterAbsorb<T>(s: seq<T>, p: T -> bool, q: T -> bool)
    requires forall x :: q(x) ==> p(x)
    ensures Filter(Filter(s, p), q) == Filter(s, q)
  {
    if s != [] {
      FilterAbsorb(s[1..], p, q);
      var f := Filter(s, p);
      if p(s[0]) {
        assert f == [s[0]] + Filter(s[1..], p);
        assert f[0] == s[0] && f[1..] == Filter(s[1..], p);
        assert Filter(f, q) == (if q(s[0]) then [s[0]] else []) + Filter(f[1..], q);
      } else {
        assert f == Filter(s[1..], p);
        assert !q(s[0]);
      }
    }
  }

  /** `r` is `s` with some elements left out, the rest in their order. */
  predicate SubsequenceOf<T(==)>(r: seq<T>, s: seq<T>)
  {
    if r == [] then true
    else if s == [] then false
    else if r[0] == s[0] then SubsequenceOf(r[1..], s[1..])
    else SubsequenceOf(r, s[1..])
  }

  lemma {:induction false} FilterSubsequence<T>(s: seq<T>, p: T -> bool)
    ensures SubsequenceOf(Filter(s, p), s)
  {
    if s != [] {
      FilterSubsequence(s[1..], p);
      var r := Filter(s, p);
      if p(s[0]) {
        assert r[0] == s[0] && r[1..] == Filter(s[1..], p);
      } else {
        assert r == Filter(s[1..], p);
        SkipHead(r, s);
      }
    }
  }

  /** A subsequence of the tail is a subsequence of the whole. */
  lemma {:induction false} SkipHead<T>(r: seq<T>, s: seq<T>)
    requires s != [] && SubsequenceOf(r, s[1..])
    ensures SubsequenceOf(r, s)
    decreases |s|, 0
  {
    if r != [] && r[0] == s[0] {
      DropHead(r, s[1..]);
    }
  }

  /** Leaving out the first element of a subsequence keeps it one. */
  lemma {:induction false} DropHead<T>(r: seq<T>, t: seq<T>)
    requires r != [] && SubsequenceOf(r, t)
    ensures SubsequenceOf(r[1..], t)
    decreases |t|, 1
  {
    if r[0] == t[0] {
      SkipHead(r[1..], t);
    } else {
      DropHead(r, t[1..]);
      SkipHead(r[1..], t);
    }
  }

  /** `y => y !== x`. */
  function Distinto(x: int): int -> bool
  {
    y => y != x
  }

  /** `s.filter(y => y !== x)`. */
  function RemoveAll(s: seq<int>, x: int): (r: seq<int>)
    ensures x !in r
    ensures forall y :: y != x ==> (y in r <==> y in s)
    ensures x !in s ==> r == s
  {
    if s == [] then [] else (if s[0] == x then [] else [s[0]]) + RemoveAll(s[1..], x)
  }

  /** Removing every copy of `x` is the filter by `Distinto(x)`. */
  lemma {:induction false} RemoveAllIsFilter(s: seq<int>, x: int)
    ensures RemoveAll(s, x) == Filter(s, Distinto(x))
  {
    if s != [] {
      RemoveAllIsFilter(s[1..], x);
    }
  }

  /** `s.includes(x) ? s.filter(y => y !== x) : [...s, x]`: a new id goes at
      the end, and a present one is dropped with every copy, the other ids
      keeping their order. */
  function Toggle(s: seq<int>, x: int): (r: seq<int>)
    ensures x in r <==> x !in s
    ensures forall y :: y != x ==> (y in r <==> y in s)
    ensures x !in s ==> r == s + [x]
    ensures x in s ==> r == Filter(s, Distinto(x))
  {
    RemoveAllIsFilter(s, x);
    if x in s then RemoveAll(s, x) else s + [x]
  }

  /** No element appears twice. */
  predicate NoDuplicates<T(==)>(s: seq<T>)
  {
    forall i, j :: 0 <= i < j < |s| ==> s[i] != s[j]
  }

  /** A filter of a list without repeats has no repeats. */
  lemma {:induction false} FilterNoDuplicates<T>(s: seq<T>, p: T -> bool)
    requires NoDuplicates(s)
    ensures NoDuplicates(Filter(s, p))
  {
    if s != [] {
      var t := s[1..];
      assert NoDuplicates(t) by {
        assert forall i :: 0 <= i < |t| ==> t[i] == s[i + 1];
      }
      FilterNoDuplicates(t, p);
      var f := Filter(t, p);
      if p(s[0]) {
        assert s[0] !in f;
        var r := [s[0]] + f;
        assert forall i :: 0 < i < |r| ==> r[i] == f[i - 1];
      }
    }
  }

  /** Toggling keeps a list of ids free of repeats. */
  lemma ToggleNoDuplicates(s: seq<int>, x: int)
    requires NoDuplicates(s)
    ensures NoDuplicates(Toggle(s, x))
  {
    if x in s {
      FilterNoDuplicates(s, Distinto(x));
    } else {
      var r := s + [x];
      assert forall i :: 0 <= i < |s| ==> r[i] == s[i];
    }
  }

  /** Toggling an absent id twice gives back exactly the original list. */
  lemma ToggleTwice(s: seq<int>, x: int)
    requires x !in s
    ensures Toggle(Toggle(s, x), x) == s
  {
    assert x in s + [x];
    RemoveAllAppend(s, x);
  }

  lemma {:induction false} RemoveAllAppend(s: seq<int>, x: int)
    requires x !in s
    ensures RemoveAll(s + [x], x) == s
  {
    if s == [] {
    } else {
      assert (s + [x])[1..] == s[1..] + [x];
      RemoveAllAppend(s[1..], x);
    }
  }

  /** `s.reverse()`. */
  function Reverse<T>(s: seq<T>): (r: seq<T>)
    ensures |r| == |s|
    ensures forall i :: 0 <= i < |s| ==> r[i] == s[|s| - 1 - i]
  {
    if s == [] then [] else [s[|s| - 1]] + Reverse(s[..|s| - 1])
  }
}

=== FILE: strings.dfy ===
/** The JavaScript string operations the pages rely on, over `seq<char>`:
    relational `<` on strings, `String(n)`, `padStart`, `split`, `endsWith`,
    `trim`, `toLowerCase` and template-literal interpolation. */
module Strings {
  import opened Wrappers

  /** JavaScript `a < b` on strings: lexicographic order on characters, a
      proper prefix being smaller. */
  predicate LexLess(a: string, b: string)
  {
    LexLessFrom(a, b, 0)
  }

  /** `a < b` decided from position `i` on, the positions before `i` being
      equal. */
  predicate LexLessFrom(a: string, b: string, i: nat)
    decreases |a| - i
  {
    if i >= |a| then i < |b|
    else if i >= |b| then false
    else if a[i] != b[i] then a[i] < b[i]
    else LexLessFrom(a, b, i + 1)
  }

  lemma {:induction false} LexLessFromIrreflexive(a: string, i: nat)
    ensures !LexLessFrom(a, a, i)
    decreases |a| - i
  {
    if i < |a| {
      LexLessFromIrreflexive(a, i + 1);
    }
  }

  lemma LexLessIrreflexive(a: string)
    ensures !LexLess(a, a)
  {
    LexLessFromIrreflexive(a, 0);
  }

  lemma {:induction false} LexLessFromTransitive(a: string, b: string, c: string, i: nat)
    requires LexLessFrom(a, b, i) && LexLessFrom(b, c, i)
    ensures LexLessFrom(a, c, i)
    decreases |a| - i
  {
    if i < |a| && i < |b| && i < |c| && a[i] == b[i] && b[i] == c[i] {
      LexLessFromTransitive(a, b, c, i + 1);
    }
  }

  lemma LexLessTransitive(a: string, b: string, c: string)
    requires LexLess(a, b) && LexLess(b, c)
    ensures LexLess(a, c)
  {
    LexLessFromTransitive(a, b, c, 0);
  }

  lemma {:induction false} LexLessFromTotal(a: string, b: string, i: nat)
    requires i <= |a| && i <= |b| && a[..i] == b[..i] && a != b
    ensures LexLessFrom(a, b, i) || LexLessFrom(b, a, i)
    decreases |a| - i
  {
    if i < |a| && i < |b| && a[i] == b[i] {
      assert a[..i + 1] == a[..i] + [a[i]] && b[..i + 1] == b[..i] + [b[i]];
      LexLessFromTotal(a, b, i + 1);
    }
  }

  /** Any two distinct strings are ordered one way or the other. */
  lemma LexLessTotal(a: string, b: string)
    requires a != b
    ensures LexLess(a, b) || LexLess(b, a)
  {
    LexLessFromTotal(a, b, 0);
  }

  /** Past a common-length prefix, comparing from the end of the prefix is
      comparing the remainders. */
  lemma {:induction false} LexLessFromShift(p: string, a: string, q: string, b: string, j: nat)
    requires |p| == |q|
    ensures LexLessFrom(p + a, q + b, |p| + j) <==> LexLessFrom(a, b, j)
    decreases |a| - j
  {
    if j < |a| && j < |b| && a[j] == b[j] {
      LexLessFromShift(p, a, q, b, j + 1);
    }
  }

  lemma {:induction false} LexLessFromConcat(a1: string, a2: string, b1: string, b2: string, i: nat)
    requires |a1| == |b1| && i <= |a1|
    ensures LexLessFrom(a1 + a2, b1 + b2, i) <==> LexLessFrom(a1, b1, i) || (a1[i..] == b1[i..] && LexLess(a2, b2))
    decreases |a1| - i
  {
    if i == |a1| {
      LexLessFromShift(a1, a2, b1, b2, 0);
    } else {
      LexLessFromConcat(a1, a2, b1, b2, i + 1);
      assert a1[i..] == [a1[i]] + a1[i + 1..] && b1[i..] == [b1[i]] + b1[i + 1..];
    }
  }

  /** Comparing two concatenations whose first parts have the same length
      compares the first parts, and the second parts only on a tie. */
  lemma LexLessConcat(a1: string, a2: string, b1: string, b2: string)
    requires |a1| == |b1|
    ensures LexLess(a1 + a2, b1 + b2) <==> LexLess(a1, b1) || (a1 == b1 && LexLess(a2, b2))
  {
    LexLessFromConcat(a1, a2, b1, b2, 0);
    assert a1[0..] == a1 && b1[0..] == b1;
  }

  /** A three-way comparison standing in for `localeCompare`: negative,
      zero or positive as `a` sorts before, equal to or after `b`. */
  function LexCompare(a: string, b: string): (r: int)
    ensures r < 0 <==> LexLess(a, b)
    ensures r == 0 <==> a == b
    ensures r > 0 <==> LexLess(b, a)
  {
    LexLessIrreflexive(a);
    if LexLess(a, b) then
      (if LexLess(b, a) then LexLessTransitive(a, b, a); -1 else -1)
    else if a == b then 0
    else LexLessTotal(a, b); 1
  }

  // ---------------------------------------------------------------------
  // Number formatting
  // ---------------------------------------------------------------------

  function DigitChar(d: int): char
    requires 0 <= d < 10
  {
    (48 + d) as char
  }

  function Pow10(w: nat): (r: nat)
    ensures r >= 1
  {
    if w == 0 then 1 else 10 * Pow10(w - 1)
  }

  /** `String(n)` for a non-negative integer: its decimal digits, no padding. */
  function Decimal(n: nat): string
  {
    if n < 10 then [DigitChar(n)] else Decimal(n / 10) + [DigitChar(n % 10)]
  }

  /** The `w` low decimal digits of `n`, most significant first. */
  function Fixed(n: nat, w: nat): (r: string)
    ensures |r| == w
  {
    if w == 0 then [] else Fixed(n / 10, w - 1) + [DigitChar(n % 10)]
  }

  /** `s.padStart(width, fill)`. */
  function PadStart(s: string, width: nat, fill: char): (r: string)
    ensures |r| == if |s| >= width then |s| else width
    ensures r[|r| - |s|..] == s
    ensures forall i :: 0 <= i < |r| - |s| ==> r[i] == fill
  {
    if |s| >= width then s else seq(width - |s|, _ => fill) + s
  }

  /** A number with exactly `w` digits prints as its fixed-width form. */
  lemma {:induction false} DecimalIsFixed(n: nat, w: nat)
    requires 1 <= w && Pow10(w - 1) <= n < Pow10(w)
    ensures Decimal(n) == Fixed(n, w)
  {
    if w == 1 {
      assert Fixed(n / 10, 0) == [];
    } else {
      assert Pow10(w - 2) <= n / 10 < Pow10(w - 1);
      DecimalIsFixed(n / 10, w - 1);
    }
  }

  /** `String(n).padStart(2, '0')` for `n < 100` is the two-digit form. */
  lemma PadTwoIsFixed(n: nat)
    requires n < 100
    ensures PadStart(Decimal(n), 2, '0') == Fixed(n, 2)
  {
    if n < 10 {
      assert Fixed(n, 2) == Fixed(0, 1) + [DigitChar(n)];
      assert Fixed(0, 1) == Fixed(0, 0) + [DigitChar(0)];
      assert PadStart(Decimal(n), 2, '0') == ['0'] + [DigitChar(n)];
    } else {
      DecimalIsFixed(n, 2);
    }
  }

  /** Fixed-width digit strings of numbers below `10^w` are equal exactly
      when the numbers are. */
  lemma {:induction false} FixedInjective(n: nat, m: nat, w: nat)
    requires n < Pow10(w) && m < Pow10(w)
    ensures Fixed(n, w) == Fixed(m, w) <==> n == m
  {
    if w > 0 {
      FixedInjective(n / 10, m / 10, w - 1);
      var a, b := Fixed(n / 10, w - 1), Fixed(m / 10, w - 1);
      if Fixed(n, w) == Fixed(m, w) {
        assert a == Fixed(n, w)[..w - 1] && b == Fixed(m, w)[..w - 1];
        assert DigitChar(n % 10) == Fixed(n, w)[w - 1];
      }
    }
  }

  /** On fixed-width digit strings, string order is numeric order. */
  lemma {:induction false} FixedOrder(n: nat, m: nat, w: nat)
    requires n < Pow10(w) && m < Pow10(w)
    ensures LexLess(Fixed(n, w), Fixed(m, w)) <==> n < m
  {
    if w == 0 {
    } else {
      FixedOrder(n / 10, m / 10, w - 1);
      FixedInjective(n / 10, m / 10, w - 1);
      var c, d := DigitChar(n % 10), DigitChar(m % 10);
      LexLessConcat(Fixed(n / 10, w - 1), [c], Fixed(m / 10, w - 1), [d]);
      assert LexLess([c], [d]) <==> c < d by {
        assert LexLessFrom([c], [d], 1) == false;
      }
      assert n < m <==> n / 10 < m / 10 || (n / 10 == m / 10 && n % 10 < m % 10);
    }
  }

  // ---------------------------------------------------------------------
  // Text helpers
  // ---------------------------------------------------------------------

  /** `s.endsWith(suffix)`. */
  predicate EndsWith(s: string, suffix: string)
  {
    |suffix| <= |s| && s[|s| - |suffix|..] == suffix
  }

  /** `s.split(sep)` for a one-character separator: the pieces between
      separators, empty pieces included, always at least one piece. */
  function Split(s: string, sep: char): (r: seq<string>)
    ensures |r| >= 1
  {
    if s == [] then [""]
    else
      var rest := Split(s[1..], sep);
      if s[0] == sep then [""] + rest else [[s[0]] + rest[0]] + rest[1..]
  }

  lemma {:induction false} SplitNoSeparator(s: string, sep: char)
    requires sep !in s
    ensures Split(s, sep) == [s]
  {
    if s != [] {
      SplitNoSeparator(s[1..], sep);
      assert [s[0]] + s[1..] == s;
    }
  }

  /** Splitting `a + [sep] + b` where `a` holds no separator yields `a`
      followed by the pieces of `b`. */
  lemma {:induction false} SplitAtFirst(a: string, sep: char, b: string)
    requires sep !in a
    ensures Split(a + [sep] + b, sep) == [a] + Split(b, sep)
  {
    if a == [] {
      assert a + [sep] + b == [sep] + b;
      assert ([sep] + b)[1..] == b;
    } else {
      assert (a + [sep] + b)[1..] == a[1..] + [sep] + b;
      SplitAtFirst(a[1..], sep, b);
      assert [a[0]] + a[1..] == a;
    }
  }

  /** The characters `String.prototype.trim` removes that this model covers. */
  predicate IsSpace(c: char)
  {
    c == ' ' || c == '\t' || c == '\n' || c == '\r' || c == '\U{000B}' || c == '\U{000C}'
    || c == '\U{00A0}' || c == '\U{FEFF}'
  }

  function TrimStart(s: string): (r: string)
    ensures |r| <= |s|
    ensures r == s[|s| - |r|..]
    ensures |r| > 0 ==> !IsSpace(r[0])
  {
    if s != [] && IsSpace(s[0]) then TrimStart(s[1..]) else s
  }

  function TrimEnd(s: string): (r: string)
    ensures |r| <= |s|
    ensures r == s[..|r|]
    ensures |r| > 0 ==> !IsSpace(r[|r| - 1])
  {
    if s != [] && IsSpace(s[|s| - 1]) then TrimEnd(s[..|s| - 1]) else s
  }

  /** `s.trim()`. */
  function Trim(s: string): string
  {
    TrimEnd(TrimStart(s))
  }

  /** A string trims to nothing exactly when it is all whitespace. */
  lemma {:induction false} TrimEmpty(s: string)
    ensures Trim(s) == "" <==> forall i :: 0 <= i < |s| ==> IsSpace(s[i])
  {
    var t := TrimStart(s);
    TrimStartEmpty(s);
    TrimEndEmpty(t);
    if t != [] {
      assert !IsSpace(t[0]);
      assert t[0] == s[|s| - |t|];
    }
  }

  lemma {:induction false} TrimStartEmpty(s: string)
    ensures TrimStart(s) == "" <==> forall i :: 0 <= i < |s| ==> IsSpace(s[i])
  {
    if s != [] && IsSpace(s[0]) {
      TrimStartEmpty(s[1..]);
      assert forall i :: 1 <= i < |s| ==> s[i] == s[1..][i - 1];
    }
  }

  lemma {:induction false} TrimEndEmpty(s: string)
    ensures TrimEnd(s) == "" <==> forall i :: 0 <= i < |s| ==> IsSpace(s[i])
  {
    if s != [] && IsSpace(s[|s| - 1]) {
      TrimEndEmpty(s[..|s| - 1]);
      assert forall i :: 0 <= i < |s| - 1 ==> s[i] == s[..|s| - 1][i];
    }
  }

  /** `c.toLowerCase()` on the ASCII letters; other characters unchanged. */
  function LowerChar(c: char): char
  {
    if 'A' <= c <= 'Z' then (c as int + 32) as char else c
  }

  function ToLower(s: string): (r: string)
    ensures |r| == |s|
    ensures forall i :: 0 <= i < |s| ==> r[i] == LowerChar(s[i])
  {
    seq(|s|, i requires 0 <= i < |s| => LowerChar(s[i]))
  }

  /** `${x}` for a nullable string: `null` prints as the text "null". */
  function Interpolate(x: Option<string>): string
  {
    if x.Some? then x.value else "null"
  }

  /** `x || fallback` for a nullable string: null and "" are falsy. */
  function OrElse(x: Option<string>, fallback: string): (r: string)
    ensures x.Some? && x.value != "" ==> r == x.value
    ensures x.None? || x.value == "" ==> r == fallback
  {
    if x.Some? && x.value != "" then x.value else fallback
  }
}

=== FILE: table.dfy ===
/** A repository as a map from generated ids to rows. Ids are handed out in
    increasing order, as an identity column does, so a fresh id never names
    an existing row. */
module Tables {

  datatype Table<T> = Table(rows: map<int, T>, nextId: int)
  {
    /** Every stored id is positive and below the next id to hand out. */
    predicate Valid()
    {
      nextId >= 1 && forall id :: id in rows ==> 1 <= id < nextId
    }
  }

  /** The outcome of `save` on a new entity: the store and the id assigned. */
  datatype Inserted<T> = Inserted(table: Table<T>, id: int)

  function Empty<T>(): (t: Table<T>)
    ensures t.Valid() && t.rows == map[]
  {
    Table(map[], 1)
  }

  /** `findAll`, or a derived `findBy…` query: the stored rows that pass
      `incluir`, each as stored. */
  function Listar<T>(t: Table<T>, incluir: T -> bool): (r: map<int, T>)
    ensures forall id :: id in r <==> id in t.rows && incluir(t.rows[id])
    ensures forall id :: id in r ==> r[id] == t.rows[id]
  {
    map id | id in t.rows && incluir(t.rows[id]) :: t.rows[id]
  }

  /** Saves a new row under a fresh id; every existing row stays as it was. */
  function Insert<T>(t: Table<T>, v: T): (r: Inserted<T>)
    requires t.Valid()
    ensures r.table.Valid()
    ensures r.id !in t.rows && r.id in r.table.rows && r.table.rows[r.id] == v
    ensures r.table.rows.Keys == t.rows.Keys + {r.id}
    ensures forall id :: id in t.rows ==> r.table.rows[id] == t.rows[id]
  {
    Inserted(Table(t.rows[t.nextId := v], t.nextId + 1), t.nextId)
  }

  /** Saves an existing row again, with new contents. */
  function Put<T>(t: Table<T>, id: int, v: T): (r: Table<T>)
    requires id in t.rows
    ensures t.Valid() ==> r.Valid()
    ensures r.rows.Keys == t.rows.Keys && r.nextId == t.nextId
    ensures r.rows[id] == v
    ensures forall k :: k in t.rows && k != id ==> r.rows[k] == t.rows[k]
  {
    t.(rows := t.rows[id := v])
  }

  /** Two successive saves of the same row keep only the second. */
  lemma PutPut<T>(t: Table<T>, id: int, v: T, w: T)
    requires id in t.rows
    ensures Put(Put(t, id, v), id, w) == Put(t, id, w)
  {
    assert Put(Put(t, id, v), id, w).rows == Put(t, id, w).rows;
  }

  /** Saving a row with the contents it already has changes nothing. */
  lemma PutSame<T>(t: Table<T>, id: int)
    requires id in t.rows
    ensures Put(t, id, t.rows[id]) == t
  {
    assert Put(t, id, t.rows[id]).rows == t.rows;
  }
}

=== FILE: views.dfy ===
/** The records the pages receive from the backend as JSON. Strings the
    backend may send as null are optional; money is in cents. */
module Views {
  import opened Wrappers
  import opened Calendar
  import opened Strings
  import opened Seqs

  datatype AtributoV = AtributoV(idAtributo: int, nombre: string)

  datatype ClienteV = ClienteV(
    idCliente: int,
    nombre: Option<string>,
    apellido: Option<string>,
    direccion: Option<string>,
    telefono: Option<string>,
    activo: bool)

  datatype ProductoV = ProductoV(
    idProducto: int,
    nombre: Option<string>,
    unidad: Option<string>,
    precioBase: int,
    activo: bool,
    atributosValidos: seq<AtributoV>)

  /** An option; its category may come nested in `atributo` or flat in
      `idAtributo`, and either may be missing. */
  datatype OpcionV = OpcionV(
    idOpcion: int,
    nombre: string,
    precioExtra: int,
    idAtributo: Option<int>,
    atributo: Option<AtributoV>)

  /** An order as listed; `total` may be missing. */
  datatype PedidoV = PedidoV(
    idPedido: int,
    fechaEntrega: DateTime,
    total: Option<int>,
    cliente: ClienteV,
    cancelado: bool,
    entregado: bool,
    pagado: bool)

  datatype GastoV = GastoV(idGasto: int, descripcion: string, monto: Option<int>, fecha: Date)

  /** `${c.nombre} ${c.apellido}`. */
  function NombreCompleto(c: ClienteV): (r: string)
    ensures ' ' in r
  {
    var r := Interpolate(c.nombre) + " " + Interpolate(c.apellido);
    assert r[|Interpolate(c.nombre)|] == ' ';
    r
  }

  /** `x || 0` for a possibly missing amount. */
  function MontoOCero(x: Option<int>): int
  {
    x.GetOr(0)
  }

  /** An id held as `number | ''` or `number | null` is truthy when present
      and not 0. */
  predicate Truthy(id: Option<int>)
  {
    id.Some? && id.value != 0
  }

  /** The sum of the orders' totals, a missing total counted as 0. */
  function SumaTotales(ps: seq<PedidoV>): int
  {
    if ps == [] then 0 else SumaTotales(ps[..|ps| - 1]) + MontoOCero(ps[|ps| - 1].total)
  }

  /** `ps.reduce((acc, p) => f(p) ? acc + (p.total || 0) : acc, 0)`: the
      pages' conditional sum of totals, left to right. */
  function SumaSi(ps: seq<PedidoV>, f: PedidoV -> bool): int
  {
    if ps == [] then 0
    else SumaSi(ps[..|ps| - 1], f) + (if f(ps[|ps| - 1]) then MontoOCero(ps[|ps| - 1].total) else 0)
  }

  lemma {:induction false} SumaTotalesConcat(a: seq<PedidoV>, b: seq<PedidoV>)
    ensures SumaTotales(a + b) == SumaTotales(a) + SumaTotales(b)
    decreases |b|
  {
    if b == [] {
      assert a + b == a;
    } else {
      var n := |b| - 1;
      assert (a + b)[..|a + b| - 1] == a + b[..n];
      SumaTotalesConcat(a, b[..n]);
    }
  }

  lemma FiltrarUno(x: PedidoV, f: PedidoV -> bool)
    ensures Filter([x], f) == if f(x) then [x] else []
  {
    assert [x][1..] == [];
  }

  /** The conditional sum is the plain sum of the orders the condition keeps. */
  lemma {:induction false} SumaSiFiltra(ps: seq<PedidoV>, f: PedidoV -> bool)
    ensures SumaSi(ps, f) == SumaTotales(Filter(ps, f))
    decreases |ps|
  {
    if ps != [] {
      var n := |ps| - 1;
      var x := ps[n];
      assert ps == ps[..n] + [x];
      SumaSiFiltra(ps[..n], f);
      FilterConcat(ps[..n], [x], f);
      FiltrarUno(x, f);
      SumaTotalesConcat(Filter(ps[..n], f), Filter([x], f));
      assert SumaTotales([x]) == MontoOCero(x.total) by { assert [x][..0] == []; }
    }
  }

  /** With no negative totals, leaving orders out never raises the sum. */
  lemma {:induction false} SumaFiltradaAcotada(ps: seq<PedidoV>, f: PedidoV -> bool)
    requires forall i :: 0 <= i < |ps| ==> MontoOCero(ps[i].total) >= 0
    ensures SumaTotales(Filter(ps, f)) <= SumaTotales(ps)
    decreases |ps|
  {
    if ps != [] {
      var n := |ps| - 1;
      var x := ps[n];
      assert ps == ps[..n] + [x];
      SumaFiltradaAcotada(ps[..n], f);
      FilterConcat(ps[..n], [x], f);
      FiltrarUno(x, f);
      SumaTotalesConcat(Filter(ps[..n], f), Filter([x], f));
      assert SumaTotales([x]) == MontoOCero(x.total) by { assert [x][..0] == []; }
    }
  }
}

=== FILE: wrappers.dfy ===
/** Optional values and results shared by the backend and the frontend model.
    `None` stands for Java's `null` and JavaScript's `null`/`undefined`; an
    `Err` result stands for a thrown exception or a rejected form. */
module Wrappers {

  datatype Option<+T> = None | Some(value: T) {

    /** The value, or `default` when absent (Java's `x != null ? x : d`). */
    function GetOr(default: T): T {
      match this
      case Some(v) => v
      case None => default
    }
  }

  datatype Result<+T, +E> = Ok(value: T) | Err(error: E)
}
